=== FILE: README.md ===
# Inference-safe aggregation, modelled in Dafny

The system is a query gateway in front of an `employees` table, plus a set of
inference attacks against it. Every strategy runs a query through one logging
gateway (`execute_with_logging`). The gateway writes exactly one record to the
`query_audit` table. Five disclosure-control strategies wrap the gateway:

- no protection;
- a minimum result size, checked with a derived `COUNT(*)` query;
- Laplace noise on numeric cells;
- overlap control, which compares a SHA-256 digest of the canonical result
  text against the user's 20 most recent history entries, bit by bit;
- cell suppression of rows whose count column falls below a minimum.

`AggregationComparator` runs one query through all five strategies.

The attack side has four attacks that issue fixed parameterised queries
through the store and infer individual salaries:

- differencing, from two averages;
- tracker, from two threshold counts;
- sum, from a department total and the salaries already known;
- linear system, from one equation per left-out employee.

`AttackSuite` runs all four.

The model is split into these modules:

- **Basics**: `Option`; `Verdict`, which is a Python call that returns or raises; dictionaries as key-distinct association lists; sums and permutations.
- **Text**: ASCII `lower`; `strip` over Python's `str.isspace` set; `find`, `startswith`, `str(int)`, and `:.2f` formatting.
- **Sorting**: Python's code-point string order and a stable sort by key.
- **Digests**: hex digests, `bin(int(h, 16))[2:].zfill(256)`, and the bit-match overlap.
- **Database**: driver values, rows, the audit log and the query history, the canonical result text, and `get_query_history`.
- **Aggregation**: the gateway, the five strategies and the comparator.
- **Employees**: the table, the WHERE clauses the attacks use, and the answers an honest store gives.
- **Linear**: the attack's equations, and an explicit inverse of its first `n` rows.
- **Attacks**: the four attacks and the suite, with the same branches and error reports as the Python code.
- **HonestStore** and **AttackProofs**: what each attack reports when run against an honest store.

The main theorems are:

- differencing recovers a salary exactly;
- the tracker infers exactly `salary > threshold`;
- the sum attack names and prices the one unknown employee;
- against a sound solver, the linear-system attack reports every employee of a department under their name with their exact salary; it fails only when the solver declares the system singular.

The store, SHA-256, the Laplace sampler and `np.linalg.solve` are parameters.
The store is a function from a request to rows or a failure. SHA-256 is a
function to 64-character lower-case hex strings. The sampler is the noise drawn
for each row and column. The solver returns a solution or `None`; `Sound`
states that any solution it returns solves the system. Timestamps are left
out: the order in which entries are appended stands for `execution_time`.

## Model

| member | source | states |
|---|---|---|
| Database.LogQueryAudit | src/database.py:132-149 | appends exactly one audit record holding the given user, text, count, flag and reason; earlier records and the history are untouched |
| Database.ResultHash | src/database.py:160-164 | a missing or empty result set has no hash; otherwise the hash is the digest of the canonical text of the rows |
| Database.CanonicalTextOrderFree | src/database.py:163 | the text that gets hashed does not depend on the order in which the store returned the rows |
| Database.StoreQueryHistory | src/database.py:151-174 | appends exactly one history entry, with the user, the digest of the query text, the text and the result hash; the audit log is untouched |
| Database.GetQueryHistory | src/database.py:176-184 | returns at most `limit` entries, all of them from the log and all belonging to the user |
| Database.RecentAfterStore | src/database.py:176-184 | after an entry is stored, it heads the user's recent history, followed by what came before (one fewer) |
| Database.RecentOtherUser | src/database.py:176-184 | storing an entry for one user leaves every other user's recent history unchanged |
| Aggregation.ExecuteWithLogging | src/aggregation_methods.py:17-52 | writes exactly one audit record; blocked exactly when the store raises; on success returns the rows and logs their count; on failure logs count 0 and the error message |
| Aggregation.NoProtectionRun | src/aggregation_methods.py:58-74 | returns the store's rows unchanged under the method name `No Protection`; blocked exactly when the store raises, with the store's error message passed on verbatim as `block_reason`, and no reason otherwise; no protection is reported |
| Aggregation.ConvertToCountQuery | src/aggregation_methods.py:137-146 | always begins with `SELECT COUNT(*) as count FROM `; when the stripped lower-cased text starts with `select` and contains `from`, the rest of the ORIGINAL text is cut at that index plus 4; otherwise the query is wrapped as a subquery |
| Aggregation.CountQueryCutsAfterFirstFrom | src/aggregation_methods.py:140-145 | with `k` leading whitespace characters, the cut lands `k` characters before the end of the first case-insensitive `from` of the original text |
| Aggregation.CountQueryCutsWithoutLeadingSpace | src/aggregation_methods.py:140-145 | when the query starts with no whitespace, the count query is `SELECT COUNT(*) as count FROM ` followed by the original text from just after its first case-insensitive `from` |
| Aggregation.LeadingWhitespaceShiftsCut | src/aggregation_methods.py:140-145 | an illustration on one input of the general CountQueryCutsAfterFirstFrom: with leading whitespace the index into the stripped text is applied to the unstripped text, so `"  SELECT a FROM t"` becomes a count over `OM t` |
| Aggregation.CountOf | src/aggregation_methods.py:108 | no count rows read as 0; a missing `count` column raises; an integer count is returned as is |
| Aggregation.MinimumSizeRun | src/aggregation_methods.py:84-135 | every outcome carries the method name `Minimum Size Restriction`; a failed count query blocks with its error, and the main query never runs; a count below the minimum blocks with the exact reason and logs a second audit record; otherwise the main query's own outcome is returned with `actual_size`, blocked with the store's message verbatim when it fails and with no reason when it succeeds; it raises exactly when the count cannot be read, and the count query's audit record stays written; the history is untouched |
| Aggregation.MinimumSizeBlocksIff | src/aggregation_methods.py:108-127 | given the count the store reports, the strategy blocks exactly when the count is below the minimum or the main query fails |
| Aggregation.NoisyValue | src/aggregation_methods.py:180-186 | an `int`, `bool` or `float` cell gets the noise added and becomes a float; any other cell, a `Decimal` included, is unchanged |
| Aggregation.NoisyRows | src/aggregation_methods.py:177-187 | same number of rows, each with the same keys in the same order, and each cell noised with its own draw |
| Aggregation.DifferentialPrivacyRun | src/aggregation_methods.py:156-196 | one audit record; every returned outcome carries the method name `Differential Privacy`; blocked exactly when the store raises, with its message verbatim as the reason, and no reason otherwise; a failed or empty result has no rows; with rows, it raises exactly when epsilon is not positive and some cell is a number (`1/0` or numpy's `scale < 0`), keeping the query's record; otherwise the rows are noised cell by cell and the originals are returned beside them |
| Aggregation.DifferentialPrivacyRunsDifferOnlyByNoise | src/aggregation_methods.py:176-187 | two runs under different noise both raise or both return, returning exactly when epsilon is positive or no cell is a number; when they return they agree on every non-numeric cell, and differ on each numeric cell by exactly the difference of the draws |
| Aggregation.ZeroEpsilonRaises | src/aggregation_methods.py:176-183 | with epsilon 0, a result holding an `int` raises `ZeroDivisionError` at `1 / self.epsilon`, after exactly the query's own audit record |
| Digests.HexValueInjective | src/aggregation_methods.py:271-272 | two hex digests of equal length with the same integer value are the same string |
| Digests.FixedBitsRoundTrip | src/aggregation_methods.py:271-272 | the 256-bit expansion of a digest's value reads back as that value |
| Digests.ZFillBinIsFixedBits | src/aggregation_methods.py:271-272 | `bin(n)[2:].zfill(w)` equals the fixed-width `w`-bit expansion of `n` |
| Digests.MatchesFullIff | src/aggregation_methods.py:274 | two strings of equal length match in every position exactly when they are equal |
| Digests.MatchesSymmetric | src/aggregation_methods.py:274 | the number of matching positions does not depend on the order of the arguments |
| Digests.Overlap | src/aggregation_methods.py:265-275 | the overlap of two digests lies between 0 and 1 |
| Digests.OverlapSymmetric | src/aggregation_methods.py:265-275 | overlap is symmetric |
| Digests.OverlapOneIff | src/aggregation_methods.py:265-275 | overlap is 1 exactly when the two digests are equal |
| Aggregation.FirstOverlap | src/aggregation_methods.py:235-252 | finds an entry exactly when some recent entry with a stored hash overlaps more than the threshold; the bits it reports are those of the first such entry |
| Aggregation.OverlapControlRun | src/aggregation_methods.py:206-263 | every outcome carries the method name `Overlap Control`; a failed or empty execution stores no history and reports the store's message verbatim on failure and no reason on an empty result; otherwise it blocks exactly when one of the user's 20 most recent entries overlaps too much; a block reports the first such entry's overlap, formatted to two places, as `block_reason`, stores no history, and adds a second audit record flagged blocked with the result count and that reason followed by ` > ` and the threshold; else it returns the rows with no block reason and appends exactly one history entry |
| Aggregation.OverlapBlocksRepeat | src/aggregation_methods.py:230-255 | once a result set is admitted, the same user asking again for the same rows, in any order, is blocked, for every threshold below 1 |
| Aggregation.CountColumn | src/aggregation_methods.py:311-316 | the first column whose lower-cased name contains `count`, or none when no column qualifies |
| Aggregation.SuppressRow | src/aggregation_methods.py:321 | same keys; the count column is nulled and every other column is replaced by `SUPPRESSED` |
| Aggregation.CellSuppressionRowIff | src/aggregation_methods.py:310-324 | a row is altered exactly when its count column holds a value below the minimum, and it is then suppressed as described; other rows pass through unchanged |
| Aggregation.SuppressRows | src/aggregation_methods.py:307-324 | raises exactly when some row's count value cannot be compared with an int; otherwise each row is kept or suppressed in place, and the number suppressed is counted |
| Aggregation.CellSuppressionRun | src/aggregation_methods.py:285-333 | raises exactly when some returned row's count value cannot be compared with an int, and its audit record stays written; every returned outcome carries the method name `Cell Suppression`; a failed or empty result has no rows and reports the store's message verbatim on failure and no reason on an empty result; a non-empty result is never blocked, row `i` of it is row `i` of the store's rows kept or suppressed by the row rule, the original rows are returned beside them, and the number suppressed is reported; one audit record |
| Aggregation.Aggregate | src/aggregation_methods.py:58-333 | every strategy keeps "blocked means no rows" and only appends to the logs, also when it raises; it writes at least one audit record and at most two (minimum size, overlap control) or one (the others); only overlap control touches the history; only minimum size, cell suppression and differential privacy with a non-positive epsilon can raise |
| Aggregation.RunAll | src/aggregation_methods.py:358-362 | one outcome per strategy, in order and under its key; outcome `i` carries strategy `i`'s method name and is what strategy `i` returns when run on some extension of the given logs, the first of them on the given logs themselves; every outcome is coherent; the logs are only appended to, at least one record per strategy and at most each strategy's maximum; an exception stops the pass, comes from a strategy that can raise (minimum size, cell suppression, or differential privacy with a non-positive epsilon), and leaves the records already written |
| Aggregation.CompareAll | src/aggregation_methods.py:336-362 | the outcomes of the five default strategies under their keys, in order, each carrying its strategy's method name and being what that strategy returns on some extension of the given logs, `no_protection`'s on the given logs themselves; between 5 and 7 audit records and at most one history entry |
| Attacks.Fetch | src/attacks.py:16-28 | the store's rows, or none exactly when the store raises |
| Attacks.Differencing | src/attacks.py:37-133 | a failed first query gives the first-query failure report; success and the absence of a reason coincide; success implies the second query returned rows |
| Attacks.DifferencingRest | src/attacks.py:83-133 | a failed second query gives no inferred salary; success implies the second query returned rows |
| Attacks.DifferencingSuccess | src/attacks.py:117-133 | the report carries an error exactly when the verified salary is present and non-zero, and the error is then the absolute difference |
| AttackProofs.DifferencingGiven | src/attacks.py:58-133 | when both averages and counts come back, the inferred salary is `avg1 * count1 - avg2 * count2` and the report is the success report built from it and the verified salary |
| AttackProofs.DifferencingRecoversSalary | src/attacks.py:58-133 | against an honest store, any employee whose name no other row shares and who has a colleague in the department has their salary inferred exactly, with zero error whenever the salary is non-zero |
| Attacks.Tracker | src/attacks.py:141-224 | an unknown target gives the not-found report; on success `actual_high_earner` is present exactly when the verified salary is non-zero, and `correct` compares it with the inference |
| Attacks.TrackerFailedCountIsZero | src/attacks.py:182-200 | a failed first count reads as 0, so the target is not inferred to be a high earner |
| AttackProofs.TrackerGiven | src/attacks.py:162-224 | when the department and both counts come back, the tracker succeeds and infers a high earner exactly when the first count exceeds the second; with a non-zero verified salary, the actual flag is `salary > threshold` |
| AttackProofs.HighEarnerCounts | src/attacks.py:175-200 | leaving an employee out lowers the count of the department's high earners exactly when that employee earns above the threshold |
| AttackProofs.TrackerInfersThreshold | src/attacks.py:141-224 | against an honest store, for a target whose name no other row shares, the tracker infers exactly whether the target earns above the threshold, and marks itself correct whenever the salary is non-zero |
| Attacks.SumInference | src/attacks.py:296-314 | with exactly one unknown employee, every name it credits is the name of a row of the department's name-and-salary query, is not already known, and is credited the unknown sum; otherwise nothing is credited |
| Attacks.SumAttack | src/attacks.py:233-326 | failed totals give the totals failure report; otherwise the unknown sum plus the known sum is the total, success means exactly one unknown employee, and every inferred entry is an unknown name, taken from a row of the department's name-and-salary query, holding the unknown sum |
| Attacks.SumFromTotals | src/attacks.py:279-326 | the report's sums and counts are the totals less what is known; success holds exactly when one employee is unknown, and then every inferred name is a row of the department's name-and-salary query |
| Attacks.InferMissing | src/attacks.py:307-309 | every name credited, beyond those already present, is the text name of one of the rows walked, is not among the known salaries and holds the unknown sum; names already present stay present |
| AttackProofs.SumRecoversMissingSalary | src/attacks.py:233-326 | against an honest store, for a department whose employees have distinct names (other departments may repeat them), knowing every salary but one, the attack succeeds and reports exactly that employee with their salary |
| Attacks.FirstEquation | src/attacks.py:379-388 | contributes one all-ones equation exactly when the average query returns rows |
| Attacks.ExclusionEquation | src/attacks.py:391-402 | contributes at most one equation, and that equation is the one that leaves out employee `i` |
| Attacks.ExclusionEquations | src/attacks.py:390-402 | collects at most one equation per remaining employee, each of which leaves out one of those employees |
| Attacks.Entry | src/attacks.py:416-427 | the error is non-negative and zero exactly when the inference is exact; the percentage is absent exactly when the actual salary is 0 |
| Attacks.Entries | src/attacks.py:415-427 | raises exactly when some row lacks a solver value, a float salary or a text name; otherwise the keys are exactly the row names, the last row with each name leaves the entry pairing the solver's value for that row with its recorded salary, and every entry pairs some row's solver value with that row's salary |
| Attacks.SolveAndReport | src/attacks.py:404-452 | fewer than `n` equations give the "Not enough equations" report; a solver refusal gives the singular report; once the solver answers, the attack raises exactly when some row cannot be read; success reports `n` and the number of equations, and its results hold exactly the employees' names, each last row with a name holding the solution's value for it against its recorded salary |
| Attacks.LinearSystemAttack | src/attacks.py:335-452 | fewer than two employees gives the not-enough-employees report; success reports at least as many equations as employees |
| Linear.RecoverSolves | src/attacks.py:379-411 | the system of the first `n` equations always has a solution, namely its explicit inverse applied to the constants |
| Linear.SolutionIsUnique | src/attacks.py:379-411 | every solution of the first `n` equations equals that inverse, so the system is nonsingular |
| Linear.TrueSalariesSolve | src/attacks.py:379-411 | the true salaries satisfy the equations built from consistent data, and they are the unique solution |
| AttackProofs.LinearRecoversSalaries | src/attacks.py:335-452 | against an honest store and a sound solver, with a department of two or more whose employees have distinct names (other departments may repeat them): the attack returns and can only fail as singular; when it succeeds it uses `n + 1` equations, its results have exactly the department's names as keys, and each employee's entry holds their salary as both the inferred and the actual value, with zero error |
| Attacks.Successful | src/attacks.py:521 | counts the successful reports: 4 exactly when all succeeded, 0 exactly when none did |
| Attacks.RunSuite | src/attacks.py:467-524 | when the suite returns, its four reports are exactly what the four attacks return on their targets |
| Text.IntToStringRoundTrip | src/aggregation_methods.py:116 | the decimal text of an integer parses back to that integer |
| Text.Fixed2 | src/aggregation_methods.py:244-249 | a `:.2f` rendering is digits without a leading zero, a point and two digits, and it reads back as the fraction rounded to hundredths, ties to even |
| Sorting.SortStringsOrderFree | src/aggregation_methods.py:231 | sorting two permutations of the same strings gives the same sequence |

## Left out

- The PostgreSQL connection pool, the connections, and `execute_query` itself are not modelled. The store is a parameter: a function from a request to rows or a failure message.
- `get_table_data`, `set_user_clearance`, `src/least_privilege.py`, `src/polyinstantiation.py`, `web/app.py` and `config.py` are not part of this model.
- The `INSERT`s into `query_audit` and `query_history` are modelled as appends that always succeed. In the Python code a failing audit insert after a successful query would fall into the gateway's `except` branch: the query would be reported as blocked, with the insert's error as the reason. That path is not modelled.
- Timestamps of the audit and history tables are not modelled. The order in which entries are appended stands for `execution_time` in `get_query_history`'s `ORDER BY execution_time DESC`.
- SHA-256 is a parameter, a function into 64-character lower-case hex strings, so the model states nothing about collisions. `OverlapBlocksRepeat` needs only that equal texts hash equally.
- The Laplace sampler `np.random.laplace(0, 1/epsilon)` is a parameter giving the draw for each row and column. Its distribution and the privacy guarantee are out of scope. Its failure for a non-positive epsilon is modelled: `1/0` and a negative scale raise.
- `np.linalg.solve` is a parameter that returns a solution or `None`, where `None` stands for `LinAlgError`. The attack theorem assumes a sound solver (`Linear.Sound`). Its conditioning and rounding are not modelled.
- Floating point is modelled by exact reals. A numpy `inf` or `nan` in `error_pct` (actual salary 0) is `None` in `Attacks.Entry`.
- Database.ValueText: the canonical row text renders Python `repr` of floats and `Decimal`s by their integer part, and does not escape strings. Only the properties the core relies on are stated: the text is a function of the rows, and it does not depend on row order.
- `Text.Lower` folds ASCII letters only; Python's full Unicode case table is not modelled. `Text.Strip` removes exactly the characters of Python's `str.isspace`.
- Aggregation.CountOf: a `COUNT(*)` cell that is not an `int` (a `bool` included) raises instead of being compared. The driver always returns `COUNT(*)` as an `int`.
- The model is sequential. Overlap control reads the history (src/aggregation_methods.py:216) and stores the new entry later, with no lock in between, so two concurrent sessions can both pass the check. Concurrency is not modelled.
- A failing history read in overlap control raises out of `aggregate` in the Python code. The model's history read always succeeds.
- Attacks.Entries: the results dictionary is keyed by strings, so a row whose `name` is not text raises in the model. The Python code keys `results` by whatever value the driver returns (src/attacks.py:422), `None` included. The `employees.name` column is text, so an honest store never takes this path.
- Attacks.SolveAndReport: "some row cannot be read" includes a row whose `name` is not text, which raises in the model and not in the Python code, for the reason given for `Attacks.Entries`.
- Attacks.InferMissing: a department row whose `name` is not text raises in the model. The Python code uses the value as a dictionary key and in an f-string (src/attacks.py:307-308), which any value allows.
- A `department` column that is not text is passed on as it is.
- Attacks.ToCount: a `COUNT(*)` cell that is not an `int` or a `bool` raises in the model. Python's arithmetic on it (src/attacks.py:116, :287 and the linear attack's `cnt`) would accept a `float` or a `Decimal`. The driver always returns `COUNT(*)` as an `int`.
- `ORDER BY name` is modelled as Python's code-point order of names (`Sorting.StrLe`), not a database collation.
- The attacks' SQL texts are modelled as the eleven fixed queries of `Employees.Query` with their parameters. `Employees.Evaluate` says what an honest store returns for each; the attack theorems hold for that store.
- The suite's demo targets (Alice Johnson, Bob Smith at 90000, Operations with Dana Cox known, Finance) are values of the `Attacks.Targets` parameter.
- Console output (`print`) is not modelled. The sum attack's printed average over unknown employees has no effect on its report.
- Attacks.LinearSystemAttack: its own contract states the failure reports and the equation count. Exact recovery is stated by `AttackProofs.LinearRecoversSalaries` for an honest store and a sound solver only.

=== FILE: aggregation.dfy ===
/** The protection pipeline: the logging gateway every strategy executes
    through, the five disclosure-control strategies, and the comparator that
    runs one query through all of them. */
module Aggregation {
  import opened Basics
  import opened Text
  import opened Digests
  import opened Database

  /** A float a strategy is constructed with (epsilon, overlap threshold): its
      value, and the text Python prints for it inside an f-string. */
  datatype FloatSetting = FloatSetting(value: real, text: string)

  /** The five strategies, each carrying the threshold it was constructed with. */
  datatype Strategy =
    | NoProtection
    | MinimumSizeRestriction(minSize: int)
    | DifferentialPrivacy(epsilon: FloatSetting)
    | OverlapControl(threshold: FloatSetting)
    | CellSuppression(minCellSize: int)

  /** What the strategies call outside the core: the store, SHA-256, and the
      Laplace sampler, given as the noise drawn for column `j` of row `i`. */
  datatype Env = Env(store: StoreFn, sha: Sha, noise: (int, int) -> real)

  /** The dictionary `aggregate` returns. */
  datatype Outcome = Outcome(
    methodName: string,
    blocked: bool,
    blockReason: Option<string>,
    results: Option<seq<Row>>,
    protectionApplied: Option<string>,
    originalResults: Option<seq<Row>>)

  /** The invariant every strategy keeps: a blocked outcome carries no rows. */
  predicate Coherent(o: Outcome) {
    o.blocked ==> o.results.None?
  }

  /** An outcome with the logs as they stand after it. */
  datatype Run = Run(outcome: Outcome, db: Db)

  /** A result or the exception that cut the call short, with the logs as they
      stand afterwards. Every store call commits on its own, so the audit
      records written before an exception stay written. */
  datatype Logged<T> = Logged(result: Verdict<T>, db: Db)

  /** `db2` extends `db` by appending only. */
  predicate Extends(db: Db, db2: Db) {
    && |db.audit| <= |db2.audit| && db2.audit[..|db.audit|] == db.audit
    && |db.history| <= |db2.history| && db2.history[..|db.history|] == db.history
  }

  lemma ExtendsTransitive(db: Db, db2: Db, db3: Db)
    requires Extends(db, db2) && Extends(db2, db3)
    ensures Extends(db, db3)
  {
    assert db3.audit[..|db.audit|] == db3.audit[..|db2.audit|][..|db.audit|];
    assert db3.history[..|db.history|] == db3.history[..|db2.history|][..|db.history|];
  }

  // ---------------------------------------------------------------------
  // execute_with_logging

  /** `execute_with_logging`'s `(results, was_blocked, block_reason)` and the
      logs after it. */
  datatype Executed = Executed(results: Option<seq<Row>>, blocked: bool, reason: Option<string>, db: Db)

  /** Run the query and write exactly one audit record, whatever happens. */
  function ExecuteWithLogging(db: Db, store: StoreFn, username: string, req: Request): (e: Executed)
    ensures e.db.history == db.history
    ensures |e.db.audit| == |db.audit| + 1 && e.db.audit[..|db.audit|] == db.audit
    ensures e.blocked <==> e.results.None?
    ensures e.blocked <==> store(req).Failure?
    ensures store(req).Rows? ==>
      && e.results == Some(store(req).rows) && e.reason == None
      && e.db.audit[|db.audit|] == AuditRecord(username, req.text, |store(req).rows|, false, None)
    ensures store(req).Failure? ==>
      && e.reason == Some(store(req).message)
      && e.db.audit[|db.audit|] == AuditRecord(username, req.text, 0, true, Some(store(req).message))
  {
    match store(req)
    case Rows(rows) => Executed(Some(rows), false, None, LogQueryAudit(db, username, req.text, |rows|, false, None))
    case Failure(m) => Executed(None, true, Some(m), LogQueryAudit(db, username, req.text, 0, true, Some(m)))
  }

  /** Two appends to the audit log in a row: the first record stays where it
      was written. */
  lemma TwoRecords(db: Db, db2: Db, db3: Db)
    requires |db2.audit| == |db.audit| + 1 && db2.audit[..|db.audit|] == db.audit && db2.history == db.history
    requires |db3.audit| == |db2.audit| + 1 && db3.audit[..|db2.audit|] == db2.audit && db3.history == db2.history
    ensures Extends(db, db3) && |db3.audit| == |db.audit| + 2 && db3.audit[|db.audit|] == db2.audit[|db.audit|]
  {
    assert db3.audit[..|db.audit|] == db3.audit[..|db2.audit|][..|db.audit|];
    assert db3.audit[|db.audit|] == db3.audit[..|db2.audit|][|db.audit|];
  }

  // ---------------------------------------------------------------------
  // No protection

  function NoProtectionRun(env: Env, db: Db, username: string, req: Request): (r: Run)
    ensures Coherent(r.outcome)
    ensures r.outcome.blocked <==> env.store(req).Failure?
    ensures env.store(req).Rows? ==> r.outcome.results == Some(env.store(req).rows)
    ensures r.outcome.protectionApplied == None
    ensures r.db.history == db.history && |r.db.audit| == |db.audit| + 1
    ensures r.outcome.methodName == "No Protection"
    // The gateway's failure message is passed on verbatim.
    ensures r.outcome.blockReason == (if env.store(req).Failure? then Some(env.store(req).message) else None)
  {
    var e := ExecuteWithLogging(db, env.store, username, req);
    Run(Outcome("No Protection", e.blocked, e.reason, e.results, None, None), e.db)
  }

  // ---------------------------------------------------------------------
  // Minimum size restriction

  const CountPrefix := "SELECT COUNT(*) as count FROM "

  /** `_convert_to_count_query`. The index of `from` is found in the stripped,
      lower-cased copy but used to slice the original text. */
  function ConvertToCountQuery(q: string): (r: string)
    ensures StartsWith(r, CountPrefix)
    ensures var low := Strip(Lower(q));
      if StartsWith(low, "select") && Find(low, "from") != -1
      then Find(low, "from") + 4 <= |q| && r == CountPrefix + q[Find(low, "from") + 4..]
      else r == CountPrefix + "(" + q + ") as subquery"
  {
    var low := Strip(Lower(q));
    if StartsWith(low, "select") && Find(low, "from") != -1 then
      assert OccursAt(low, "from", Find(low, "from"));
      CountPrefix + q[Find(low, "from") + 4..]
    else CountPrefix + "(" + q + ") as subquery"
  }

  /** Whitespace in front of a text moves its first `from` by the length of
      the whitespace. */
  lemma FindFromAfterSpace(s: string, t: string, a: nat)
    requires a + |t| <= |s| && t == s[a..a + |t|] && Contains(t, "from")
    requires forall j :: 0 <= j < a ==> IsSpace(s[j])
    ensures Find(s, "from") == a + Find(t, "from")
  {
    var k := Find(t, "from");
    SliceOfSlice(s, t, a, k, 4);
    assert OccursAt(s, "from", a + k);
    forall j | 0 <= j < a ensures !OccursAt(s, "from", j) {
      assert s[j] != 'f';
      assert j + 4 <= |s| ==> s[j..j + 4][0] == s[j];
    }
    forall j | a <= j < a + k ensures !OccursAt(s, "from", j) {
      assert !OccursAt(t, "from", j - a);
      SliceOfSlice(s, t, a, j - a, 4);
    }
  }

  /** A slice of `t`, itself a slice of `s` from `a`, is the slice of `s`
      shifted by `a`. */
  lemma SliceOfSlice(s: string, t: string, a: nat, i: nat, m: nat)
    requires a + |t| <= |s| && t == s[a..a + |t|] && i + m <= |t|
    ensures t[i..i + m] == s[a + i..a + i + m]
  {
    var ti, si := t[i..i + m], s[a + i..a + i + m];
    forall j | 0 <= j < m ensures ti[j] == si[j] {
      assert ti[j] == t[i + j] == s[a + i + j];
    }
  }

  /** The cut is made at the first case-insensitive `from` of the stripped
      text (which may sit inside an identifier such as `from_date`), but it is
      applied to the unstripped query: with `k` leading whitespace characters
      it lands `k` characters before the end of the first `from`. */
  lemma CountQueryCutsAfterFirstFrom(q: string)
    requires StartsWith(Strip(Lower(q)), "select") && Contains(Strip(Lower(q)), "from")
    ensures Find(Lower(q), "from") != -1 && LeadingSpace(Lower(q)) <= Find(Lower(q), "from")
    ensures ConvertToCountQuery(q) == CountPrefix + q[Find(Lower(q), "from") + 4 - LeadingSpace(Lower(q))..]
  {
    CutAfterFind(q);
    ShiftCut(q, Lower(q), ConvertToCountQuery(q));
  }

  /** A cut just after the stripped text's first `from` is a cut `k`
      characters before the end of the first `from` of the text with its `k`
      leading whitespace characters. */
  lemma ShiftCut(q: string, lq: string, c: string)
    requires Contains(Strip(lq), "from")
    requires Find(Strip(lq), "from") + 4 <= |q| && c == CountPrefix + q[Find(Strip(lq), "from") + 4..]
    ensures Find(lq, "from") == LeadingSpace(lq) + Find(Strip(lq), "from")
    ensures c == CountPrefix + q[Find(lq, "from") + 4 - LeadingSpace(lq)..]
  {
    FindFromAfterSpace(lq, Strip(lq), LeadingSpace(lq));
  }

  /** The count query keeps the original text from just after the stripped
      copy's first `from`. */
  lemma CutAfterFind(q: string)
    requires StartsWith(Strip(Lower(q)), "select") && Contains(Strip(Lower(q)), "from")
    ensures Find(Strip(Lower(q)), "from") + 4 <= |q|
    ensures ConvertToCountQuery(q) == CountPrefix + q[Find(Strip(Lower(q)), "from") + 4..]
  {
  }

  /** When the query does not begin with whitespace, the cut lands right
      after the first case-insensitive `from` of the original text. */
  lemma CountQueryCutsWithoutLeadingSpace(q: string)
    requires q != [] && !IsSpace(q[0])
    requires StartsWith(Strip(Lower(q)), "select") && Contains(Strip(Lower(q)), "from")
    ensures Find(Lower(q), "from") != -1
    ensures ConvertToCountQuery(q) == CountPrefix + q[Find(Lower(q), "from") + 4..]
  {
    CountQueryCutsAfterFirstFrom(q);
    LowerKeepsSpace(q[0]);
    assert LeadingSpace(Lower(q)) == 0;
  }

  /** An illustration on one input of the general statement
      CountQueryCutsAfterFirstFrom: with leading whitespace, the `from` index
      of the stripped copy is applied to the unstripped text. */
  lemma LeadingWhitespaceShiftsCut()
    ensures ConvertToCountQuery("  SELECT a FROM t") == CountPrefix + "OM t"
  {
    var q := "  SELECT a FROM t";
    var low := "select a from t";
    StripExample();
    FindFromExample();
    assert Strip(Lower(q)) == low;
    assert StartsWith(low, "select");
  }

  /** One input worked through Text.Strip and Text.Lower, for
      LeadingWhitespaceShiftsCut; the general facts are their contracts. */
  lemma StripExample()
    ensures Strip(Lower("  SELECT a FROM t")) == "select a from t"
  {
    LowerExample();
    var lq := "  select a from t";
    assert !IsSpace(lq[2]) && IsSpace(lq[0]) && IsSpace(lq[1]);
    assert LeadingSpace(lq[2..]) == 0;
    assert LeadingSpace(lq[1..]) == 1;
    assert LeadingSpace(lq) == 2;
    assert !IsSpace(lq[|lq| - 1]);
    assert TrailingSpace(lq[2..]) == 0;
  }

  /** Text.Lower on the input of LeadingWhitespaceShiftsCut. */
  lemma LowerExample()
    ensures Lower("  SELECT a FROM t") == "  select a from t"
  {
  }

  /** Find on the lowered, stripped input of LeadingWhitespaceShiftsCut. */
  lemma FindFromExample()
    ensures Find("select a from t", "from") == 9
  {
    var low := "select a from t";
    assert OccursAt(low, "from", 9);
    forall j | 0 <= j < 9 ensures !OccursAt(low, "from", j) {
      assert low[j] != 'f';
      assert low[j..j + 4][0] == low[j];
    }
  }

  /** Block reason when the count is below the minimum. */
  function TooSmallReason(count: int, minSize: int): string {
    "Result set too small: " + IntToString(count) + " < " + IntToString(minSize)
  }

  /** `count_results[0]['count'] if count_results else 0`. */
  function CountOf(rows: seq<Row>): (v: Verdict<int>)
    ensures rows == [] ==> v == Returned(0)
    ensures rows != [] && Get(rows[0], "count").None? ==> v.Raised?
    ensures rows != [] && Get(rows[0], "count").Some? && Get(rows[0], "count").value.Int? ==>
      v == Returned(Get(rows[0], "count").value.i)
  {
    if rows == [] then Returned(0)
    else
      var cell: Option<Value> := Get(rows[0], "count");
      match cell
      case None => Raised("KeyError: 'count'")
      case Some(Int(c)) => Returned(c)
      case Some(_) => Raised("TypeError: count is not an int")
  }

  function CountRequest(req: Request): Request {
    req.(text := ConvertToCountQuery(req.text))
  }

  function MinimumSizeRun(minSize: int, env: Env, db: Db, username: string, req: Request): (a: Logged<Outcome>)
    ensures a.result.Returned? ==> Coherent(a.result.value) && a.result.value.methodName == "Minimum Size Restriction"
    ensures a.db.history == db.history && Extends(db, a.db) && |db.audit| + 1 <= |a.db.audit| <= |db.audit| + 2
    // The count query fails: blocked with its reason, and the main query never runs.
    ensures env.store(CountRequest(req)).Failure? ==>
      && a.result.Returned? && a.result.value.blocked && a.result.value.results.None?
      && a.result.value.blockReason == Some(env.store(CountRequest(req)).message)
      && |a.db.audit| == |db.audit| + 1
    // The count cannot be read from the first row: the exception escapes
    // after the count query's own record is committed.
    ensures a.result.Raised? <==>
      env.store(CountRequest(req)).Rows? && CountOf(env.store(CountRequest(req)).rows).Raised?
    ensures a.result.Raised? ==>
      && |a.db.audit| == |db.audit| + 1
      && a.db.audit[|db.audit|]
         == AuditRecord(username, CountRequest(req).text, |env.store(CountRequest(req)).rows|, false, None)
    // The count is below the minimum: blocked with the exact reason.
    ensures env.store(CountRequest(req)).Rows? && CountOf(env.store(CountRequest(req)).rows).Returned? ==>
      var count := CountOf(env.store(CountRequest(req)).rows).value;
      && a.result.Returned?
      && (count < minSize ==>
            && a.result.value.blocked && a.result.value.results.None?
            && a.result.value.blockReason == Some(TooSmallReason(count, minSize))
            && |a.db.audit| == |db.audit| + 2
            && a.db.audit[|db.audit| + 1] == AuditRecord(username, req.text, count, true, Some(TooSmallReason(count, minSize))))
      && (count >= minSize ==>
            && (a.result.value.blocked <==> env.store(req).Failure?)
            && a.result.value.blockReason == (if env.store(req).Failure? then Some(env.store(req).message) else None)
            && (env.store(req).Rows? ==> a.result.value.results == Some(env.store(req).rows))
            && a.result.value.protectionApplied == Some("min_size=" + IntToString(minSize) + ", actual_size=" + IntToString(count)))
  {
    var c := ExecuteWithLogging(db, env.store, username, CountRequest(req));
    var setting := "min_size=" + IntToString(minSize);
    if c.blocked then
      Logged(Returned(Outcome("Minimum Size Restriction", true, c.reason, None, Some(setting), None)), c.db)
    else
      match CountOf(c.results.value)
      case Raised(err) => Logged(Raised(err), c.db)
      case Returned(count) =>
        if count < minSize then
          var reason := TooSmallReason(count, minSize);
          Logged(Returned(Outcome("Minimum Size Restriction", true, Some(reason), None, Some(setting), None)),
                 LogQueryAudit(c.db, username, req.text, count, true, Some(reason)))
        else
          var m := ExecuteWithLogging(c.db, env.store, username, req);
          Logged(Returned(Outcome("Minimum Size Restriction", m.blocked, m.reason, m.results,
                                  Some(setting + ", actual_size=" + IntToString(count)), None)), m.db)
  }

  /** Against a store that reports `count` rows for the count query, minimum
      size blocks exactly when the count is below the minimum or the main
      query itself fails. */
  lemma MinimumSizeBlocksIff(minSize: int, env: Env, db: Db, username: string, req: Request, count: int)
    requires env.store(CountRequest(req)) == Rows([[("count", Int(count))]])
    ensures MinimumSizeRun(minSize, env, db, username, req).result.Returned?
    ensures MinimumSizeRun(minSize, env, db, username, req).result.value.blocked
        <==> count < minSize || env.store(req).Failure?
  {
    assert Get([("count", Int(count))], "count") == Some(Int(count));
  }

  // ---------------------------------------------------------------------
  // Differential privacy

  /** `isinstance(value, (int, float))`: a `bool` is an `int`, a `Decimal`
      is neither. */
  predicate IsNumber(v: Value) {
    v.Int? || v.Bool? || v.Float?
  }

  function Magnitude(v: Value): real
    requires IsNumber(v)
  {
    match v
    case Int(i) => i as real
    case Bool(b) => BoolInt(b) as real
    case Float(f) => f
  }

  /** `value + noise` for numbers (an `int` becomes a `float`); anything else is kept. */
  function NoisyValue(v: Value, noise: real): (r: Value)
    ensures IsNumber(v) ==> r == Float(Magnitude(v) + noise)
    ensures !IsNumber(v) ==> r == v
  {
    match v
    case Int(i) => Float(i as real + noise)
    case Bool(b) => Float(BoolInt(b) as real + noise)
    case Float(f) => Float(f + noise)
    case _ => v
  }

  function NoisyRow(row: Row, i: int, noise: (int, int) -> real): (r: Row)
    ensures Keys(r) == Keys(row)
    ensures forall j :: 0 <= j < |row| ==> r[j].1 == NoisyValue(row[j].1, noise(i, j))
  {
    var r := seq(|row|, j requires 0 <= j < |row| => (row[j].0, NoisyValue(row[j].1, noise(i, j))));
    assert Keys(r) == Keys(row);
    r
  }

  function NoisyRows(rows: seq<Row>, noise: (int, int) -> real): (r: seq<Row>)
    ensures |r| == |rows|
    ensures forall i :: 0 <= i < |rows| ==> r[i] == NoisyRow(rows[i], i, noise)
  {
    seq(|rows|, i requires 0 <= i < |rows| => NoisyRow(rows[i], i, noise))
  }

  /** Some cell of the result set is a number, so the Laplace draw is taken. */
  predicate HasNumber(rows: seq<Row>) {
    exists i, j :: 0 <= i < |rows| && 0 <= j < |rows[i]| && IsNumber(rows[i][j].1)
  }

  /** `np.random.laplace(0, 1 / epsilon)` with a non-positive epsilon: the
      division raises at zero, and numpy refuses a negative scale. */
  function ScaleError(epsilon: real): string {
    if epsilon == 0.0 then "ZeroDivisionError: float division by zero" else "ValueError: scale < 0"
  }

  function DifferentialPrivacyRun(epsilon: FloatSetting, env: Env, db: Db, username: string, req: Request): (a: Logged<Outcome>)
    ensures a.result.Returned? ==> Coherent(a.result.value) && a.result.value.methodName == "Differential Privacy"
    ensures a.result.Returned? ==>
      a.result.value.blockReason == (if env.store(req).Failure? then Some(env.store(req).message) else None)
    ensures a.db.history == db.history && Extends(db, a.db) && |a.db.audit| == |db.audit| + 1
    // The first numeric cell draws noise with scale 1/epsilon, which raises
    // for a non-positive epsilon after the query's record is committed.
    ensures a.result.Raised? <==>
      env.store(req).Rows? && env.store(req).rows != [] && epsilon.value <= 0.0 && HasNumber(env.store(req).rows)
    ensures a.result.Raised? ==>
      && a.result.error == ScaleError(epsilon.value)
      && a.db.audit[|db.audit|] == AuditRecord(username, req.text, |env.store(req).rows|, false, None)
    ensures a.result.Returned? ==> (a.result.value.blocked <==> env.store(req).Failure?)
    ensures (env.store(req).Failure? || env.store(req).rows == []) ==>
      a.result.Returned? && a.result.value.results.None?
    ensures a.result.Returned? && env.store(req).Rows? && env.store(req).rows != [] ==>
      var rows := env.store(req).rows;
      var o := a.result.value;
      && o.results.Some? && |o.results.value| == |rows|
      && o.originalResults == Some(rows)
      && forall i :: 0 <= i < |rows| ==>
           && Keys(o.results.value[i]) == Keys(rows[i])
           && forall j :: 0 <= j < |rows[i]| ==>
                o.results.value[i][j].1 == NoisyValue(rows[i][j].1, env.noise(i, j))
  {
    var e := ExecuteWithLogging(db, env.store, username, req);
    if e.blocked || e.results.value == [] then
      Logged(Returned(Outcome("Differential Privacy", e.blocked, e.reason, None, Some("epsilon=" + epsilon.text), None)), e.db)
    else
      var rows := e.results.value;
      if epsilon.value <= 0.0 && HasNumber(rows) then
        Logged(Raised(ScaleError(epsilon.value)), e.db)
      else
        Logged(Returned(Outcome("Differential Privacy", false, None, Some(NoisyRows(rows, env.noise)),
                                Some("epsilon=" + epsilon.text + ", laplace_noise_added"), Some(rows))), e.db)
  }

  /** Two runs under different noise either both raise or both return; when
      they return they agree on every non-numeric cell and differ on every
      numeric cell by exactly the difference of the noise drawn. */
  lemma DifferentialPrivacyRunsDifferOnlyByNoise(epsilon: FloatSetting, store: StoreFn, sha: Sha,
                                                 noise1: (int, int) -> real, noise2: (int, int) -> real,
                                                 db1: Db, db2: Db, username: string, req: Request,
                                                 i: nat, j: nat)
    requires store(req).Rows? && i < |store(req).rows| && j < |store(req).rows[i]|
    ensures var v := store(req).rows[i][j].1;
      var a1 := DifferentialPrivacyRun(epsilon, Env(store, sha, noise1), db1, username, req).result;
      var a2 := DifferentialPrivacyRun(epsilon, Env(store, sha, noise2), db2, username, req).result;
      && (a1.Returned? <==> a2.Returned?)
      && (a1.Returned? <==> epsilon.value > 0.0 || !HasNumber(store(req).rows))
      && (a1.Returned? ==>
            && a1.value.results.Some? && a2.value.results.Some?
            && (!IsNumber(v) ==> a1.value.results.value[i][j].1 == a2.value.results.value[i][j].1 == v)
            && (IsNumber(v) ==>
                  && a1.value.results.value[i][j].1.Float? && a2.value.results.value[i][j].1.Float?
                  && a1.value.results.value[i][j].1.f - a2.value.results.value[i][j].1.f == noise1(i, j) - noise2(i, j)))
  {
  }

  /** With epsilon 0 a result holding an `int` raises at the division, after
      the query's record is written. */
  lemma ZeroEpsilonRaises(env: Env, db: Db, username: string, req: Request)
    requires env.store(req) == Rows([[("salary", Int(5))]])
    ensures var a := DifferentialPrivacyRun(FloatSetting(0.0, "0.0"), env, db, username, req);
      && a.result == Raised("ZeroDivisionError: float division by zero")
      && a.db.audit == db.audit + [AuditRecord(username, req.text, 1, false, None)]
  {
    var rows: seq<Row> := [[("salary", Int(5))]];
    assert IsNumber(rows[0][0].1);
  }

  // ---------------------------------------------------------------------
  // Overlap control

  /** A history entry whose stored hash overlaps too much with `current`. */
  predicate TooClose(e: HistoryEntry, current: HexDigest, threshold: real) {
    e.resultSetHash.Some? && Overlap(current, e.resultSetHash.value) > threshold
  }

  /** The loop over the recent history: the number of matching bits for the
      first entry that overlaps too much, if any. */
  function FirstOverlap(recent: seq<HistoryEntry>, current: HexDigest, threshold: real): (k: Option<nat>)
    ensures k.Some? <==> exists i :: 0 <= i < |recent| && TooClose(recent[i], current, threshold)
    ensures k.Some? ==> exists i ::
      && 0 <= i < |recent| && TooClose(recent[i], current, threshold)
      && (forall j :: 0 <= j < i ==> !TooClose(recent[j], current, threshold))
      && k.value == OverlapMatches(current, recent[i].resultSetHash.value)
  {
    if recent == [] then None
    else if TooClose(recent[0], current, threshold) then
      Some(OverlapMatches(current, recent[0].resultSetHash.value))
    else
      var k := FirstOverlap(recent[1..], current, threshold);
      assert forall i :: 0 < i < |recent| ==> recent[i] == recent[1..][i - 1];
      k
  }

  /** How many recent history entries overlap control consults. */
  const HistoryWindow: nat := 20

  function OverlapReason(k: nat): string {
    "Query overlap too high: " + Fixed2(k, 256)
  }

  function OverlapControlRun(threshold: FloatSetting, env: Env, db: Db, username: string, req: Request): (r: Run)
    ensures Coherent(r.outcome) && Extends(db, r.db) && r.outcome.methodName == "Overlap Control"
    // A failed or empty execution: no rows, the gateway's flag and reason, no history entry.
    ensures env.store(req).Failure? || env.store(req).rows == [] ==>
      && r.outcome.results.None? && (r.outcome.blocked <==> env.store(req).Failure?)
      && r.outcome.blockReason == (if env.store(req).Failure? then Some(env.store(req).message) else None)
      && r.db.history == db.history && |r.db.audit| == |db.audit| + 1
    ensures env.store(req).Rows? && env.store(req).rows != [] ==>
      var rows := env.store(req).rows;
      var current := env.sha(CanonicalText(rows));
      var recent := GetQueryHistory(db, username, HistoryWindow);
      // Blocked exactly when some recent entry overlaps more than the threshold.
      && (r.outcome.blocked <==> exists i :: 0 <= i < |recent| && TooClose(recent[i], current, threshold.value))
      // Blocked: the first such entry's overlap is reported and logged as a refusal.
      && (r.outcome.blocked ==>
            && FirstOverlap(recent, current, threshold.value).Some?
            && var reason := OverlapReason(FirstOverlap(recent, current, threshold.value).value);
            && r.outcome.blockReason == Some(reason) && r.outcome.results.None?
            && r.db.history == db.history && |r.db.audit| == |db.audit| + 2
            && r.db.audit[|db.audit|] == AuditRecord(username, req.text, |rows|, false, None)
            && r.db.audit[|db.audit| + 1] == AuditRecord(username, req.text, |rows|, true, Some(reason + " > " + threshold.text)))
      && (!r.outcome.blocked ==>
            && r.outcome.results == Some(rows) && r.outcome.blockReason.None?
            && |r.db.audit| == |db.audit| + 1
            && r.db.history == db.history + [HistoryEntry(username, env.sha(req.text), req.text, Some(current))])
  {
    var recent := GetQueryHistory(db, username, HistoryWindow);
    var e := ExecuteWithLogging(db, env.store, username, req);
    var setting := "threshold=" + threshold.text;
    if e.blocked || e.results.value == [] then
      Run(Outcome("Overlap Control", e.blocked, e.reason, None, Some(setting), None), e.db)
    else
      var rows := e.results.value;
      var current := env.sha(CanonicalText(rows));
      match FirstOverlap(recent, current, threshold.value)
      case Some(k) =>
        var db2 := LogQueryAudit(e.db, username, req.text, |rows|, true, Some(OverlapReason(k) + " > " + threshold.text));
        TwoRecords(db, e.db, db2);
        Run(Outcome("Overlap Control", true, Some(OverlapReason(k)), None, Some(setting), None), db2)
      case None =>
        var db2 := StoreQueryHistory(e.db, env.sha, username, req.text, Some(rows));
        assert db2.history == db.history + [HistoryEntry(username, env.sha(req.text), req.text, Some(current))];
        Run(Outcome("Overlap Control", false, None, Some(rows), Some(setting + ", overlap_acceptable"), None), db2)
  }

  /** Once a result set is admitted, the same user asking again for the same
      rows, in any order, is blocked (for any threshold below 1). */
  lemma OverlapBlocksRepeat(threshold: FloatSetting, env: Env, db: Db, username: string, req: Request,
                            env2: Env, req2: Request)
    requires threshold.value < 1.0 && env2.sha == env.sha
    requires env.store(req).Rows? && env.store(req).rows != []
    requires !OverlapControlRun(threshold, env, db, username, req).outcome.blocked
    requires env2.store(req2).Rows? && multiset(env2.store(req2).rows) == multiset(env.store(req).rows)
    ensures OverlapControlRun(threshold, env2, OverlapControlRun(threshold, env, db, username, req).db,
                              username, req2).outcome.blocked
  {
    var rows := env.store(req).rows;
    var rows2 := env2.store(req2).rows;
    var db1 := OverlapControlRun(threshold, env, db, username, req).db;
    var e := ExecuteWithLogging(db, env.store, username, req);
    assert db1 == StoreQueryHistory(e.db, env.sha, username, req.text, Some(rows));
    RecentAfterStore(e.db, env.sha, username, req.text, Some(rows), HistoryWindow);
    var recent := GetQueryHistory(db1, username, HistoryWindow);
    var current := env.sha(CanonicalText(rows));
    assert recent[0].resultSetHash == Some(current);
    assert |rows2| == |multiset(rows2)| == |multiset(rows)| > 0;
    CanonicalTextOrderFree(rows2, rows);
    OverlapOneIff(current, current);
    assert TooClose(recent[0], env2.sha(CanonicalText(rows2)), threshold.value);
  }

  // ---------------------------------------------------------------------
  // Cell suppression

  predicate IsCountName(key: string) {
    Contains(Lower(key), "count")
  }

  function CountColumnFrom(row: Row, i: nat): (c: Option<nat>)
    requires i <= |row|
    ensures c.Some? ==>
      && i <= c.value < |row| && IsCountName(row[c.value].0)
      && forall j :: i <= j < c.value ==> !IsCountName(row[j].0)
    ensures c.None? ==> forall j :: i <= j < |row| ==> !IsCountName(row[j].0)
    decreases |row| - i
  {
    if i == |row| then None
    else if IsCountName(row[i].0) then Some(i)
    else CountColumnFrom(row, i + 1)
  }

  /** The first column whose lower-cased name contains `count`. */
  function CountColumn(row: Row): (c: Option<nat>)
    ensures c.Some? ==>
      && c.value < |row| && IsCountName(row[c.value].0)
      && forall j :: 0 <= j < c.value ==> !IsCountName(row[j].0)
    ensures c.None? ==> forall j :: 0 <= j < |row| ==> !IsCountName(row[j].0)
  {
    CountColumnFrom(row, 0)
  }

  /** Python's `v < bound` against an `int`; None where Python raises `TypeError`. */
  function LessThan(v: Value, bound: int): Option<bool> {
    match v
    case Int(i) => Some(i < bound)
    case Bool(b) => Some(BoolInt(b) < bound)
    case Float(f) => Some(f < bound as real)
    case Decimal(d) => Some(d < bound as real)
    case _ => None
  }

  /** What the loop decides for one row: suppress it or not, or None where
      the comparison raises. */
  function RowDecision(row: Row, minCellSize: int): Option<bool> {
    match CountColumn(row)
    case None => Some(false)
    case Some(c) => LessThan(row[c].1, minCellSize)
  }

  /** The suppressed copy of a row: the count column nulled, every other
      column replaced by the marker. */
  function SuppressRow(row: Row, c: nat): (r: Row)
    requires c < |row|
    ensures Keys(r) == Keys(row)
    ensures r[c].1 == Null
    ensures forall j :: 0 <= j < |row| && j != c ==> r[j].1 == Str("SUPPRESSED")
  {
    var r := seq(|row|, j requires 0 <= j < |row| => (row[j].0, if j == c then Null else Str("SUPPRESSED")));
    assert Keys(r) == Keys(row);
    r
  }

  /** The row the loop emits for `row`, once it is known not to raise. */
  function Protected(row: Row, minCellSize: int): Row
    requires RowDecision(row, minCellSize).Some?
  {
    if RowDecision(row, minCellSize) == Some(true) then SuppressRow(row, CountColumn(row).value) else row
  }

  /** How many rows of `rows` are suppressed. */
  function NumberSuppressed(rows: seq<Row>, minCellSize: int): nat {
    if rows == [] then 0
    else (if RowDecision(rows[0], minCellSize) == Some(true) then 1 else 0) + NumberSuppressed(rows[1..], minCellSize)
  }

  /** The loop over the rows: the rewritten rows and the number suppressed, or
      the `TypeError` the first incomparable count value raises. */
  function SuppressRows(rows: seq<Row>, minCellSize: int): (v: Verdict<(seq<Row>, nat)>)
    ensures v.Raised? <==> exists i :: 0 <= i < |rows| && RowDecision(rows[i], minCellSize).None?
    ensures v.Returned? ==>
      && |v.value.0| == |rows|
      && (forall i :: 0 <= i < |rows| ==> v.value.0[i] == Protected(rows[i], minCellSize))
      && v.value.1 == NumberSuppressed(rows, minCellSize)
  {
    if rows == [] then Returned(([], 0))
    else match RowDecision(rows[0], minCellSize)
      case None => Raised("TypeError: count value is not comparable with an int")
      case Some(_) =>
        var tail := SuppressRows(rows[1..], minCellSize);
        assert forall i :: 0 < i < |rows| ==> rows[i] == rows[1..][i - 1];
        match tail
        case Raised(err) => Raised(err)
        case Returned(rest) =>
          SuppressStep(rows, minCellSize, rest.0);
          Returned(([Protected(rows[0], minCellSize)] + rest.0, NumberSuppressed(rows, minCellSize)))
  }

  /** One step of the loop: the first row's protected form in front of the
      rest's protects every row in place. */
  lemma SuppressStep(rows: seq<Row>, minCellSize: int, rest: seq<Row>)
    requires rows != [] && |rest| == |rows| - 1
    requires forall i :: 0 <= i < |rows| ==> RowDecision(rows[i], minCellSize).Some?
    requires forall i :: 0 <= i < |rest| ==> rest[i] == Protected(rows[1..][i], minCellSize)
    ensures var out := [Protected(rows[0], minCellSize)] + rest;
      |out| == |rows| && forall i :: 0 <= i < |rows| ==> out[i] == Protected(rows[i], minCellSize)
  {
    var out := [Protected(rows[0], minCellSize)] + rest;
    forall i | 0 < i < |rows| ensures out[i] == Protected(rows[i], minCellSize) {
      assert out[i] == rest[i - 1] && rows[1..][i - 1] == rows[i];
    }
  }

  function CellSuppressionRun(minCellSize: int, env: Env, db: Db, username: string, req: Request): (a: Logged<Outcome>)
    ensures a.result.Returned? ==> Coherent(a.result.value) && a.result.value.methodName == "Cell Suppression"
    ensures a.db.history == db.history && Extends(db, a.db) && |a.db.audit| == |db.audit| + 1
    ensures env.store(req).Failure? || env.store(req).rows == [] ==>
      && a.result.Returned? && a.result.value.results.None? && (a.result.value.blocked <==> env.store(req).Failure?)
      && a.result.value.blockReason == (if env.store(req).Failure? then Some(env.store(req).message) else None)
    // The comparison raises exactly when some row's count value is not a number.
    ensures a.result.Raised? <==>
      env.store(req).Rows? && exists i :: 0 <= i < |env.store(req).rows| && RowDecision(env.store(req).rows[i], minCellSize).None?
    // A non-empty result is never blocked; each row is kept or suppressed in
    // place, and the original rows are returned beside them.
    ensures env.store(req).Rows? && env.store(req).rows != [] && a.result.Returned? ==>
      var rows := env.store(req).rows;
      && !a.result.value.blocked && a.result.value.blockReason.None?
      && a.result.value.results.Some? && |a.result.value.results.value| == |rows|
      && (forall i :: 0 <= i < |rows| ==>
            && RowDecision(rows[i], minCellSize).Some?
            && a.result.value.results.value[i] == Protected(rows[i], minCellSize)
            && Keys(a.result.value.results.value[i]) == Keys(rows[i]))
      && a.result.value.originalResults == Some(rows)
      && a.result.value.protectionApplied
           == Some("min_cell_size=" + IntToString(minCellSize) + ", suppressed=" + IntToString(NumberSuppressed(rows, minCellSize)))
  {
    var e := ExecuteWithLogging(db, env.store, username, req);
    var setting := "min_cell_size=" + IntToString(minCellSize);
    if e.blocked || e.results.value == [] then
      Logged(Returned(Outcome("Cell Suppression", e.blocked, e.reason, None, Some(setting), None)), e.db)
    else
      var rows := e.results.value;
      match SuppressRows(rows, minCellSize)
      case Raised(err) => Logged(Raised(err), e.db)
      case Returned(res) =>
        assert forall i :: 0 <= i < |rows| ==> Keys(res.0[i]) == Keys(rows[i]);
        Logged(Returned(Outcome("Cell Suppression", false, None, Some(res.0),
                                Some(setting + ", suppressed=" + IntToString(res.1)), Some(rows))), e.db)
  }

  /** A row is suppressed exactly when its first count-like column holds a
      value below the minimum cell size; it then keeps its keys, nulls that
      column and masks every other one. Other rows pass through unchanged. */
  lemma CellSuppressionRowIff(row: Row, minCellSize: int)
    requires RowDecision(row, minCellSize).Some?
    ensures Protected(row, minCellSize) != row ==>
      && CountColumn(row).Some?
      && LessThan(row[CountColumn(row).value].1, minCellSize) == Some(true)
    ensures (CountColumn(row).Some? && LessThan(row[CountColumn(row).value].1, minCellSize) == Some(true)) ==>
      var c := CountColumn(row).value;
      var p := Protected(row, minCellSize);
      && Keys(p) == Keys(row) && p[c].1 == Null
      && forall j :: 0 <= j < |row| && j != c ==> p[j].1 == Str("SUPPRESSED")
  {
  }

  // ---------------------------------------------------------------------
  // The common entry point and the comparator

  /** The most audit records one call of the strategy writes: minimum size
      logs the count query and then either its refusal or the main query, and
      overlap control may log a refusal after the query; the others log once. */
  function MostRecords(s: Strategy): nat {
    if s.MinimumSizeRestriction? || s.OverlapControl? then 2 else 1
  }

  /** A strategy that can raise out of `aggregate`: minimum size and cell
      suppression on an unreadable count, differential privacy on a
      non-positive epsilon. */
  predicate MayRaise(s: Strategy) {
    s.MinimumSizeRestriction? || s.CellSuppression? || (s.DifferentialPrivacy? && s.epsilon.value <= 0.0)
  }

  /** The `method` field of the outcome each strategy returns. */
  function MethodName(s: Strategy): string {
    match s
    case NoProtection => "No Protection"
    case MinimumSizeRestriction(_) => "Minimum Size Restriction"
    case DifferentialPrivacy(_) => "Differential Privacy"
    case OverlapControl(_) => "Overlap Control"
    case CellSuppression(_) => "Cell Suppression"
  }

  /** `strategy.aggregate(query, params, user, password)`. */
  function Aggregate(s: Strategy, env: Env, db: Db, username: string, req: Request): (a: Logged<Outcome>)
    ensures a.result.Returned? ==> Coherent(a.result.value) && a.result.value.methodName == MethodName(s)
    ensures Extends(db, a.db) && |db.audit| + 1 <= |a.db.audit| <= |db.audit| + MostRecords(s)
    ensures |a.db.history| <= |db.history| + 1
    ensures !s.OverlapControl? ==> a.db.history == db.history
    ensures a.result.Raised? ==> MayRaise(s)
  {
    match s
    case NoProtection =>
      var r := NoProtectionRun(env, db, username, req);
      Logged(Returned(r.outcome), r.db)
    case MinimumSizeRestriction(m) => MinimumSizeRun(m, env, db, username, req)
    case DifferentialPrivacy(eps) => DifferentialPrivacyRun(eps, env, db, username, req)
    case OverlapControl(t) =>
      var r := OverlapControlRun(t, env, db, username, req);
      Logged(Returned(r.outcome), r.db)
    case CellSuppression(m) => CellSuppressionRun(m, env, db, username, req)
  }

  /** The strategies `AggregationComparator` builds, in its dictionary order. */
  const DefaultStrategies: seq<(string, Strategy)> := [
    ("no_protection", NoProtection),
    ("min_size", MinimumSizeRestriction(5)),
    ("differential_privacy", DifferentialPrivacy(FloatSetting(1.0, "1.0"))),
    ("overlap_control", OverlapControl(FloatSetting(0.8, "0.8"))),
    ("cell_suppression", CellSuppression(3))
  ]

  function OverlapStrategies(ss: seq<(string, Strategy)>): nat {
    if ss == [] then 0 else (if ss[0].1.OverlapControl? then 1 else 0) + OverlapStrategies(ss[1..])
  }

  /** The most audit records one pass over the strategies writes. */
  function RecordBudget(ss: seq<(string, Strategy)>): nat {
    if ss == [] then 0 else MostRecords(ss[0].1) + RecordBudget(ss[1..])
  }

  /** Run every strategy once, in order, threading the logs through. An
      exception stops the pass, and the records already written stay. */
  function RunAll(ss: seq<(string, Strategy)>, env: Env, db: Db, username: string, req: Request)
    : (r: Logged<seq<(string, Outcome)>>)
    ensures Extends(db, r.db)
    ensures |r.db.audit| <= |db.audit| + RecordBudget(ss)
    ensures |r.db.history| <= |db.history| + OverlapStrategies(ss)
    ensures r.result.Returned? ==>
      && Keys(r.result.value) == Keys(ss)
      && (forall i :: 0 <= i < |r.result.value| ==> Coherent(r.result.value[i].1))
      && |db.audit| + |ss| <= |r.db.audit|
    // Each outcome is what its own strategy returned, on the logs as they
    // stood when its turn came; the first strategy runs on the logs given.
    ensures r.result.Returned? ==>
      && (forall i :: 0 <= i < |ss| ==> r.result.value[i].1.methodName == MethodName(ss[i].1))
      && (ss != [] ==> Aggregate(ss[0].1, env, db, username, req).result == Returned(r.result.value[0].1))
      && forall i :: 0 <= i < |ss| ==> ReturnedOnLater(ss[i].1, env, db, username, req, r.result.value[i].1)
    ensures r.result.Raised? ==>
      && |db.audit| + 1 <= |r.db.audit|
      && exists i :: 0 <= i < |ss| && MayRaise(ss[i].1)
  {
    if ss == [] then Logged(Returned([]), db)
    else
      var first := Aggregate(ss[0].1, env, db, username, req);
      match first.result
      case Raised(err) => Logged(Raised(err), first.db)
      case Returned(o) =>
        var rest := RunAll(ss[1..], env, first.db, username, req);
        ExtendsTransitive(db, first.db, rest.db);
        assert forall i :: 0 < i < |ss| ==> ss[i] == ss[1..][i - 1];
        match rest.result
        case Raised(err) => Logged(Raised(err), rest.db)
        case Returned(others) =>
          var outs := [(ss[0].0, o)] + others;
          ConsOutcomes(ss, o, others);
          RanOnExtension(ss, env, db, first.db, username, req, outs);
          Logged(Returned(outs), rest.db)
  }

  /** Putting the first strategy's outcome in front of the others' keeps the
      keys, the coherence and the method names in step with the strategies. */
  lemma ConsOutcomes(ss: seq<(string, Strategy)>, o: Outcome, others: seq<(string, Outcome)>)
    requires ss != [] && Coherent(o) && o.methodName == MethodName(ss[0].1)
    requires Keys(others) == Keys(ss[1..])
    requires forall i :: 0 <= i < |others| ==> Coherent(others[i].1)
    requires forall i :: 0 <= i < |ss[1..]| ==> others[i].1.methodName == MethodName(ss[1..][i].1)
    ensures Keys([(ss[0].0, o)] + others) == Keys(ss)
    ensures forall i :: 0 <= i < |[(ss[0].0, o)] + others| ==> Coherent(([(ss[0].0, o)] + others)[i].1)
    ensures forall i :: 0 <= i < |ss| ==> ([(ss[0].0, o)] + others)[i].1.methodName == MethodName(ss[i].1)
  {
    var outs := [(ss[0].0, o)] + others;
    assert Keys(outs) == [ss[0].0] + Keys(others);
    assert Keys(ss) == [ss[0].0] + Keys(ss[1..]);
    assert forall i :: 0 < i < |outs| ==> outs[i] == others[i - 1];
    assert forall i :: 0 < i < |ss| ==> ss[i] == ss[1..][i - 1];
  }

  /** `o` is what strategy `s` returns on some logs that extend `db`. */
  ghost predicate ReturnedOnLater(s: Strategy, env: Env, db: Db, username: string, req: Request, o: Outcome) {
    exists d :: Extends(db, d) && Aggregate(s, env, d, username, req).result == Returned(o)
  }

  /** The outcomes after the first were each produced on logs extending the
      first strategy's, so on logs extending the original ones. */
  lemma RanOnExtension(ss: seq<(string, Strategy)>, env: Env, db: Db, db1: Db, username: string, req: Request,
                       outs: seq<(string, Outcome)>)
    requires Extends(db, db1) && ss != [] && |outs| == |ss|
    requires Aggregate(ss[0].1, env, db, username, req).result == Returned(outs[0].1)
    requires forall i :: 0 <= i < |ss| - 1 ==> ReturnedOnLater(ss[1..][i].1, env, db1, username, req, outs[1..][i].1)
    ensures forall i :: 0 <= i < |ss| ==> ReturnedOnLater(ss[i].1, env, db, username, req, outs[i].1)
  {
    forall i | 0 <= i < |ss| ensures ReturnedOnLater(ss[i].1, env, db, username, req, outs[i].1) {
      if i == 0 {
        assert Extends(db, db) by {
          assert db.audit[..|db.audit|] == db.audit && db.history[..|db.history|] == db.history;
        }
      } else {
        assert ss[1..][i - 1] == ss[i] && outs[1..][i - 1] == outs[i];
        var d :| Extends(db1, d) && Aggregate(ss[i].1, env, d, username, req).result == Returned(outs[i].1);
        ExtendsTransitive(db, db1, d);
      }
    }
  }

  /** `AggregationComparator.compare_all`: every default strategy exactly once. */
  function CompareAll(env: Env, db: Db, username: string, req: Request): (r: Logged<seq<(string, Outcome)>>)
    ensures Extends(db, r.db) && |r.db.audit| <= |db.audit| + 7 && |r.db.history| <= |db.history| + 1
    ensures r.result.Returned? ==>
      && Keys(r.result.value) == ["no_protection", "min_size", "differential_privacy", "overlap_control", "cell_suppression"]
      && (forall i :: 0 <= i < |r.result.value| ==> Coherent(r.result.value[i].1))
      && |db.audit| + 5 <= |r.db.audit|
    // `results[name] = method.aggregate(...)`: each outcome is its own
    // strategy's, and no protection runs first, on the logs given.
    ensures r.result.Returned? ==>
      && |r.result.value| == |DefaultStrategies|
      && (forall i :: 0 <= i < |DefaultStrategies| ==>
            && r.result.value[i].1.methodName == MethodName(DefaultStrategies[i].1)
            && ReturnedOnLater(DefaultStrategies[i].1, env, db, username, req, r.result.value[i].1))
      && Aggregate(NoProtection, env, db, username, req).result == Returned(r.result.value[0].1)
    ensures r.result.Raised? ==> |db.audit| + 1 <= |r.db.audit|
  {
    assert OverlapStrategies(DefaultStrategies) == 1;
    assert RecordBudget(DefaultStrategies) == 7;
    assert Keys(DefaultStrategies) == ["no_protection", "min_size", "differential_privacy", "overlap_control", "cell_suppression"];
    RunAll(DefaultStrategies, env, db, username, req)
  }
}

=== FILE: attack_proofs.dfy ===
/** What the attacks achieve against a store that answers truthfully from a
    table in which every name occurs once: each recovers exactly what it sets
    out to infer. Each attack has a lemma that fixes its report from the
    answers it reads, and a theorem that supplies the honest answers. */
module AttackProofs {
  import opened Basics
  import opened Sorting
  import opened Database
  import opened Employees
  import opened Linear
  import opened Attacks
  import opened HonestStore

  /** The verification query finds row `i`'s salary. */
  lemma VerifiedSalaryHonest(t: Table, i: nat, login: Login)
    requires i < |t| && UniqueName(t, i)
    ensures VerifiedSalary(Honest(t), t[i].name, login) == Returned(Some(t[i].salary))
  {
    FindByName(t, i);
    EvalSalaryByName(t, t[i].name);
    assert MapSeq(SalaryRow, [t[i]]) == [SalaryRow(t[i])];
    FetchHonest(t, SalaryByName, [Str(t[i].name)], login, [SalaryRow(t[i])]);
    SingleField("salary", Decimal(t[i].salary));
  }

  // ---------------------------------------------------------------------
  // Differencing

  lemma AvgCountHonest(t: Table, d: string, login: Login)
    requires Select(t, InDepartment(d)) != []
    ensures var r := Fetch(Honest(t), AvgCountByDepartment, [Str(d)], login);
      var s := Select(t, InDepartment(d));
      && Truthy(r)
      && FloatField(r.value[0], "avg_salary") == Returned(Mean(s))
      && Field(r.value[0], "emp_count") == Returned(Int(|s|))
  {
    var s := Select(t, InDepartment(d));
    EvalAvgCount(t, d);
    FetchHonest(t, AvgCountByDepartment, [Str(d)], login, [Pair("avg_salary", Average(s), "emp_count", Int(|s|))]);
    AverageCountRow("avg_salary", "emp_count", s);
  }

  lemma AvgCountExceptHonest(t: Table, d: string, name: string, login: Login)
    requires Select(t, InDepartment(d).(notNamed := Some(name))) != []
    ensures var r := Fetch(Honest(t), AvgCountByDepartmentExcept, [Str(d), Str(name)], login);
      var s := Select(t, InDepartment(d).(notNamed := Some(name)));
      && Truthy(r)
      && FloatField(r.value[0], "avg_salary") == Returned(Mean(s))
      && Field(r.value[0], "emp_count") == Returned(Int(|s|))
  {
    var s := Select(t, InDepartment(d).(notNamed := Some(name)));
    EvalAvgCountExcept(t, d, name);
    FetchHonest(t, AvgCountByDepartmentExcept, [Str(d), Str(name)], login,
                [Pair("avg_salary", Average(s), "emp_count", Int(|s|))]);
    AverageCountRow("avg_salary", "emp_count", s);
  }

  /** The differencing identity: the department total less the total without
      the target is the target's salary. */
  lemma DifferenceOfMeans(all: Table, rest: Table, x: real)
    requires all != [] && rest != []
    requires SalarySum(rest) == SalarySum(all) - x
    ensures DifferenceOfTotals(Mean(all), |all|, Mean(rest), |rest|) == x
  {
    AverageTimesCount(all);
    AverageTimesCount(rest);
  }

  /** The differencing report, given the answers it reads. */
  lemma DifferencingGiven(store: QueryFn, target: string, d: string, login: Login,
                          a1: real, n1: int, a2: real, n2: int, actual: Option<real>)
    requires var r := Fetch(store, AvgCountByDepartment, [Str(d)], login);
      Truthy(r) && FloatField(r.value[0], "avg_salary") == Returned(a1) && Field(r.value[0], "emp_count") == Returned(Int(n1))
    requires var r := Fetch(store, AvgCountByDepartmentExcept, [Str(d), Str(target)], login);
      Truthy(r) && FloatField(r.value[0], "avg_salary") == Returned(a2) && Field(r.value[0], "emp_count") == Returned(Int(n2))
    requires VerifiedSalary(store, target, login) == Returned(actual)
    ensures Differencing(store, target, d, login)
         == Returned(DifferencingSuccess(DifferenceOfTotals(a1, n1, a2, n2), actual))
  {
    assert DifferencingRest(store, target, d, login, a1, Int(n1))
        == Returned(DifferencingSuccess(DifferenceOfTotals(a1, n1, a2, n2), actual));
  }

  /** Differencing recovers the target's salary exactly, as long as the
      target has a colleague (otherwise the second average is NULL). */
  lemma DifferencingRecoversSalary(t: Table, i: nat, login: Login)
    requires i < |t| && UniqueName(t, i)
    requires |Select(t, InDepartment(t[i].department))| >= 2
    ensures var v := Differencing(Honest(t), t[i].name, t[i].department, login);
      && v.Returned? && v.value.success
      && v.value.inferredSalary == Some(t[i].salary)
      && v.value.actualSalary == Some(t[i].salary)
      && (t[i].salary != 0.0 ==> v.value.error == Some(0.0))
  {
    var e := t[i];
    var members := Select(t, InDepartment(e.department));
    var rest := Select(t, InDepartment(e.department).(notNamed := Some(e.name)));
    LeaveOneOut(t, i);
    VerifiedSalaryHonest(t, i, login);
    AvgCountHonest(t, e.department, login);
    AvgCountExceptHonest(t, e.department, e.name, login);
    DifferenceOfMeans(members, rest, e.salary);
    DifferencingGiven(Honest(t), e.name, e.department, login,
                      Mean(members), |members|, Mean(rest), |rest|, Some(e.salary));
  }

  // ---------------------------------------------------------------------
  // Tracker

  /** The department lookup finds row `i`'s department. */
  lemma DepartmentHonest(t: Table, i: nat, login: Login)
    requires i < |t| && UniqueName(t, i)
    ensures var r := Fetch(Honest(t), DepartmentByName, [Str(t[i].name)], login);
      Truthy(r) && Field(r.value[0], "department") == Returned(Str(t[i].department))
  {
    FindByName(t, i);
    EvalDepartmentByName(t, t[i].name);
    assert MapSeq(DepartmentRow, [t[i]]) == [DepartmentRow(t[i])];
    FetchHonest(t, DepartmentByName, [Str(t[i].name)], login, [DepartmentRow(t[i])]);
    SingleField("department", Str(t[i].department));
  }

  lemma CountAboveHonest(t: Table, d: string, x: real, login: Login)
    ensures CountOrZero(Fetch(Honest(t), CountAbove, [Str(d), Float(x)], login), "high_earner_count")
         == Returned(Int(|Select(t, Where(Some(d), Some(x), None, None))|))
  {
    var c := |Select(t, Where(Some(d), Some(x), None, None))|;
    EvalCountAbove(t, d, x);
    FetchHonest(t, CountAbove, [Str(d), Float(x)], login, [Single("high_earner_count", Int(c))]);
    SingleField("high_earner_count", Int(c));
  }

  lemma CountAboveExceptHonest(t: Table, d: string, x: real, name: string, login: Login)
    ensures CountOrZero(Fetch(Honest(t), CountAboveExcept, [Str(d), Float(x), Str(name)], login), "high_earner_count")
         == Returned(Int(|Select(t, Where(Some(d), Some(x), Some(name), None))|))
  {
    var c := |Select(t, Where(Some(d), Some(x), Some(name), None))|;
    EvalCountAboveExcept(t, d, x, name);
    FetchHonest(t, CountAboveExcept, [Str(d), Float(x), Str(name)], login, [Single("high_earner_count", Int(c))]);
    SingleField("high_earner_count", Int(c));
  }

  /** Leaving row `i` out lowers the count of its department's high earners
      exactly when row `i` is one of them. */
  lemma HighEarnerCounts(t: Table, i: nat, x: real)
    requires i < |t| && UniqueName(t, i)
    ensures var w := Where(Some(t[i].department), Some(x), None, None);
      |Select(t, w)| > |Select(t, w.(notNamed := Some(t[i].name)))| <==> t[i].salary > x
  {
    var w := Where(Some(t[i].department), Some(x), None, None);
    SelectSplitsByName(t, w, t[i].name);
    SelectByUniqueName(t, w, i);
  }

  /** The tracker's report, given the answers it reads. */
  lemma TrackerGiven(store: QueryFn, target: string, threshold: real, login: Login,
                     department: string, c1: nat, c2: nat, salary: real)
    requires var r := Fetch(store, DepartmentByName, [Str(target)], login);
      Truthy(r) && Field(r.value[0], "department") == Returned(Str(department))
    requires CountOrZero(Fetch(store, CountAbove, [Str(department), Float(threshold)], login), "high_earner_count")
             == Returned(Int(c1))
    requires CountOrZero(Fetch(store, CountAboveExcept, [Str(department), Float(threshold), Str(target)], login), "high_earner_count")
             == Returned(Int(c2))
    requires VerifiedSalary(store, target, login) == Returned(Some(salary))
    ensures var v := Tracker(store, target, threshold, login);
      && v.Returned? && v.value.success
      && v.value.inferredHighEarner == Some(c1 > c2)
      && (salary != 0.0 ==> v.value.actualHighEarner == Some(salary > threshold))
  {
  }

  /** The tracker's inference is exactly whether the target earns more than
      the threshold, and it agrees with the verification whenever that runs. */
  lemma TrackerInfersThreshold(t: Table, i: nat, threshold: real, login: Login)
    requires i < |t| && UniqueName(t, i)
    ensures var v := Tracker(Honest(t), t[i].name, threshold, login);
      && v.Returned? && v.value.success
      && v.value.inferredHighEarner == Some(t[i].salary > threshold)
      && (t[i].salary != 0.0 ==> v.value.correct == Some(true))
  {
    var e := t[i];
    var w := Where(Some(e.department), Some(threshold), None, None);
    var c1, c2 := |Select(t, w)|, |Select(t, w.(notNamed := Some(e.name)))|;
    HighEarnerCounts(t, i, threshold);
    DepartmentHonest(t, i, login);
    CountAboveHonest(t, e.department, threshold, login);
    CountAboveExceptHonest(t, e.department, threshold, e.name, login);
    VerifiedSalaryHonest(t, i, login);
    TrackerGiven(Honest(t), e.name, threshold, login, e.department, c1, c2, e.salary);
  }

  // ---------------------------------------------------------------------
  // Sum

  /** The `(name, salary)` entry the attacker knows for an employee. */
  function NamePay(e: Employee): (string, real) {
    (e.name, e.salary)
  }

  /** Every element of `s` but element `i`. */
  function Without<T>(s: seq<T>, i: nat): seq<T>
    requires i < |s|
  {
    s[..i] + s[i + 1..]
  }

  lemma RowsTail(es: Table)
    requires es != []
    ensures MapSeq(NameSalaryRow, es)[1..] == MapSeq(NameSalaryRow, es[1..])
  {
  }

  /** Rows whose names are all known add nothing. */
  lemma {:induction false} InferAllKnown(es: Table, known: Dict<real>, u: real, acc: Dict<real>)
    requires forall j :: 0 <= j < |es| ==> es[j].name in Keys(known)
    ensures InferMissing(MapSeq(NameSalaryRow, es), known, u, acc) == Returned(acc)
    decreases |es|
  {
    if es != [] {
      NameSalaryFields(es[0]);
      RowsTail(es);
      InferAllKnown(es[1..], known, u, acc);
    }
  }

  /** With one unknown name among the rows, that name alone is credited. */
  lemma {:induction false} InferOneMissing(es: Table, m: nat, known: Dict<real>, u: real, acc: Dict<real>)
    requires m < |es| && es[m].name !in Keys(known)
    requires forall j :: 0 <= j < |es| && j != m ==> es[j].name in Keys(known)
    ensures InferMissing(MapSeq(NameSalaryRow, es), known, u, acc).Returned?
    ensures InferMissing(MapSeq(NameSalaryRow, es), known, u, acc).value == Put(acc, es[m].name, u)
    decreases |es|
  {
    NameSalaryFields(es[0]);
    RowsTail(es);
    if m == 0 {
      PutKeepsDistinct(acc, es[0].name, u);
      InferAllKnown(es[1..], known, u, Put(acc, es[0].name, u));
    } else {
      InferOneMissing(es[1..], m - 1, known, u, acc);
    }
  }

  /** Known entries that are a permutation of all members but `m` know the
      name of member `j`. */
  lemma KnownOther(members: Table, m: nat, known: Dict<real>, j: nat)
    requires m < |members| && j < |members| && j != m
    requires multiset(known) == multiset(MapSeq(NamePay, Without(members, m)))
    ensures members[j].name in Keys(known)
  {
    var others := Without(members, m);
    var pays := MapSeq(NamePay, others);
    var l := if j < m then j else j - 1;
    assert others[l] == members[j];
    assert pays[l] in multiset(known);
    var i :| 0 <= i < |known| && known[i] == pays[l];
    assert Keys(known)[i] == members[j].name;
  }

  lemma KnownOthers(members: Table, m: nat, known: Dict<real>)
    requires m < |members|
    requires multiset(known) == multiset(MapSeq(NamePay, Without(members, m)))
    ensures forall j :: 0 <= j < |members| && j != m ==> members[j].name in Keys(known)
  {
    forall j | 0 <= j < |members| && j != m ensures members[j].name in Keys(known) {
      KnownOther(members, m, known, j);
    }
  }

  /** ... and do not know the name of member `m`, names being unique. */
  lemma UnknownTarget(members: Table, m: nat, known: Dict<real>)
    requires UniqueNames(members) && m < |members|
    requires multiset(known) == multiset(MapSeq(NamePay, Without(members, m)))
    ensures members[m].name !in Keys(known)
  {
    var others := Without(members, m);
    var pays := MapSeq(NamePay, others);
    forall i | 0 <= i < |known| ensures Keys(known)[i] != members[m].name {
      assert known[i] in multiset(pays);
      var l :| 0 <= l < |pays| && pays[l] == known[i];
      var j := if l < m then l else l + 1;
      assert others[l] == members[j];
    }
  }

  /** The known salaries sum to the department total less member `m`'s. */
  lemma KnownSum(members: Table, m: nat, known: Dict<real>)
    requires m < |members|
    requires multiset(known) == multiset(MapSeq(NamePay, Without(members, m)))
    ensures Sum(Values(known)) == SalarySum(members) - members[m].salary
  {
    var others := Without(members, m);
    MapSeqPermute(Second, known, MapSeq(NamePay, others));
    assert MapSeq(Second, MapSeq(NamePay, others)) == MapSeq(Salary, others);
    SumPermute(Values(known), MapSeq(Salary, others));
    MapSeqRemove(Salary, members, m);
    SumRemove(MapSeq(Salary, members), m);
  }

  /** What the known entries tell about the department: every name but
      member `m`'s, one entry fewer than members, and the total less `m`'s
      salary. */
  lemma KnownAllButOne(t: Table, d: string, m: nat, known: Dict<real>)
    requires UniqueNames(Select(t, InDepartment(d)))
    requires m < |Select(t, InDepartment(d))|
    requires multiset(known) == multiset(MapSeq(NamePay, Without(Select(t, InDepartment(d)), m)))
    ensures var members := Select(t, InDepartment(d));
      && members[m].name !in Keys(known)
      && (forall j :: 0 <= j < |members| && j != m ==> members[j].name in Keys(known))
      && Sum(Values(known)) == SalarySum(members) - members[m].salary
      && |known| == |members| - 1
  {
    var members := Select(t, InDepartment(d));
    KnownOthers(members, m, known);
    UnknownTarget(members, m, known);
    KnownSum(members, m, known);
    assert |multiset(known)| == |MapSeq(NamePay, Without(members, m))|;
  }

  lemma SumCountHonest(t: Table, d: string, login: Login)
    requires Select(t, InDepartment(d)) != []
    ensures var r := Fetch(Honest(t), SumCountByDepartment, [Str(d)], login);
      var s := Select(t, InDepartment(d));
      && Truthy(r)
      && FloatField(r.value[0], "total_salary") == Returned(SalarySum(s))
      && CountField(r.value[0], "emp_count") == Returned(|s|)
  {
    var s := Select(t, InDepartment(d));
    EvalSumCount(t, d);
    FetchHonest(t, SumCountByDepartment, [Str(d)], login, [Pair("total_salary", Total(s), "emp_count", Int(|s|))]);
    TotalCountRow("total_salary", "emp_count", s);
  }

  /** The sum attack hands over to its second stage once it has the totals. */
  lemma SumGiven(store: QueryFn, d: string, known: Dict<real>, login: Login, total: real, count: int)
    requires var r := Fetch(store, SumCountByDepartment, [Str(d)], login);
      && Truthy(r)
      && FloatField(r.value[0], "total_salary") == Returned(total)
      && CountField(r.value[0], "emp_count") == Returned(count)
    ensures SumAttack(store, d, known, login) == SumFromTotals(store, d, known, total, count, login)
  {
  }

  lemma SumFromTotalsGiven(store: QueryFn, d: string, known: Dict<real>, login: Login,
                           total: real, count: int, u: real, c: int, inferred: Dict<real>)
    requires u == total - Sum(Values(known)) && c == count - |known|
    requires SumInference(store, d, known, u, c, login) == Returned(inferred)
    ensures var v := SumFromTotals(store, d, known, total, count, login);
      && v.Returned? && v.value.inferred == inferred
      && v.value.unknownSum == Some(u) && v.value.unknownCount == Some(c)
      && (v.value.success <==> c == 1)
  {
  }

  /** The third query of the sum attack credits the one unknown member. */
  lemma SumInferenceHonest(t: Table, d: string, m: nat, known: Dict<real>, login: Login)
    requires var members := Select(t, InDepartment(d));
      && m < |members| && members[m].name !in Keys(known)
      && forall j :: 0 <= j < |members| && j != m ==> members[j].name in Keys(known)
    ensures var e := Select(t, InDepartment(d))[m];
      SumInference(Honest(t), d, known, e.salary, 1, login) == Returned([(e.name, e.salary)])
  {
    var members := Select(t, InDepartment(d));
    EvalNamesSalaries(t, d);
    FetchHonest(t, NamesSalariesByDepartment, [Str(d)], login, MapSeq(NameSalaryRow, members));
    InferOneMissing(members, m, known, members[m].salary, []);
  }

  /** When the attacker knows every salary of a department but one, the sum
      attack names the missing employee and recovers its salary exactly. */
  lemma SumRecoversMissingSalary(t: Table, d: string, m: nat, known: Dict<real>, login: Login)
    requires UniqueNames(Select(t, InDepartment(d)))
    requires m < |Select(t, InDepartment(d))|
    requires multiset(known) == multiset(MapSeq(NamePay, Without(Select(t, InDepartment(d)), m)))
    ensures var v := SumAttack(Honest(t), d, known, login);
      var e := Select(t, InDepartment(d))[m];
      && v.Returned? && v.value.success
      && v.value.unknownCount == Some(1)
      && v.value.unknownSum == Some(e.salary)
      && v.value.inferred == [(e.name, e.salary)]
  {
    var members := Select(t, InDepartment(d));
    var e := members[m];
    var total := SalarySum(members);
    KnownAllButOne(t, d, m, known);
    SumInferenceHonest(t, d, m, known, login);
    SumFromTotalsGiven(Honest(t), d, known, login, total, |members|, e.salary, 1, [(e.name, e.salary)]);
    SumCountHonest(t, d, login);
    SumGiven(Honest(t), d, known, login, total, |members|);
  }

  // ---------------------------------------------------------------------
  // Linear system

  lemma AvgHonest(t: Table, d: string, login: Login)
    requires Select(t, InDepartment(d)) != []
    ensures var r := Fetch(Honest(t), AvgByDepartment, [Str(d)], login);
      Truthy(r) && FloatField(r.value[0], "avg_sal") == Returned(Mean(Select(t, InDepartment(d))))
  {
    var s := Select(t, InDepartment(d));
    EvalAvg(t, d);
    FetchHonest(t, AvgByDepartment, [Str(d)], login, [Single("avg_sal", Average(s))]);
    SingleField("avg_sal", Average(s));
    AverageReads(s);
  }

  lemma AvgCntHonest(t: Table, d: string, name: string, login: Login)
    requires Select(t, InDepartment(d).(notNamed := Some(name))) != []
    ensures var r := Fetch(Honest(t), AvgCntByDepartmentExcept, [Str(d), Str(name)], login);
      var s := Select(t, InDepartment(d).(notNamed := Some(name)));
      && Truthy(r)
      && FloatField(r.value[0], "avg_sal") == Returned(Mean(s))
      && CountField(r.value[0], "cnt") == Returned(|s|)
  {
    var s := Select(t, InDepartment(d).(notNamed := Some(name)));
    EvalAvgCntExcept(t, d, name);
    FetchHonest(t, AvgCntByDepartmentExcept, [Str(d), Str(name)], login, [Pair("avg_sal", Average(s), "cnt", Int(|s|))]);
    AverageCountRow("avg_sal", "cnt", s);
  }

  /** The first equation, given the average that comes back. */
  lemma FirstGiven(store: QueryFn, d: string, n: nat, login: Login, avg: real, c: real)
    requires var r := Fetch(store, AvgByDepartment, [Str(d)], login);
      Truthy(r) && FloatField(r.value[0], "avg_sal") == Returned(avg)
    requires Scaled(avg, n) == c
    ensures FirstEquation(store, d, n, login) == Returned(System([Ones(n)], [c]))
  {
    var v := FirstEquation(store, d, n, login);
    assert v.value.constants[0] == c && |v.value.constants| == 1;
    assert v.value.equations[0] == Ones(n) && |v.value.equations| == 1;
  }

  /** An exclusion equation, given the answers that come back. */
  lemma ExclusionGiven(store: QueryFn, d: string, emp: Row, n: nat, i: nat, login: Login,
                       name: string, avg: real, cnt: int, c: real)
    requires Field(emp, "name") == Returned(Str(name))
    requires var r := Fetch(store, AvgCntByDepartmentExcept, [Str(d), Str(name)], login);
      && Truthy(r)
      && FloatField(r.value[0], "avg_sal") == Returned(avg)
      && CountField(r.value[0], "cnt") == Returned(cnt)
    requires Scaled(avg, cnt) == c
    ensures ExclusionEquation(store, d, emp, n, i, login) == Returned(System([Exclusion(n, i)], [c]))
  {
    var v := ExclusionEquation(store, d, emp, n, i, login);
    assert v.value.constants[0] == c && |v.value.constants| == 1;
    assert v.value.equations[0] == Exclusion(n, i) && |v.value.equations| == 1;
  }

  /** The exclusion loop, one step. */
  lemma ExclusionsGiven(store: QueryFn, d: string, rows: seq<Row>, n: nat, i: nat, login: Login,
                        head: System, rest: System)
    requires i < |rows|
    requires ExclusionEquation(store, d, rows[i], n, i, login) == Returned(head)
    requires ExclusionEquations(store, d, rows, n, i + 1, login) == Returned(rest)
    ensures ExclusionEquations(store, d, rows, n, i, login)
         == Returned(System(head.equations + rest.equations, head.constants + rest.constants))
  {
  }

  /** On honest data the first equation is the department total. */
  lemma FirstEquationHonest(t: Table, d: string, login: Login)
    requires Select(t, InDepartment(d)) != []
    ensures var members := Select(t, InDepartment(d));
      FirstEquation(Honest(t), d, |members|, login)
        == Returned(System([Ones(|members|)], [SalarySum(members)]))
  {
    var members := Select(t, InDepartment(d));
    AvgHonest(t, d, login);
    AverageTimesCount(members);
    FirstGiven(Honest(t), d, |members|, login, Mean(members), SalarySum(members));
  }

  /** On honest data leaving out a member gives the total less its salary. */
  lemma ExclusionEquationHonest(t: Table, d: string, e: Employee, i: nat, login: Login, row: Row, c: real)
    requires UniqueNames(Select(t, InDepartment(d))) && e in Select(t, InDepartment(d))
    requires |Select(t, InDepartment(d))| >= 2
    requires row == NameSalaryRow(e) && c == SalarySum(Select(t, InDepartment(d))) - e.salary
    ensures ExclusionEquation(Honest(t), d, row, |Select(t, InDepartment(d))|, i, login)
         == Returned(System([Exclusion(|Select(t, InDepartment(d))|, i)], [c]))
  {
    var members := Select(t, InDepartment(d));
    var rest := Select(t, InDepartment(d).(notNamed := Some(e.name)));
    LeaveMemberOut(t, d, e);
    AvgCntHonest(t, d, e.name, login);
    NameSalaryFields(e);
    AverageTimesCount(rest);
    ExclusionGiven(Honest(t), d, row, |members|, i, login, e.name, Mean(rest), |rest|, c);
  }


  /** The exclusion rows of employees `i .. m - 1`, in order. */
  function Exclusions(n: nat, i: nat, m: nat): (r: seq<seq<real>>)
    requires i <= m
    ensures |r| == m - i
    ensures forall k :: 0 <= k < m - i ==> r[k] == Exclusion(n, i + k)
    decreases m - i
  {
    if i == m then [] else [Exclusion(n, i)] + Exclusions(n, i + 1, m)
  }

  /** A total less each of the given salaries. */
  function Shortfalls(total: real, xs: seq<real>): (r: seq<real>)
    ensures |r| == |xs|
    ensures forall k :: 0 <= k < |xs| ==> r[k] == total - xs[k]
  {
    seq(|xs|, k requires 0 <= k < |xs| => total - xs[k])
  }

  lemma DropOneMore<T>(s: seq<T>, i: nat)
    requires i < |s|
    ensures [s[i]] + s[i + 1..] == s[i..]
  {
  }

  /** Every exclusion query from employee `i` on comes back, the one for
      employee `k` with constant `cs[k]`. */
  predicate ExclusionsAnswered(store: QueryFn, d: string, rows: seq<Row>, n: nat, i: nat, login: Login, cs: seq<real>) {
    && |cs| == |rows|
    && forall k {:trigger ExclusionEquation(store, d, rows[k], n, k, login)} :: i <= k < |rows| ==>
         ExclusionEquation(store, d, rows[k], n, k, login) == Returned(System([Exclusion(n, k)], [cs[k]]))
  }

  /** The exclusion loop collects one equation per employee from `i` on,
      when every exclusion query comes back. */
  lemma {:induction false} ExclusionsCollected(store: QueryFn, d: string, rows: seq<Row>, n: nat, i: nat,
                                               login: Login, cs: seq<real>)
    requires i <= |rows| && ExclusionsAnswered(store, d, rows, n, i, login, cs)
    ensures ExclusionEquations(store, d, rows, n, i, login) == Returned(System(Exclusions(n, i, |rows|), cs[i..]))
    decreases |rows| - i
  {
    if i < |rows| {
      ExclusionsCollected(store, d, rows, n, i + 1, login, cs);
      var head := System([Exclusion(n, i)], [cs[i]]);
      var rest := System(Exclusions(n, i + 1, |rows|), cs[i + 1..]);
      ExclusionsGiven(store, d, rows, n, i, login, head, rest);
      DropOneMore(cs, i);
      assert Exclusions(n, i, |rows|) == [Exclusion(n, i)] + Exclusions(n, i + 1, |rows|);
    } else {
      assert cs[i..] == [];
    }
  }

  /** On honest data each exclusion query comes back with the department
      total less the excluded salary. */
  lemma {:induction false} ExclusionAnswers(t: Table, d: string, es: Table, login: Login)
    requires UniqueNames(Select(t, InDepartment(d))) && |Select(t, InDepartment(d))| >= 2
    requires forall k :: 0 <= k < |es| ==> es[k] in Select(t, InDepartment(d))
    ensures var members := Select(t, InDepartment(d));
      ExclusionsAnswered(Honest(t), d, MapSeq(NameSalaryRow, es), |members|, 0, login,
                         Shortfalls(SalarySum(members), MapSeq(Salary, es)))
  {
    var members := Select(t, InDepartment(d));
    var n, rows, cs := |members|, MapSeq(NameSalaryRow, es), Shortfalls(SalarySum(members), MapSeq(Salary, es));
    forall k | 0 <= k < |rows|
      ensures ExclusionEquation(Honest(t), d, rows[k], n, k, login) == Returned(System([Exclusion(n, k)], [cs[k]]))
    {
      ExclusionAnswer(t, d, es, k, login);
    }
  }

  /** The exclusion query for employee `k`, read off the lists the loop walks. */
  lemma {:induction false} ExclusionAnswer(t: Table, d: string, es: Table, k: nat, login: Login)
    requires UniqueNames(Select(t, InDepartment(d))) && |Select(t, InDepartment(d))| >= 2
    requires k < |es| && es[k] in Select(t, InDepartment(d))
    ensures var members := Select(t, InDepartment(d));
      var n, rows, cs := |members|, MapSeq(NameSalaryRow, es), Shortfalls(SalarySum(members), MapSeq(Salary, es));
      ExclusionEquation(Honest(t), d, rows[k], n, k, login) == Returned(System([Exclusion(n, k)], [cs[k]]))
  {
    var members := Select(t, InDepartment(d));
    var rows, cs := MapSeq(NameSalaryRow, es), Shortfalls(SalarySum(members), MapSeq(Salary, es));
    ExclusionEquationHonest(t, d, es[k], k, login, rows[k], cs[k]);
  }

  /** On honest data the exclusion loop collects every exclusion row, with
      the department total less each salary. */
  lemma {:induction false} ExclusionEquationsHonest(t: Table, d: string, es: Table, login: Login)
    requires UniqueNames(Select(t, InDepartment(d))) && |Select(t, InDepartment(d))| >= 2
    requires forall k :: 0 <= k < |es| ==> es[k] in Select(t, InDepartment(d))
    ensures var members := Select(t, InDepartment(d));
      var n, s := |members|, SalarySum(members);
      ExclusionEquations(Honest(t), d, MapSeq(NameSalaryRow, es), n, 0, login)
        == Returned(System(Exclusions(n, 0, |es|), Shortfalls(s, MapSeq(Salary, es))))
  {
    var members := Select(t, InDepartment(d));
    var cs := Shortfalls(SalarySum(members), MapSeq(Salary, es));
    ExclusionAnswers(t, d, es, login);
    ExclusionsCollected(Honest(t), d, MapSeq(NameSalaryRow, es), |members|, 0, login, cs);
    assert cs[0..] == cs;
  }

  /** The all-ones row followed by the exclusions of every employee begins
      with the attack system. */
  lemma SystemPrefix(n: nat)
    requires n >= 1
    ensures ([Ones(n)] + Exclusions(n, 0, n))[..n] == AttackSystem(n)
  {
  }

  /** The total followed by its shortfalls begins with the true constants. */
  lemma ConstantsPrefix(xs: seq<real>)
    requires |xs| >= 1
    ensures ([Sum(xs)] + Shortfalls(Sum(xs), xs))[..|xs|] == TrueConstants(xs)
  {
    ShortfallsPrefix(Sum(xs), xs);
  }

  lemma ShortfallsPrefix(total: real, xs: seq<real>)
    requires |xs| >= 1
    ensures ([total] + Shortfalls(total, xs))[..|xs|]
         == [total] + seq(|xs| - 1, k requires 0 <= k < |xs| - 1 => total - xs[k])
  {
    var a := ([total] + Shortfalls(total, xs))[..|xs|];
    var b := [total] + seq(|xs| - 1, k requires 0 <= k < |xs| - 1 => total - xs[k]);
    assert |a| == |b|;
    forall k | 0 <= k < |a| ensures a[k] == b[k] {
      if k > 0 {
        assert a[k] == Shortfalls(total, xs)[k - 1];
      }
    }
  }

  lemma OrderedHonest(t: Table, d: string, login: Login)
    ensures Fetch(Honest(t), NamesSalariesByDepartmentOrdered, [Str(d)], login)
         == Some(MapSeq(NameSalaryRow, SortBy(Select(t, InDepartment(d)), NameKey)))
  {
    EvalNamesSalariesOrdered(t, d);
    FetchHonest(t, NamesSalariesByDepartmentOrdered, [Str(d)], login,
                MapSeq(NameSalaryRow, SortBy(Select(t, InDepartment(d)), NameKey)));
  }

  /** The salaries in name order sum to the department total. */
  lemma SortedSalarySum(members: Table)
    ensures Sum(MapSeq(Salary, SortBy(members, NameKey))) == SalarySum(members)
  {
    var sorted := SortBy(members, NameKey);
    MapSeqPermute(Salary, sorted, members);
    SumPermute(MapSeq(Salary, sorted), MapSeq(Salary, members));
  }

  /** On honest data every query of the linear-system attack comes back, and
      the first `n` equations are the attack system with the constants of the
      true salaries in name order. */
  lemma HonestSystem(t: Table, d: string, login: Login) returns (first: System, rest: System)
    requires UniqueNames(Select(t, InDepartment(d))) && |Select(t, InDepartment(d))| >= 2
    ensures var members := Select(t, InDepartment(d));
      var sorted := SortBy(members, NameKey);
      var n, rows := |members|, MapSeq(NameSalaryRow, sorted);
      var eqs, consts := first.equations + rest.equations, first.constants + rest.constants;
      && |sorted| == n
      && Fetch(Honest(t), NamesSalariesByDepartmentOrdered, [Str(d)], login) == Some(rows)
      && FirstEquation(Honest(t), d, n, login) == Returned(first)
      && ExclusionEquations(Honest(t), d, rows, n, 0, login) == Returned(rest)
      && |eqs| == |consts| == n + 1
      && eqs[..n] == AttackSystem(n)
      && consts[..n] == TrueConstants(MapSeq(Salary, sorted))
  {
    var members := Select(t, InDepartment(d));
    var sorted := SortBy(members, NameKey);
    var n, s := |members|, SalarySum(members);
    var xs := MapSeq(Salary, sorted);
    assert |sorted| == n by {
      assert |multiset(sorted)| == |multiset(members)|;
    }
    OrderedHonest(t, d, login);
    forall k | 0 <= k < |sorted| ensures sorted[k] in members {
      assert sorted[k] in multiset(members);
    }
    FirstEquationHonest(t, d, login);
    ExclusionEquationsHonest(t, d, sorted, login);
    SortedSalarySum(members);
    first := System([Ones(n)], [s]);
    rest := System(Exclusions(n, 0, n), Shortfalls(s, xs));
    SystemPrefix(n);
    ConstantsPrefix(xs);
  }

  lemma LinearGiven(store: QueryFn, solve: Solver, d: string, login: Login, rows: seq<Row>, first: System, rest: System)
    requires Fetch(store, NamesSalariesByDepartmentOrdered, [Str(d)], login) == Some(rows) && |rows| >= 2
    requires FirstEquation(store, d, |rows|, login) == Returned(first)
    requires ExclusionEquations(store, d, rows, |rows|, 0, login) == Returned(rest)
    ensures LinearSystemAttack(store, solve, d, login)
         == SolveAndReport(solve, rows, System(first.equations + rest.equations, first.constants + rest.constants))
  {
  }

  /** On honest data the report loop reads every row. */
  lemma {:induction false} EntriesHonest(es: Table, x: seq<real>, i: nat, acc: Dict<LinearEntry>)
    requires i <= |es| <= |x|
    ensures Entries(MapSeq(NameSalaryRow, es), x, i, acc).Returned?
    decreases |es| - i
  {
    if i < |es| {
      NameSalaryFields(es[i]);
      PutKeepsDistinct(acc, es[i].name, Entry(x[i], es[i].salary));
      EntriesHonest(es, x, i + 1, Put(acc, es[i].name, Entry(x[i], es[i].salary)));
    }
  }

  lemma SolveGiven(solve: Solver, rows: seq<Row>, sys: System, x: seq<real>)
    requires |rows| >= 2 && |sys.equations| >= |rows| && |sys.constants| >= |rows|
    requires solve(sys.equations[..|rows|], sys.constants[..|rows|]) == Some(x)
    requires Entries(rows, x, 0, []).Returned?
    ensures SolveAndReport(solve, rows, sys).Returned? && SolveAndReport(solve, rows, sys).value.success
  {
  }

  /** A sound solver given the attack system with the true constants can
      only answer the true salaries. */
  lemma SoundSolveIsTrue(solve: Solver, sys: System, xs: seq<real>)
    requires Sound(solve) && |xs| >= 1 && |sys.equations| >= |xs| && |sys.constants| >= |xs|
    requires sys.equations[..|xs|] == AttackSystem(|xs|) && sys.constants[..|xs|] == TrueConstants(xs)
    ensures var r := solve(sys.equations[..|xs|], sys.constants[..|xs|]);
      r.Some? ==> r.value == xs
  {
    var n, b := |xs|, TrueConstants(xs);
    var r := solve(sys.equations[..n], sys.constants[..n]);
    if r.Some? {
      var x := r.value;
      assert Solves(AttackSystem(n), x, b);
      assert |x| == n by {
        assert |AttackSystem(n)[0]| == |x|;
      }
      SolutionIsUnique(x, b);
      TrueSalariesSolve(xs);
    }
  }

  /** Report lines built from the true salaries have no error. */
  lemma ExactResults(sorted: Table, x: seq<real>, results: Dict<LinearEntry>)
    requires x == MapSeq(Salary, sorted)
    requires forall p {:trigger p in results} :: p in results ==>
      exists j :: 0 <= j < |MapSeq(NameSalaryRow, sorted)| && j < |x| && p.1 == Entry(x[j], p.1.actual)
        && FloatField(MapSeq(NameSalaryRow, sorted)[j], "salary") == Returned(p.1.actual)
    ensures forall p {:trigger p in results} :: p in results ==> p.1.inferred == p.1.actual && p.1.error == 0.0
  {
    var rows := MapSeq(NameSalaryRow, sorted);
    forall p {:trigger p in results} | p in results ensures p.1.inferred == p.1.actual && p.1.error == 0.0 {
      var j :| 0 <= j < |rows| && j < |x| && p.1 == Entry(x[j], p.1.actual) && FloatField(rows[j], "salary") == Returned(p.1.actual);
      assert rows[j] == NameSalaryRow(sorted[j]) && x[j] == sorted[j].salary;
      NameSalaryFields(sorted[j]);
    }
  }

  lemma SingularGiven(solve: Solver, rows: seq<Row>, sys: System)
    requires |rows| >= 2 && |sys.equations| >= |rows| && |sys.constants| >= |rows|
    requires solve(sys.equations[..|rows|], sys.constants[..|rows|]).None?
    ensures var v := SolveAndReport(solve, rows, sys);
      v.Returned? && !v.value.success && v.value.reason == Some("System is singular or unsolvable")
  {
  }

  /** Solving a system whose solution is the true salaries reports every
      salary exactly. */
  lemma {:induction false} ReportExact(solve: Solver, sorted: Table, sys: System)
    requires |sorted| >= 2 && |sys.equations| == |sys.constants| == |sorted| + 1
    requires solve(sys.equations[..|sorted|], sys.constants[..|sorted|]) == Some(MapSeq(Salary, sorted))
    ensures var v := SolveAndReport(solve, MapSeq(NameSalaryRow, sorted), sys);
      && v.Returned? && v.value.success
      && v.value.equationsUsed == Some(|sorted| + 1)
      && forall p {:trigger p in v.value.results} :: p in v.value.results ==> p.1.inferred == p.1.actual && p.1.error == 0.0
  {
    var rows, xs := MapSeq(NameSalaryRow, sorted), MapSeq(Salary, sorted);
    EntriesHonest(sorted, xs, 0, []);
    SolveGiven(solve, rows, sys, xs);
    ExactResults(sorted, xs, SolveAndReport(solve, rows, sys).value.results);
  }

  /** Solving a system whose solver can only answer the true salaries
      reports every salary exactly, or fails only because the solver declared
      the system singular. */
  lemma {:induction false} ReportOnTrueSystem(solve: Solver, sorted: Table, sys: System)
    requires |sorted| >= 2 && |sys.equations| == |sys.constants| == |sorted| + 1
    requires var r := solve(sys.equations[..|sorted|], sys.constants[..|sorted|]);
      r.Some? ==> r.value == MapSeq(Salary, sorted)
    ensures var v := SolveAndReport(solve, MapSeq(NameSalaryRow, sorted), sys);
      && v.Returned?
      && (v.value.success ==> v.value.equationsUsed == Some(|sorted| + 1))
      && (v.value.success ==> forall p {:trigger p in v.value.results} :: p in v.value.results ==> p.1.inferred == p.1.actual && p.1.error == 0.0)
      && (!v.value.success ==> v.value.reason == Some("System is singular or unsolvable"))
  {
    var rows := MapSeq(NameSalaryRow, sorted);
    assert |rows| == |sorted|;
    if solve(sys.equations[..|rows|], sys.constants[..|rows|]).Some? {
      ReportExact(solve, sorted, sys);
    } else {
      SingularGiven(solve, rows, sys);
    }
  }

  /** The name-and-salary rows of a table with unique names: each row's
      name and salary read back, and no later row repeats a row's name. */
  lemma NamedRows(sorted: Table)
    requires UniqueNames(sorted)
    ensures var rows := MapSeq(NameSalaryRow, sorted);
      forall j :: 0 <= j < |rows| ==>
        && NameText(rows[j]) == Some(sorted[j].name)
        && FloatField(rows[j], "salary") == Returned(sorted[j].salary)
        && LastWithName(rows, j)
  {
    var rows := MapSeq(NameSalaryRow, sorted);
    forall j | 0 <= j < |rows|
      ensures NameText(rows[j]) == Some(sorted[j].name) && FloatField(rows[j], "salary") == Returned(sorted[j].salary)
    {
      NameSalaryFields(sorted[j]);
    }
  }

  /** A report dictionary with the coverage `Entries` promises, built from
      the true salaries of a table with unique names, has exactly one entry
      per employee, under the employee's name, holding the employee's salary
      as both the inferred and the actual value. */
  lemma ResultsCoverTable(sorted: Table, results: Dict<LinearEntry>)
    requires UniqueNames(sorted)
    requires var rows, x := MapSeq(NameSalaryRow, sorted), MapSeq(Salary, sorted);
      && (forall j :: 0 <= j < |rows| && Readable(rows, x, j) && LastWithName(rows, j) ==>
            Get(results, NameText(rows[j]).value) == Some(Entry(x[j], FloatField(rows[j], "salary").value)))
      && (forall k :: k in Keys(results) <==> exists j :: 0 <= j < |rows| && NameText(rows[j]) == Some(k))
    ensures forall e :: e in sorted ==> Get(results, e.name) == Some(Entry(e.salary, e.salary))
    ensures forall k :: k in Keys(results) <==> exists e :: e in sorted && e.name == k
  {
    var rows, x := MapSeq(NameSalaryRow, sorted), MapSeq(Salary, sorted);
    NamedRows(sorted);
    assert forall e :: e in sorted ==> Get(results, e.name) == Some(Entry(e.salary, e.salary)) by {
      forall e | e in sorted ensures Get(results, e.name) == Some(Entry(e.salary, e.salary)) {
        var j :| 0 <= j < |sorted| && sorted[j] == e;
        assert Readable(rows, x, j) && LastWithName(rows, j);
      }
    }
    forall k ensures k in Keys(results) <==> exists e :: e in sorted && e.name == k {
      if k in Keys(results) {
        var j :| 0 <= j < |rows| && NameText(rows[j]) == Some(k);
        assert sorted[j] in sorted;
      }
      if exists e :: e in sorted && e.name == k {
        var e :| e in sorted && e.name == k;
        var j :| 0 <= j < |sorted| && sorted[j] == e;
        assert NameText(rows[j]) == Some(k);
      }
    }
  }

  /** When the solver answers the true salaries and the names are unique,
      a successful report covers the table: see `ResultsCoverTable`. */
  lemma ReportCoversTable(solve: Solver, sorted: Table, sys: System)
    requires |sorted| >= 2 && |sys.equations| == |sys.constants| == |sorted| + 1
    requires solve(sys.equations[..|sorted|], sys.constants[..|sorted|]) == Some(MapSeq(Salary, sorted))
    requires UniqueNames(sorted)
    ensures var v := SolveAndReport(solve, MapSeq(NameSalaryRow, sorted), sys);
      v.Returned? && v.value.success ==>
        && (forall e :: e in sorted ==> Get(v.value.results, e.name) == Some(Entry(e.salary, e.salary)))
        && (forall k :: k in Keys(v.value.results) <==> exists e :: e in sorted && e.name == k)
  {
    var v := SolveAndReport(solve, MapSeq(NameSalaryRow, sorted), sys);
    if v.Returned? && v.value.success {
      ResultsCoverTable(sorted, v.value.results);
    }
  }

  /** Against a sound solver, the linear-system attack recovers every salary
      of a department of at least two exactly; the only way it can fail is
      the solver declaring the system singular. */
  lemma LinearRecoversSalaries(t: Table, d: string, solve: Solver, login: Login)
    requires UniqueNames(Select(t, InDepartment(d))) && Sound(solve) && |Select(t, InDepartment(d))| >= 2
    ensures var v := LinearSystemAttack(Honest(t), solve, d, login);
      && v.Returned?
      && (v.value.success ==> v.value.equationsUsed == Some(|Select(t, InDepartment(d))| + 1))
      && (v.value.success ==> forall p {:trigger p in v.value.results} :: p in v.value.results ==> p.1.inferred == p.1.actual && p.1.error == 0.0)
      && (!v.value.success ==> v.value.reason == Some("System is singular or unsolvable"))
      && (v.value.success ==> forall e :: e in Select(t, InDepartment(d)) ==>
            Get(v.value.results, e.name) == Some(Entry(e.salary, e.salary)))
      && (v.value.success ==> forall k :: k in Keys(v.value.results) <==>
            exists e :: e in Select(t, InDepartment(d)) && e.name == k)
  {
    var members := Select(t, InDepartment(d));
    var sorted := SortBy(members, NameKey);
    var first, rest := HonestSystem(t, d, login);
    var sys := System(first.equations + rest.equations, first.constants + rest.constants);
    LinearGiven(Honest(t), solve, d, login, MapSeq(NameSalaryRow, sorted), first, rest);
    SoundSolveIsTrue(solve, sys, MapSeq(Salary, sorted));
    ReportOnTrueSystem(solve, sorted, sys);
    if solve(sys.equations[..|sorted|], sys.constants[..|sorted|]).Some? {
      UniqueNamesPermute(members, sorted);
      ReportCoversTable(solve, sorted, sys);
      forall e ensures e in members <==> e in sorted {
        assert e in members <==> e in multiset(members);
      }
    }
  }
}

=== FILE: attacks.dfy ===
/** The four inference attacks and the suite that runs them. Each attack
    issues fixed queries through the store, reads fields of the rows that come
    back the way the Python code does (so a NULL average or a missing column
    raises), and reports what it inferred. */
module Attacks {
  import opened Basics
  import opened Text
  import opened Sorting
  import opened Database
  import opened Employees
  import opened Linear

  /** `InferenceAttack.execute_query`: the rows, or None when the store raises. */
  function Fetch(store: QueryFn, q: Query, params: seq<Value>, login: Login): (r: Option<seq<Row>>)
    ensures r.None? <==> store(q, params, login).Failure?
    ensures r.Some? ==> r.value == store(q, params, login).rows
  {
    match store(q, params, login)
    case Rows(rows) => Some(rows)
    case Failure(_) => None
  }

  /** Python truthiness of a fetched result: present and non-empty. */
  predicate Truthy(r: Option<seq<Row>>) {
    r.Some? && r.value != []
  }

  /** `row[key]`. */
  function Field(row: Row, key: string): (v: Verdict<Value>)
    ensures v.Raised? <==> key !in Keys(row)
    ensures v.Returned? ==> Get(row, key) == Some(v.value)
  {
    match Get(row, key)
    case None => Raised("KeyError: '" + key + "'")
    case Some(x) => Returned(x)
  }

  /** `float(v)` for a value the driver returned. */
  function ToFloat(v: Value): Verdict<real> {
    match v
    case Int(i) => Returned(i as real)
    case Bool(b) => Returned(BoolInt(b) as real)
    case Float(f) => Returned(f)
    case Decimal(d) => Returned(d)
    case Null => Raised("TypeError: float() argument must be a string or a real number, not 'NoneType'")
    case Str(_) => Raised("ValueError: could not convert string to float")
  }

  /** A `COUNT(*)` column used in arithmetic: an `int`, or a `bool` as one. */
  function ToCount(v: Value): Verdict<int> {
    match v
    case Int(i) => Returned(i)
    case Bool(b) => Returned(BoolInt(b))
    case _ => Raised("TypeError: count column is not an int")
  }

  function FloatField(row: Row, key: string): Verdict<real> {
    var v :- Field(row, key);
    ToFloat(v)
  }

  function CountField(row: Row, key: string): Verdict<int> {
    var v :- Field(row, key);
    ToCount(v)
  }

  /** Python truthiness of an optional float: present and non-zero. */
  predicate Nonzero(x: Option<real>) {
    x.Some? && x.value != 0.0
  }

  function Abs(x: real): real {
    if x < 0.0 then -x else x
  }

  /** `float(actual[0]['salary']) if actual else None` for the verification query. */
  function VerifiedSalary(store: QueryFn, target: string, login: Login): Verdict<Option<real>> {
    var actual := Fetch(store, SalaryByName, [Str(target)], login);
    if Truthy(actual) then
      var s :- FloatField(actual.value[0], "salary");
      Returned(Some(s))
    else Returned(None)
  }

  // ---------------------------------------------------------------------
  // Differencing

  datatype DifferencingReport = DifferencingReport(
    success: bool,
    reason: Option<string>,
    inferredSalary: Option<real>,
    actualSalary: Option<real>,
    error: Option<real>,
    queriesUsed: Option<nat>)

  function DifferencingFailure(reason: string): DifferencingReport {
    DifferencingReport(false, Some(reason), None, None, None, None)
  }

  /** The report of a differencing attack that got both averages. */
  function DifferencingSuccess(inferred: real, actual: Option<real>): (r: DifferencingReport)
    ensures r.success && r.reason.None? && r.queriesUsed == Some(2)
    ensures r.inferredSalary == Some(inferred) && r.actualSalary == actual
    ensures r.error.Some? <==> Nonzero(actual)
    ensures r.error.Some? ==> r.error.value == Abs(inferred - actual.value)
  {
    var error := if Nonzero(actual) then Some(Abs(inferred - actual.value)) else None;
    DifferencingReport(true, None, Some(inferred), actual, error, Some(2))
  }

  /** An average times the number of rows it was taken over: their total. */
  function Scaled(avg: real, count: int): real {
    avg * count as real
  }

  /** `target_salary = avg_with * total - avg_without * count_without`. */
  function DifferenceOfTotals(avgWith: real, total: int, avgWithout: real, without: int): real {
    Scaled(avgWith, total) - Scaled(avgWithout, without)
  }

  /** Steps 2 and 3, given what the first query returned. */
  function DifferencingRest(store: QueryFn, target: string, department: string, login: Login,
                            avgWith: real, totalCount: Value): (v: Verdict<DifferencingReport>)
    ensures v.Returned? ==> (v.value.success <==> v.value.reason.None?)
    ensures v.Returned? && !v.value.success ==> v.value.inferredSalary.None?
    ensures v.Returned? && v.value.success ==>
      Truthy(Fetch(store, AvgCountByDepartmentExcept, [Str(department), Str(target)], login))
  {
    var r2 := Fetch(store, AvgCountByDepartmentExcept, [Str(department), Str(target)], login);
    if !Truthy(r2) then Returned(DifferencingFailure("Failed to execute second query"))
    else
      var avgWithout :- FloatField(r2.value[0], "avg_salary");
      var countWithout :- Field(r2.value[0], "emp_count");
      var total :- ToCount(totalCount);
      var without :- ToCount(countWithout);
      var actual :- VerifiedSalary(store, target, login);
      Returned(DifferencingSuccess(DifferenceOfTotals(avgWith, total, avgWithout, without), actual))
  }

  /** `DifferencingAttack.attack`: average with and without the target, times
      the counts, subtracted. */
  function Differencing(store: QueryFn, target: string, department: string, login: Login): (v: Verdict<DifferencingReport>)
    ensures !Truthy(Fetch(store, AvgCountByDepartment, [Str(department)], login)) ==>
      v == Returned(DifferencingFailure("Failed to execute first query"))
    ensures v.Returned? ==> (v.value.success <==> v.value.reason.None?)
    ensures v.Returned? && !v.value.success ==> v.value.inferredSalary.None?
    ensures v.Returned? && v.value.success ==>
      Truthy(Fetch(store, AvgCountByDepartmentExcept, [Str(department), Str(target)], login))
  {
    var r1 := Fetch(store, AvgCountByDepartment, [Str(department)], login);
    if !Truthy(r1) then Returned(DifferencingFailure("Failed to execute first query"))
    else
      var avgWith :- FloatField(r1.value[0], "avg_salary");
      var totalCount :- Field(r1.value[0], "emp_count");
      DifferencingRest(store, target, department, login, avgWith, totalCount)
  }

  // ---------------------------------------------------------------------
  // Tracker

  datatype TrackerReport = TrackerReport(
    success: bool,
    reason: Option<string>,
    inferredHighEarner: Option<bool>,
    actualSalary: Option<real>,
    actualHighEarner: Option<bool>,
    correct: Option<bool>,
    queriesUsed: Option<nat>)

  /** Python's `a > b` on two driver values: numbers compare by value, strings
      by code points, and anything else raises `TypeError`. */
  function Greater(a: Value, b: Value): Verdict<bool> {
    if (a.Int? || a.Bool? || a.Float? || a.Decimal?) && (b.Int? || b.Bool? || b.Float? || b.Decimal?) then
      Returned(Numeric(a) > Numeric(b))
    else if a.Str? && b.Str? then Returned(!StrLe(a.s, b.s))
    else Raised("TypeError: '>' not supported between these values")
  }

  function Numeric(v: Value): real
    requires v.Int? || v.Bool? || v.Float? || v.Decimal?
  {
    match v
    case Int(i) => i as real
    case Bool(b) => BoolInt(b) as real
    case Float(f) => f
    case Decimal(d) => d
  }

  /** `result[0][key] if result else 0`. */
  function CountOrZero(r: Option<seq<Row>>, key: string): Verdict<Value> {
    if Truthy(r) then Field(r.value[0], key) else Returned(Int(0))
  }

  /** `TrackerAttack.attack`: the target is a high earner when leaving it out
      lowers the count of high earners in its department. */
  function Tracker(store: QueryFn, target: string, threshold: real, login: Login): (v: Verdict<TrackerReport>)
    ensures !Truthy(Fetch(store, DepartmentByName, [Str(target)], login)) ==>
      v == Returned(TrackerReport(false, Some("Could not find target employee"), None, None, None, None, None))
    ensures v.Returned? && v.value.success ==>
      && v.value.inferredHighEarner.Some? && v.value.queriesUsed == Some(2)
      && (v.value.actualHighEarner.Some? <==> Nonzero(v.value.actualSalary))
      && (v.value.actualHighEarner.Some? ==> v.value.actualHighEarner.value == (v.value.actualSalary.value > threshold))
      && (v.value.correct.Some? <==> v.value.actualHighEarner.Some?)
      && (v.value.correct.Some? ==> v.value.correct.value == (v.value.inferredHighEarner == v.value.actualHighEarner))
  {
    var d := Fetch(store, DepartmentByName, [Str(target)], login);
    if !Truthy(d) then Returned(TrackerReport(false, Some("Could not find target employee"), None, None, None, None, None))
    else
      var department :- Field(d.value[0], "department");
      var r1 := Fetch(store, CountAbove, [department, Float(threshold)], login);
      var countWith :- CountOrZero(r1, "high_earner_count");
      var r2 := Fetch(store, CountAboveExcept, [department, Float(threshold), Str(target)], login);
      var countWithout :- CountOrZero(r2, "high_earner_count");
      var high :- Greater(countWith, countWithout);
      var actual :- VerifiedSalary(store, target, login);
      var actualHigh := if Nonzero(actual) then Some(actual.value > threshold) else None;
      var correct := if actualHigh.Some? then Some(high == actualHigh.value) else None;
      Returned(TrackerReport(true, None, Some(high), actual, actualHigh, correct, Some(2)))
  }

  /** A failed or empty count query counts as 0: when the first count query
      fails, the target is never inferred to be a high earner against a
      non-negative second count. */
  lemma TrackerFailedCountIsZero(store: QueryFn, target: string, threshold: real, login: Login, department: Value, c: nat)
    requires Truthy(Fetch(store, DepartmentByName, [Str(target)], login))
    requires Field(Fetch(store, DepartmentByName, [Str(target)], login).value[0], "department") == Returned(department)
    requires !Truthy(Fetch(store, CountAbove, [department, Float(threshold)], login))
    requires Fetch(store, CountAboveExcept, [department, Float(threshold), Str(target)], login)
             == Some([Single("high_earner_count", Int(c))])
    ensures Tracker(store, target, threshold, login).Returned? ==>
      Tracker(store, target, threshold, login).value.inferredHighEarner == Some(false)
  {
    assert Get(Single("high_earner_count", Int(c)), "high_earner_count") == Some(Int(c));
  }

  // ---------------------------------------------------------------------
  // Sum

  datatype SumReport = SumReport(
    success: bool,
    reason: Option<string>,
    totalSum: Option<real>,
    knownSum: Option<real>,
    unknownSum: Option<real>,
    unknownCount: Option<int>,
    inferred: Dict<real>,
    queriesUsed: Option<nat>)

  function Second<K, V>(p: (K, V)): V {
    p.1
  }

  /** `d.values()`. */
  function Values(d: Dict<real>): (vs: seq<real>)
    ensures |vs| == |d|
  {
    MapSeq(Second, d)
  }

  /** Some row of `rows` carries the name `k` as text. */
  predicate NamedIn(rows: seq<Row>, k: string) {
    exists j :: 0 <= j < |rows| && Field(rows[j], "name") == Returned(Str(k))
  }

  lemma NamedInTail(rows: seq<Row>, k: string)
    requires rows != [] && NamedIn(rows[1..], k)
    ensures NamedIn(rows, k)
  {
    var j :| 0 <= j < |rows[1..]| && Field(rows[1..][j], "name") == Returned(Str(k));
    assert rows[1..][j] == rows[j + 1];
  }

  /** The loop over the department's rows: every name the attacker does not
      already know is credited with the unknown sum. */
  function InferMissing(emps: seq<Row>, known: Dict<real>, unknownSum: real, acc: Dict<real>): (v: Verdict<Dict<real>>)
    ensures v.Returned? ==> forall p {:trigger p in v.value} :: p in v.value ==> p in acc || (p.1 == unknownSum && p.0 !in Keys(known))
    // Every credited name is the name of one of the rows walked.
    ensures v.Returned? ==> forall p {:trigger p in v.value} :: p in v.value ==> p in acc || NamedIn(emps, p.0)
    ensures v.Returned? ==> forall k :: k in Keys(acc) ==> k in Keys(v.value)
    decreases |emps|
  {
    if emps == [] then Returned(acc)
    else
      var name :- Field(emps[0], "name");
      if !name.Str? then Raised("name column is not text")
      else if name.s in Keys(known) then
        var r := InferMissing(emps[1..], known, unknownSum, acc);
        assert r.Returned? ==> forall p {:trigger p in r.value} :: p in r.value ==> p in acc || NamedIn(emps, p.0) by {
          if r.Returned? {
            forall p {:trigger p in r.value} | p in r.value && p !in acc ensures NamedIn(emps, p.0) {
              NamedInTail(emps, p.0);
            }
          }
        }
        r
      else
        var _ :- FloatField(emps[0], "salary");
        PutKeepsDistinct(acc, name.s, unknownSum);
        var acc2: Dict<real> := Put(acc, name.s, unknownSum);
        assert forall p {:trigger p in acc2} :: p in acc2 ==> p in acc || (p.1 == unknownSum && p.0 !in Keys(known)) by {
          forall p {:trigger p in acc2} | p in acc2 ensures p in acc || (p.1 == unknownSum && p.0 !in Keys(known)) {
            PutEntry(acc, name.s, unknownSum, p);
          }
        }
        var r := InferMissing(emps[1..], known, unknownSum, acc2);
        assert r.Returned? ==> forall p {:trigger p in r.value} :: p in r.value ==> p in acc || NamedIn(emps, p.0) by {
          if r.Returned? {
            forall p {:trigger p in r.value} | p in r.value && p !in acc ensures NamedIn(emps, p.0) {
              if p in acc2 {
                PutEntry(acc, name.s, unknownSum, p);
                assert Field(emps[0], "name") == Returned(Str(p.0));
              } else {
                NamedInTail(emps, p.0);
              }
            }
          }
        }
        r
  }

  /** An entry of `Put(d, k, v)` is `(k, v)` or an entry of `d`. */
  lemma {:induction false} PutEntry<V>(d: seq<(string, V)>, k: string, v: V, p: (string, V))
    requires p in Put(d, k, v)
    ensures p == (k, v) || p in d
    decreases |d|
  {
    if d != [] && d[0].0 != k {
      if p != d[0] {
        assert p in Put(d[1..], k, v);
        PutEntry(d[1..], k, v, p);
      }
    }
  }

  /** Step 3 of the sum attack: only with exactly one unknown employee does
      it read the department's rows and credit the unknown sum. */
  function SumInference(store: QueryFn, department: string, known: Dict<real>, unknownSum: real,
                        unknownCount: int, login: Login): (v: Verdict<Dict<real>>)
    ensures v.Returned? && unknownCount != 1 ==> v.value == []
    ensures v.Returned? ==> forall p {:trigger p in v.value} :: p in v.value ==> p.1 == unknownSum && p.0 !in Keys(known)
    // Every credited name is a row of the department's name-and-salary query.
    ensures v.Returned? && unknownCount == 1 ==>
      && Fetch(store, NamesSalariesByDepartment, [Str(department)], login).Some?
      && forall p {:trigger p in v.value} :: p in v.value ==>
           NamedIn(Fetch(store, NamesSalariesByDepartment, [Str(department)], login).value, p.0)
  {
    if unknownCount == 1 then
      var all := Fetch(store, NamesSalariesByDepartment, [Str(department)], login);
      if all.None? then Raised("TypeError: 'NoneType' object is not iterable")
      else InferMissing(all.value, known, unknownSum, [])
    else Returned([])
  }

  /** The report of a sum attack that got the department totals. */
  function SumOutcome(totalSum: real, knownSum: real, unknownCount: int, inferred: Dict<real>): (r: SumReport)
    ensures r.reason.None? && r.totalSum == Some(totalSum) && r.knownSum == Some(knownSum)
    ensures r.unknownSum == Some(totalSum - knownSum) && r.unknownCount == Some(unknownCount)
    ensures r.success == (unknownCount == 1) && r.inferred == inferred
  {
    SumReport(unknownCount == 1, None, Some(totalSum), Some(knownSum), Some(totalSum - knownSum),
              Some(unknownCount), inferred, Some(2))
  }

  /** `SumAttack.attack`: the department total less the known salaries. */
  function SumAttack(store: QueryFn, department: string, known: Dict<real>, login: Login): (v: Verdict<SumReport>)
    ensures !Truthy(Fetch(store, SumCountByDepartment, [Str(department)], login)) ==>
      v == Returned(SumReport(false, Some("Failed to get department totals"), None, None, None, None, [], None))
    ensures v.Returned? && v.value.reason.None? ==>
      && v.value.totalSum.Some? && v.value.unknownCount.Some? && v.value.knownSum == Some(Sum(Values(known)))
      && v.value.unknownSum.Some?
      && v.value.unknownSum.value + Sum(Values(known)) == v.value.totalSum.value
      && (v.value.success <==> v.value.unknownCount == Some(1))
      && (!v.value.success ==> v.value.inferred == [])
      && (forall p {:trigger p in v.value.inferred} :: p in v.value.inferred ==> p.1 == v.value.unknownSum.value && p.0 !in Keys(known))
      // Every inferred name is a department row's name.
      && (v.value.success ==>
            && Fetch(store, NamesSalariesByDepartment, [Str(department)], login).Some?
            && forall p {:trigger p in v.value.inferred} :: p in v.value.inferred ==>
                 NamedIn(Fetch(store, NamesSalariesByDepartment, [Str(department)], login).value, p.0))
  {
    var r1 := Fetch(store, SumCountByDepartment, [Str(department)], login);
    if !Truthy(r1) then Returned(SumReport(false, Some("Failed to get department totals"), None, None, None, None, [], None))
    else
      var totalSum :- FloatField(r1.value[0], "total_salary");
      var totalCount :- CountField(r1.value[0], "emp_count");
      SumFromTotals(store, department, known, totalSum, totalCount, login)
  }

  /** Steps 2 and 3 of the sum attack, once the department totals are in. */
  function SumFromTotals(store: QueryFn, department: string, known: Dict<real>, totalSum: real,
                         totalCount: int, login: Login): (v: Verdict<SumReport>)
    ensures v.Returned? ==>
      && v.value.reason.None? && v.value.totalSum == Some(totalSum)
      && v.value.knownSum == Some(Sum(Values(known)))
      && v.value.unknownSum == Some(totalSum - Sum(Values(known)))
      && v.value.unknownCount == Some(totalCount - |known|)
      && (v.value.success <==> totalCount - |known| == 1)
      && (!v.value.success ==> v.value.inferred == [])
      && (forall p {:trigger p in v.value.inferred} :: p in v.value.inferred ==> p.1 == totalSum - Sum(Values(known)) && p.0 !in Keys(known))
      && (v.value.success ==>
            && Fetch(store, NamesSalariesByDepartment, [Str(department)], login).Some?
            && forall p {:trigger p in v.value.inferred} :: p in v.value.inferred ==>
                 NamedIn(Fetch(store, NamesSalariesByDepartment, [Str(department)], login).value, p.0))
  {
    var knownSum := Sum(Values(known));
    var inferred :- SumInference(store, department, known, totalSum - knownSum, totalCount - |known|, login);
    Returned(SumOutcome(totalSum, knownSum, totalCount - |known|, inferred))
  }

  // ---------------------------------------------------------------------
  // Linear system

  /** The equations and constants collected so far. */
  datatype System = System(equations: seq<seq<real>>, constants: seq<real>)

  /** Equation 1: the whole department, if its average comes back. */
  function FirstEquation(store: QueryFn, department: string, n: nat, login: Login): (v: Verdict<System>)
    ensures v.Returned? ==> |v.value.equations| == |v.value.constants| <= 1
    ensures v.Returned? ==> forall k :: 0 <= k < |v.value.equations| ==> v.value.equations[k] == Ones(n)
    ensures v.Returned? ==> (|v.value.equations| == 1 <==> Truthy(Fetch(store, AvgByDepartment, [Str(department)], login)))
  {
    var r := Fetch(store, AvgByDepartment, [Str(department)], login);
    if Truthy(r) then
      var avg :- FloatField(r.value[0], "avg_sal");
      Returned(System([Ones(n)], [Scaled(avg, n)]))
    else Returned(System([], []))
  }

  /** The equation that leaves out employee `i`, if its query comes back. */
  function ExclusionEquation(store: QueryFn, department: string, emp: Row, n: nat, i: nat, login: Login)
    : (v: Verdict<System>)
    ensures v.Returned? ==> |v.value.equations| == |v.value.constants| <= 1
    ensures v.Returned? ==> forall k :: 0 <= k < |v.value.equations| ==> v.value.equations[k] == Exclusion(n, i)
  {
    var name :- Field(emp, "name");
    var r := Fetch(store, AvgCntByDepartmentExcept, [Str(department), name], login);
    if Truthy(r) then
      var avg :- FloatField(r.value[0], "avg_sal");
      var cnt :- CountField(r.value[0], "cnt");
      Returned(System([Exclusion(n, i)], [Scaled(avg, cnt)]))
    else Returned(System([], []))
  }

  /** Equations 2..N: leave out employee `i`, then `i + 1`, ... Each query that
      comes back contributes the exclusion row of its employee. */
  function ExclusionEquations(store: QueryFn, department: string, emps: seq<Row>, n: nat, i: nat, login: Login)
    : (v: Verdict<System>)
    requires i <= |emps|
    ensures v.Returned? ==> |v.value.equations| == |v.value.constants| <= |emps| - i
    ensures v.Returned? ==> forall k :: 0 <= k < |v.value.equations| ==>
      exists j :: i <= j < |emps| && v.value.equations[k] == Exclusion(n, j)
    decreases |emps| - i
  {
    if i == |emps| then Returned(System([], []))
    else
      var head :- ExclusionEquation(store, department, emps[i], n, i, login);
      var rest :- ExclusionEquations(store, department, emps, n, i + 1, login);
      var eqs := head.equations + rest.equations;
      assert forall k :: 0 <= k < |eqs| ==> exists j :: i <= j < |emps| && eqs[k] == Exclusion(n, j) by {
        forall k | 0 <= k < |eqs| ensures exists j :: i <= j < |emps| && eqs[k] == Exclusion(n, j) {
          if k < |head.equations| {
            assert eqs[k] == Exclusion(n, i);
          } else {
            assert eqs[k] == rest.equations[k - |head.equations|];
          }
        }
      }
      Returned(System(eqs, head.constants + rest.constants))
  }

  /** One employee's line in the linear-system report. `errorPct` is None
      where the actual salary is 0 (numpy yields inf or nan there). */
  datatype LinearEntry = LinearEntry(inferred: real, actual: real, error: real, errorPct: Option<real>)

  datatype LinearReport = LinearReport(
    success: bool,
    reason: Option<string>,
    employeeCount: Option<nat>,
    equationsUsed: Option<nat>,
    results: Dict<LinearEntry>,
    queriesUsed: Option<nat>)

  function LinearFailure(reason: string): LinearReport {
    LinearReport(false, Some(reason), None, None, [], None)
  }

  function Entry(inferred: real, actual: real): (e: LinearEntry)
    ensures e.error >= 0.0 && (e.error == 0.0 <==> inferred == actual)
    ensures e.errorPct.None? <==> actual == 0.0
  {
    var error := Abs(inferred - actual);
    LinearEntry(inferred, actual, error, if actual == 0.0 then None else Some(error / actual * 100.0))
  }

  /** The text in a row's `name` column, if it has one. */
  function NameText(row: Row): (n: Option<string>)
    ensures n.Some? <==> Field(row, "name").Returned? && Field(row, "name").value.Str?
    ensures n.Some? ==> Field(row, "name").value.s == n.value
  {
    var v := Get(row, "name");
    if v.Some? && v.value.Str? then Some(v.value.s) else None
  }

  /** Row `j` gets through the report loop: the solution has a value for it,
      its salary converts to a float, and its name is text. */
  predicate Readable(emps: seq<Row>, x: seq<real>, j: nat)
    requires j < |emps|
  {
    j < |x| && FloatField(emps[j], "salary").Returned? && NameText(emps[j]).Some?
  }

  /** No later row carries row `j`'s name, so row `j`'s entry is the one
      that stays in the dictionary. */
  predicate LastWithName(emps: seq<Row>, j: nat)
    requires j < |emps|
  {
    forall k :: j < k < |emps| ==> NameText(emps[k]) != NameText(emps[j])
  }

  /** The report loop over rows `i..`: `results[name] = {...}` for each row in
      turn. It raises exactly when some row cannot be read. Otherwise the keys
      are those of `acc` and the names of the rows, and each row that is the
      last with its name leaves its own entry: the solver's value against the
      row's salary. An entry of `acc` whose name no row carries is untouched. */
  function Entries(emps: seq<Row>, x: seq<real>, i: nat, acc: Dict<LinearEntry>): (v: Verdict<Dict<LinearEntry>>)
    requires i <= |emps|
    ensures v.Returned? <==> forall j :: i <= j < |emps| ==> Readable(emps, x, j)
    ensures v.Returned? ==> forall j :: i <= j < |emps| && Readable(emps, x, j) && LastWithName(emps, j) ==>
      Get(v.value, NameText(emps[j]).value) == Some(Entry(x[j], FloatField(emps[j], "salary").value))
    ensures v.Returned? ==> forall k :: k in Keys(v.value) <==>
      k in Keys(acc) || exists j :: i <= j < |emps| && NameText(emps[j]) == Some(k)
    ensures v.Returned? ==> forall k :: k in Keys(acc) && (forall j :: i <= j < |emps| ==> NameText(emps[j]) != Some(k)) ==>
      Get(v.value, k) == Get(acc, k)
    ensures v.Returned? ==> forall p {:trigger p in v.value} :: p in v.value ==>
      || p in acc
      || exists j :: i <= j < |emps| && j < |x| && p.1 == Entry(x[j], p.1.actual) && FloatField(emps[j], "salary") == Returned(p.1.actual)
    decreases |emps| - i
  {
    if i == |emps| then Returned(acc)
    else if i >= |x| then
      assert !Readable(emps, x, i);
      Raised("IndexError: index out of bounds")
    else if FloatField(emps[i], "salary").Raised? then
      assert !Readable(emps, x, i);
      FloatField(emps[i], "salary").PropagateFailure()
    else if Field(emps[i], "name").Raised? then
      assert !Readable(emps, x, i);
      Field(emps[i], "name").PropagateFailure()
    else
      var actual := FloatField(emps[i], "salary").value;
      var name := Field(emps[i], "name").value;
      if !name.Str? then
        assert !Readable(emps, x, i);
        Raised("name column is not text")
      else
        PutKeepsDistinct(acc, name.s, Entry(x[i], actual));
        var acc2: Dict<LinearEntry> := Put(acc, name.s, Entry(x[i], actual));
        var v := Entries(emps, x, i + 1, acc2);
        EntriesStep(emps, x, i, acc, name.s, actual, v);
        v
  }

  /** The inductive step of `Entries`: what the loop over rows `i + 1..`
      promises about `acc2`, with row `i` written in, carries over to rows
      `i..` and `acc`. */
  lemma EntriesStep(emps: seq<Row>, x: seq<real>, i: nat, acc: Dict<LinearEntry>, name: string, actual: real,
                    v: Verdict<Dict<LinearEntry>>)
    requires i < |emps| && i < |x|
    requires FloatField(emps[i], "salary") == Returned(actual) && NameText(emps[i]) == Some(name)
    requires DistinctKeys(Put(acc, name, Entry(x[i], actual)))
    requires var acc2 := Put(acc, name, Entry(x[i], actual));
      && (v.Returned? <==> forall j :: i + 1 <= j < |emps| ==> Readable(emps, x, j))
      && (v.Returned? ==> forall j :: i + 1 <= j < |emps| && Readable(emps, x, j) && LastWithName(emps, j) ==>
            Get(v.value, NameText(emps[j]).value) == Some(Entry(x[j], FloatField(emps[j], "salary").value)))
      && (v.Returned? ==> forall k :: k in Keys(v.value) <==>
            k in Keys(acc2) || exists j :: i + 1 <= j < |emps| && NameText(emps[j]) == Some(k))
      && (v.Returned? ==> forall k :: k in Keys(acc2) && (forall j :: i + 1 <= j < |emps| ==> NameText(emps[j]) != Some(k)) ==>
            Get(v.value, k) == Get(acc2, k))
      && (v.Returned? ==> forall p {:trigger p in v.value} :: p in v.value ==>
            || p in acc2
            || exists j :: i + 1 <= j < |emps| && j < |x| && p.1 == Entry(x[j], p.1.actual) && FloatField(emps[j], "salary") == Returned(p.1.actual))
    ensures v.Returned? <==> forall j :: i <= j < |emps| ==> Readable(emps, x, j)
    ensures v.Returned? ==> forall j :: i <= j < |emps| && Readable(emps, x, j) && LastWithName(emps, j) ==>
      Get(v.value, NameText(emps[j]).value) == Some(Entry(x[j], FloatField(emps[j], "salary").value))
    ensures v.Returned? ==> forall k :: k in Keys(v.value) <==>
      k in Keys(acc) || exists j :: i <= j < |emps| && NameText(emps[j]) == Some(k)
    ensures v.Returned? ==> forall k :: k in Keys(acc) && (forall j :: i <= j < |emps| ==> NameText(emps[j]) != Some(k)) ==>
      Get(v.value, k) == Get(acc, k)
    ensures v.Returned? ==> forall p {:trigger p in v.value} :: p in v.value ==>
      || p in acc
      || exists j :: i <= j < |emps| && j < |x| && p.1 == Entry(x[j], p.1.actual) && FloatField(emps[j], "salary") == Returned(p.1.actual)
  {
    var e := Entry(x[i], actual);
    var acc2 := Put(acc, name, e);
    assert Readable(emps, x, i);
    if v.Returned? {
      forall j | i <= j < |emps| && Readable(emps, x, j) && LastWithName(emps, j)
        ensures Get(v.value, NameText(emps[j]).value) == Some(Entry(x[j], FloatField(emps[j], "salary").value))
      {
        if j == i {
          assert forall j' :: i + 1 <= j' < |emps| ==> NameText(emps[j']) != Some(name);
        }
      }
      forall k ensures k in Keys(v.value) <==> k in Keys(acc) || exists j :: i <= j < |emps| && NameText(emps[j]) == Some(k) {
        assert k in Keys(acc2) <==> k in Keys(acc) || k == name;
      }
      forall p {:trigger p in v.value} | p in v.value ensures p in acc ||
        exists j :: i <= j < |emps| && j < |x| && p.1 == Entry(x[j], p.1.actual) && FloatField(emps[j], "salary") == Returned(p.1.actual)
      {
        if p in acc2 {
          PutEntry(acc, name, e, p);
        }
      }
    }
  }

  /** Step 3 of the linear-system attack: solve the first `n` equations when
      there are that many, and report one entry per employee. */
  function SolveAndReport(solve: Solver, rows: seq<Row>, sys: System): (v: Verdict<LinearReport>)
    requires |rows| >= 2
    ensures var n := |rows|;
      |sys.equations| < n ==> v == Returned(LinearFailure(
        "Not enough equations (" + IntToString(|sys.equations|) + " < " + IntToString(n) + ")"))
    ensures var n := |rows|;
      |sys.equations| >= n && |sys.constants| >= n && solve(sys.equations[..n], sys.constants[..n]).None? ==>
        v == Returned(LinearFailure("System is singular or unsolvable"))
    ensures var n := |rows|;
      |sys.equations| >= n && |sys.constants| >= n && solve(sys.equations[..n], sys.constants[..n]).Some? ==>
        var x := solve(sys.equations[..n], sys.constants[..n]).value;
        v.Returned? <==> forall j :: 0 <= j < n ==> Readable(rows, x, j)
    ensures v.Returned? && v.value.success ==>
      && |sys.equations| >= |rows| && |sys.constants| >= |rows| && solve(sys.equations[..|rows|], sys.constants[..|rows|]).Some?
      && var x := solve(sys.equations[..|rows|], sys.constants[..|rows|]).value;
      && (forall j :: 0 <= j < |rows| ==> Readable(rows, x, j))
      && (forall j :: 0 <= j < |rows| && Readable(rows, x, j) && LastWithName(rows, j) ==>
            Get(v.value.results, NameText(rows[j]).value) == Some(Entry(x[j], FloatField(rows[j], "salary").value)))
      && (forall k :: k in Keys(v.value.results) <==> exists j :: 0 <= j < |rows| && NameText(rows[j]) == Some(k))
    ensures v.Returned? && v.value.success ==>
      && v.value.reason.None? && v.value.employeeCount == Some(|rows|)
      && v.value.equationsUsed == Some(|sys.equations|) && |sys.equations| >= |rows|
      && v.value.queriesUsed == v.value.equationsUsed
      && |sys.constants| >= |rows| && solve(sys.equations[..|rows|], sys.constants[..|rows|]).Some?
      && forall p {:trigger p in v.value.results} :: p in v.value.results ==>
           var x := solve(sys.equations[..|rows|], sys.constants[..|rows|]).value;
           exists j :: 0 <= j < |rows| && j < |x| && p.1 == Entry(x[j], p.1.actual) && FloatField(rows[j], "salary") == Returned(p.1.actual)
    ensures v.Returned? && !v.value.success ==> v.value.reason.Some?
  {
    var n := |rows|;
    if |sys.equations| >= n && |sys.constants| >= n then
      match solve(sys.equations[..n], sys.constants[..n])
      case None => Returned(LinearFailure("System is singular or unsolvable"))
      case Some(x) =>
        var results :- Entries(rows, x, 0, []);
        Returned(LinearReport(true, None, Some(n), Some(|sys.equations|), results, Some(|sys.equations|)))
    else
      Returned(LinearFailure("Not enough equations (" + IntToString(|sys.equations|) + " < " + IntToString(n) + ")"))
  }

  /** `LinearSystemAttack.attack`. */
  function LinearSystemAttack(store: QueryFn, solve: Solver, department: string, login: Login): (v: Verdict<LinearReport>)
    ensures var emps := Fetch(store, NamesSalariesByDepartmentOrdered, [Str(department)], login);
      !Truthy(emps) || |emps.value| < 2 ==> v == Returned(LinearFailure("Not enough employees in department"))
    ensures v.Returned? && v.value.success ==>
      && v.value.reason.None? && v.value.employeeCount.Some? && v.value.employeeCount.value >= 2
      && v.value.equationsUsed.Some? && v.value.equationsUsed.value >= v.value.employeeCount.value
      && v.value.queriesUsed == v.value.equationsUsed
  {
    var emps := Fetch(store, NamesSalariesByDepartmentOrdered, [Str(department)], login);
    if !Truthy(emps) || |emps.value| < 2 then Returned(LinearFailure("Not enough employees in department"))
    else
      var rows := emps.value;
      var first :- FirstEquation(store, department, |rows|, login);
      var rest :- ExclusionEquations(store, department, rows, |rows|, 0, login);
      SolveAndReport(solve, rows, System(first.equations + rest.equations, first.constants + rest.constants))
  }

  // ---------------------------------------------------------------------
  // The suite

  /** The four reports `run_all_attacks` collects. */
  datatype SuiteReport = SuiteReport(
    differencing: DifferencingReport,
    tracker: TrackerReport,
    sum: SumReport,
    linear: LinearReport)

  function Count(b: bool): nat {
    if b then 1 else 0
  }

  /** `sum(1 for r in results.values() if r.get('success', False))`. */
  function Successful(s: SuiteReport): (k: nat)
    ensures k <= 4
    ensures k == 4 <==> s.differencing.success && s.tracker.success && s.sum.success && s.linear.success
    ensures k == 0 <==> !s.differencing.success && !s.tracker.success && !s.sum.success && !s.linear.success
  {
    Count(s.differencing.success) + Count(s.tracker.success) + Count(s.sum.success) + Count(s.linear.success)
  }

  /** The attacks' targets; the suite's own are the demo values. */
  datatype Targets = Targets(
    differencingTarget: string, differencingDepartment: string,
    trackerTarget: string, trackerThreshold: real,
    sumDepartment: string, sumKnown: Dict<real>,
    linearDepartment: string)

  /** `AttackSuite.run_all_attacks`: the attacks in order; an exception in any
      of them escapes the suite. */
  function RunSuite(store: QueryFn, solve: Solver, targets: Targets, login: Login): (v: Verdict<SuiteReport>)
    ensures v.Returned? ==>
      && Differencing(store, targets.differencingTarget, targets.differencingDepartment, login) == Returned(v.value.differencing)
      && Tracker(store, targets.trackerTarget, targets.trackerThreshold, login) == Returned(v.value.tracker)
      && SumAttack(store, targets.sumDepartment, targets.sumKnown, login) == Returned(v.value.sum)
      && LinearSystemAttack(store, solve, targets.linearDepartment, login) == Returned(v.value.linear)
  {
    var d :- Differencing(store, targets.differencingTarget, targets.differencingDepartment, login);
    var t :- Tracker(store, targets.trackerTarget, targets.trackerThreshold, login);
    var s :- SumAttack(store, targets.sumDepartment, targets.sumKnown, login);
    var l :- LinearSystemAttack(store, solve, targets.linearDepartment, login);
    Returned(SuiteReport(d, t, s, l))
  }
}

=== FILE: basics.dfy ===
/** Small shared vocabulary: optional values, Python exceptions that escape a
    call, and insertion-ordered dictionaries with distinct keys. */
module Basics {

  /** Python's `None` or a present value. */
  datatype Option<+T> = None | Some(value: T)

  /** What a Python call produced: the value it returned, or the exception
      that escaped it (a `KeyError`, a `TypeError`, ...). */
  datatype Verdict<+T> = Returned(value: T) | Raised(error: string)
  {
    predicate IsFailure() {
      Raised?
    }

    function PropagateFailure<U>(): Verdict<U>
      requires Raised?
    {
      Raised(error)
    }

    function Extract(): T
      requires Returned?
    {
      value
    }
  }

  /** No string occurs twice. */
  predicate Distinct(ks: seq<string>) {
    forall i, j :: 0 <= i < j < |ks| ==> ks[i] != ks[j]
  }

  /** The invariant of a Python `dict`: no key occurs twice. */
  predicate DistinctKeys<V>(d: seq<(string, V)>) {
    Distinct(Keys(d))
  }

  /** A Python `dict` with string keys, in insertion order. */
  type Dict<V> = d: seq<(string, V)> | DistinctKeys(d) witness []

  function Keys<V>(d: seq<(string, V)>): (ks: seq<string>)
    ensures |ks| == |d|
    ensures forall i {:trigger ks[i]} :: 0 <= i < |d| ==> ks[i] == d[i].0
  {
    if d == [] then [] else [d[0].0] + Keys(d[1..])
  }

  /** `d.get(k)`: the value stored under `k`, if any. */
  function Get<V>(d: seq<(string, V)>, k: string): (r: Option<V>)
    ensures r.None? <==> k !in Keys(d)
    ensures r.Some? ==> (k, r.value) in d
  {
    if d == [] then None else if d[0].0 == k then Some(d[0].1) else Get(d[1..], k)
  }

  /** `d[k] = v`: overwrite in place when `k` is present, append otherwise. */
  function Put<V>(d: seq<(string, V)>, k: string, v: V): (r: seq<(string, V)>)
    ensures Get(r, k) == Some(v)
    ensures forall k' :: k' != k ==> Get(r, k') == Get(d, k')
    ensures k in Keys(d) ==> Keys(r) == Keys(d)
    ensures k !in Keys(d) ==> Keys(r) == Keys(d) + [k]
  {
    if d == [] then [(k, v)]
    else if d[0].0 == k then [(k, v)] + d[1..]
    else
      [d[0]] + Put(d[1..], k, v)
  }

  /** Writing a key keeps the keys of a dictionary distinct. */
  lemma PutKeepsDistinct<V>(d: seq<(string, V)>, k: string, v: V)
    requires DistinctKeys(d)
    ensures DistinctKeys(Put(d, k, v))
  {
    var ks := Keys(d);
    if k !in ks {
      assert Keys(Put(d, k, v)) == ks + [k];
      forall i, j | 0 <= i < j < |ks + [k]|
        ensures (ks + [k])[i] != (ks + [k])[j]
      {
        if j == |ks| {
          assert (ks + [k])[i] == ks[i];
        }
      }
    }
  }

  /** `[f(x) for x in s]`. */
  function MapSeq<T, U>(f: T -> U, s: seq<T>): (r: seq<U>)
    ensures |r| == |s|
    ensures forall i {:trigger r[i]} :: 0 <= i < |s| ==> r[i] == f(s[i])
  {
    if s == [] then [] else [f(s[0])] + MapSeq(f, s[1..])
  }

  lemma MultisetRemove<T>(b: seq<T>, j: nat)
    requires j < |b|
    ensures multiset(b[..j] + b[j + 1..]) == multiset(b) - multiset{b[j]}
  {
    assert b == b[..j] + [b[j]] + b[j + 1..];
  }

  lemma MapSeqRemove<T, U>(f: T -> U, b: seq<T>, j: nat)
    requires j < |b|
    ensures MapSeq(f, b[..j] + b[j + 1..]) == MapSeq(f, b)[..j] + MapSeq(f, b)[j + 1..]
  {
    var rest := b[..j] + b[j + 1..];
    var l, r := MapSeq(f, rest), MapSeq(f, b)[..j] + MapSeq(f, b)[j + 1..];
    assert |l| == |r|;
    forall i | 0 <= i < |l| ensures l[i] == r[i] {
      if i < j {
        assert rest[i] == b[i];
      } else {
        assert rest[i] == b[i + 1];
      }
    }
  }

  lemma MapSeqHead<T, U>(f: T -> U, a: seq<T>)
    requires a != []
    ensures multiset(MapSeq(f, a)) == multiset{f(a[0])} + multiset(MapSeq(f, a[1..]))
  {
    var fa := MapSeq(f, a);
    assert fa == [fa[0]] + fa[1..];
    assert fa[1..] == MapSeq(f, a[1..]);
  }

  /** Taking element `j` out of `b` takes `f(b[j])` out of its image. */
  lemma {:induction false} MapSeqTakeOut<T, U>(f: T -> U, b: seq<T>, j: nat)
    requires j < |b|
    ensures multiset(MapSeq(f, b)) == multiset{f(b[j])} + multiset(MapSeq(f, b[..j] + b[j + 1..]))
  {
    var fb := MapSeq(f, b);
    MapSeqRemove(f, b, j);
    TakeOut(fb, j);
  }

  lemma TakeOut<T>(s: seq<T>, j: nat)
    requires j < |s|
    ensures multiset(s) == multiset{s[j]} + multiset(s[..j] + s[j + 1..])
  {
    assert s == s[..j] + [s[j]] + s[j + 1..];
  }

  /** Mapping a permutation gives a permutation. */
  lemma {:induction false} MapSeqPermute<T, U>(f: T -> U, a: seq<T>, b: seq<T>)
    requires multiset(a) == multiset(b)
    ensures multiset(MapSeq(f, a)) == multiset(MapSeq(f, b))
    decreases |a|
  {
    if a == [] {
      assert |b| == |multiset(b)| == 0;
    } else {
      assert a[0] in multiset(b);
      var j :| 0 <= j < |b| && b[j] == a[0];
      var rest := b[..j] + b[j + 1..];
      MultisetRemove(b, j);
      assert a == [a[0]] + a[1..];
      assert multiset(a[1..]) == multiset(a) - multiset{a[0]};
      MapSeqPermute(f, a[1..], rest);
      MapSeqTakeOut(f, b, j);
      MapSeqHead(f, a);
    }
  }

  /** `sum(s)` over exact reals. */
  function Sum(s: seq<real>): real {
    if s == [] then 0.0 else s[0] + Sum(s[1..])
  }

  lemma {:induction false} SumRemove(b: seq<real>, j: nat)
    requires j < |b|
    ensures Sum(b) == b[j] + Sum(b[..j] + b[j + 1..])
    decreases |b|
  {
    if j > 0 {
      SumRemove(b[1..], j - 1);
      assert b[1..][..j - 1] + b[1..][j..] == (b[..j] + b[j + 1..])[1..];
    } else {
      assert b[..j] + b[j + 1..] == b[1..];
    }
  }

  /** A sum does not depend on the order of its terms. */
  lemma {:induction false} SumPermute(a: seq<real>, b: seq<real>)
    requires multiset(a) == multiset(b)
    ensures Sum(a) == Sum(b)
    decreases |a|
  {
    if a == [] {
      assert |b| == |multiset(b)| == 0;
    } else {
      assert a[0] in multiset(b);
      var j :| 0 <= j < |b| && b[j] == a[0];
      MultisetRemove(b, j);
      assert a == [a[0]] + a[1..];
      assert multiset(a[1..]) == multiset(a) - multiset{a[0]};
      SumPermute(a[1..], b[..j] + b[j + 1..]);
      SumRemove(b, j);
    }
  }

  lemma {:induction false} SumSnoc(a: seq<real>, v: real)
    ensures Sum(a + [v]) == Sum(a) + v
    decreases |a|
  {
    if a == [] {
      assert a + [v] == [v];
    } else {
      assert (a + [v])[1..] == a[1..] + [v];
      SumSnoc(a[1..], v);
    }
  }
}

=== FILE: database.dfy ===
/** The store as the core sees it: rows of values, the audit log every query
    writes to, and the per-user query history that overlap control reads.
    Both logs are append-only sequences; the store's own query execution is a
    function supplied by the caller. */
module Database {
  import opened Basics
  import opened Text
  import opened Sorting
  import opened Digests

  /** A cell as the driver hands it back: SQL NULL, a Python `int`, a `bool`
      (BOOLEAN columns), a Python `float`, a `decimal.Decimal` (NUMERIC columns
      and AVG/SUM results), or a string (text and every other column type). */
  datatype Value = Null | Int(i: int) | Bool(b: bool) | Float(f: real) | Decimal(d: real) | Str(s: string)

  /** A Python `bool` is an `int`: `True` is 1 and `False` is 0. */
  function BoolInt(b: bool): int {
    if b then 1 else 0
  }

  /** A result row: column names in select-list order, each once. */
  type Row = Dict<Value>

  /** A query as submitted: SQL text, positional parameters and the optional
      credentials to connect with instead of the pooled default. */
  datatype Request = Request(text: string, params: seq<Value>, user: Option<string>, password: Option<string>)

  /** What `execute_query` does: return the fetched rows, or raise with a message. */
  datatype Reply = Rows(rows: seq<Row>) | Failure(message: string)

  /** The store's behaviour on the data tables. */
  type StoreFn = Request -> Reply

  /** `hashlib.sha256(text.encode()).hexdigest()`. */
  type Sha = string -> HexDigest

  /** A row of the `query_audit` table (the timestamp column is left out). */
  datatype AuditRecord = AuditRecord(
    username: string,
    queryText: string,
    resultCount: int,
    wasBlocked: bool,
    blockReason: Option<string>)

  /** A row of the `query_history` table (the timestamp column is left out;
      append order stands for `execution_time`). */
  datatype HistoryEntry = HistoryEntry(
    username: string,
    queryHash: HexDigest,
    queryText: string,
    resultSetHash: Option<HexDigest>)

  /** The two logs the core writes. */
  datatype Db = Db(audit: seq<AuditRecord>, history: seq<HistoryEntry>)

  /** `log_query_audit`: append one audit record. */
  function LogQueryAudit(db: Db, username: string, queryText: string, resultCount: int,
                         wasBlocked: bool, blockReason: Option<string>): (r: Db)
    ensures |r.audit| == |db.audit| + 1 && r.audit[..|db.audit|] == db.audit
    ensures r.audit[|db.audit|] == AuditRecord(username, queryText, resultCount, wasBlocked, blockReason)
    ensures r.history == db.history
  {
    db.(audit := db.audit + [AuditRecord(username, queryText, resultCount, wasBlocked, blockReason)])
  }

  // ---------------------------------------------------------------------
  // Canonical text of a result set: str(sorted([str(sorted(r.items())) for r in rows]))

  /** Python's `repr` of a cell (see README for what is approximated). */
  function ValueText(v: Value): string {
    match v
    case Null => "None"
    case Int(i) => IntToString(i)
    case Bool(b) => if b then "True" else "False"
    case Float(f) => IntToString(f.Floor) + ".0"
    case Decimal(d) => "Decimal('" + IntToString(d.Floor) + "')"
    case Str(s) => "'" + s + "'"
  }

  /** Python's `repr` of a string: double quotes when it holds a single quote
      and no double quote, single quotes otherwise. */
  function Repr(s: string): string {
    if '\'' in s && '"' !in s then "\"" + s + "\"" else "'" + s + "'"
  }

  function Join(parts: seq<string>): string {
    if parts == [] then ""
    else if |parts| == 1 then parts[0]
    else parts[0] + ", " + Join(parts[1..])
  }

  function FieldKey(f: (string, Value)): string {
    f.0
  }

  function FieldText(f: (string, Value)): string {
    "(" + Repr(f.0) + ", " + ValueText(f.1) + ")"
  }

  function FieldTexts(fs: seq<(string, Value)>): seq<string> {
    if fs == [] then [] else [FieldText(fs[0])] + FieldTexts(fs[1..])
  }

  /** `str(sorted(r.items()))`: with distinct keys, sorting the items sorts by key. */
  function RowText(r: Row): string {
    "[" + Join(FieldTexts(SortBy(r, FieldKey))) + "]"
  }

  function RowTexts(rows: seq<Row>): (ts: seq<string>)
    ensures |ts| == |rows|
  {
    MapSeq(RowText, rows)
  }

  function Reprs(ss: seq<string>): seq<string> {
    if ss == [] then [] else [Repr(ss[0])] + Reprs(ss[1..])
  }

  /** The text both the overlap check and the history store hash. */
  function CanonicalText(rows: seq<Row>): string {
    "[" + Join(Reprs(SortStrings(RowTexts(rows)))) + "]"
  }

  /** The canonical text does not depend on the order the store returned the
      rows in. */
  lemma CanonicalTextOrderFree(a: seq<Row>, b: seq<Row>)
    requires multiset(a) == multiset(b)
    ensures CanonicalText(a) == CanonicalText(b)
  {
    MapSeqPermute(RowText, a, b);
    SortStringsOrderFree(RowTexts(a), RowTexts(b));
  }

  /** The result hash `store_query_history` records: none for a missing or
      empty result set. */
  function ResultHash(sha: Sha, resultSet: Option<seq<Row>>): (h: Option<HexDigest>)
    ensures h.None? <==> (resultSet.None? || resultSet.value == [])
    ensures h.Some? ==> h.value == sha(CanonicalText(resultSet.value))
  {
    match resultSet
    case None => None
    case Some(rows) => if rows == [] then None else Some(sha(CanonicalText(rows)))
  }

  /** `store_query_history`: append one history entry. */
  function StoreQueryHistory(db: Db, sha: Sha, username: string, queryText: string,
                             resultSet: Option<seq<Row>>): (r: Db)
    ensures |r.history| == |db.history| + 1 && r.history[..|db.history|] == db.history
    ensures r.history[|db.history|] == HistoryEntry(username, sha(queryText), queryText, ResultHash(sha, resultSet))
    ensures r.audit == db.audit
  {
    db.(history := db.history + [HistoryEntry(username, sha(queryText), queryText, ResultHash(sha, resultSet))])
  }

  /** The `limit` most recent entries of `username` in `h`, newest first. */
  function RecentOf(h: seq<HistoryEntry>, username: string, limit: nat): (r: seq<HistoryEntry>)
    ensures |r| <= limit
    ensures forall i :: 0 <= i < |r| ==> r[i] in h && r[i].username == username
    decreases |h|
  {
    if h == [] || limit == 0 then []
    else
      var last := h[|h| - 1];
      var older := RecentOf(h[..|h| - 1], username, if last.username == username then limit - 1 else limit);
      if last.username == username then [last] + older else older
  }

  /** `get_query_history(username, limit)`. */
  function GetQueryHistory(db: Db, username: string, limit: nat): (r: seq<HistoryEntry>)
    ensures |r| <= limit
    ensures forall i :: 0 <= i < |r| ==> r[i] in db.history && r[i].username == username
  {
    RecentOf(db.history, username, limit)
  }

  /** After an entry is stored for `username`, it is the first of that user's
      recent history, ahead of what was there before. */
  lemma RecentAfterStore(db: Db, sha: Sha, username: string, queryText: string,
                         resultSet: Option<seq<Row>>, limit: nat)
    requires limit >= 1
    ensures var after := GetQueryHistory(StoreQueryHistory(db, sha, username, queryText, resultSet), username, limit);
      && after[0] == HistoryEntry(username, sha(queryText), queryText, ResultHash(sha, resultSet))
      && after[1..] == GetQueryHistory(db, username, limit - 1)
  {
    var h := StoreQueryHistory(db, sha, username, queryText, resultSet).history;
    assert h[..|h| - 1] == db.history;
  }

  /** Storing an entry for one user leaves every other user's history as it was. */
  lemma RecentOtherUser(db: Db, sha: Sha, username: string, queryText: string,
                        resultSet: Option<seq<Row>>, other: string, limit: nat)
    requires other != username
    ensures GetQueryHistory(StoreQueryHistory(db, sha, username, queryText, resultSet), other, limit)
         == GetQueryHistory(db, other, limit)
  {
    var h := StoreQueryHistory(db, sha, username, queryText, resultSet).history;
    assert h[..|h| - 1] == db.history;
  }
}

=== FILE: digests.dfy ===
/** SHA-256 hex digests as the overlap check reads them: `int(h, 16)`, then
    `bin(...)[2:].zfill(256)`, then the fraction of positions at which two such
    bit strings agree. SHA-256 itself is not part of this model: callers pass
    it in as a function producing a `HexDigest`. */
module Digests {

  predicate IsHexDigit(c: char) {
    '0' <= c <= '9' || 'a' <= c <= 'f'
  }

  /** What `hashlib.sha256(...).hexdigest()` returns: 64 lower-case hex digits. */
  predicate IsHexDigest(h: string) {
    |h| == 64 && forall i :: 0 <= i < |h| ==> IsHexDigit(h[i])
  }

  type HexDigest = h: string | IsHexDigest(h)
    witness Zeros(64)

  function HexDigitValue(c: char): (d: nat)
    requires IsHexDigit(c)
    ensures d < 16
  {
    if '0' <= c <= '9' then c as int - '0' as int else c as int - 'a' as int + 10
  }

  predicate AllHex(h: string) {
    forall i :: 0 <= i < |h| ==> IsHexDigit(h[i])
  }

  /** `int(h, 16)`. */
  function HexValue(h: string): nat
    requires AllHex(h)
  {
    if h == [] then 0 else 16 * HexValue(h[..|h| - 1]) + HexDigitValue(h[|h| - 1])
  }

  function Pow2(n: nat): (p: nat)
    ensures p >= 1
  {
    if n == 0 then 1 else 2 * Pow2(n - 1)
  }

  lemma {:induction false} Pow2Add4(n: nat)
    ensures Pow2(n + 4) == 16 * Pow2(n)
  {
    assert Pow2(n + 4) == 2 * Pow2(n + 3) == 4 * Pow2(n + 2) == 8 * Pow2(n + 1);
  }

  /** A string of `k` hex digits denotes a number below 2^(4k). */
  lemma {:induction false} HexValueBound(h: string)
    requires AllHex(h)
    ensures HexValue(h) < Pow2(4 * |h|)
    decreases |h|
  {
    if h != [] {
      var pre := h[..|h| - 1];
      HexValueBound(pre);
      Pow2Add4(4 * |pre|);
    }
  }

  /** Two hex strings of equal length with the same value are equal. */
  lemma {:induction false} HexValueInjective(a: string, b: string)
    requires AllHex(a) && AllHex(b) && |a| == |b|
    requires HexValue(a) == HexValue(b)
    ensures a == b
    decreases |a|
  {
    if a != [] {
      var da, db := HexDigitValue(a[|a| - 1]), HexDigitValue(b[|b| - 1]);
      var va, vb := HexValue(a[..|a| - 1]), HexValue(b[..|b| - 1]);
      assert 16 * va + da == 16 * vb + db;
      assert da == (16 * va + da) % 16 && db == (16 * vb + db) % 16;
      assert va == vb;
      HexValueInjective(a[..|a| - 1], b[..|b| - 1]);
      assert a == a[..|a| - 1] + [a[|a| - 1]] && b == b[..|b| - 1] + [b[|b| - 1]];
    }
  }

  function BitChar(b: nat): char
    requires b < 2
  {
    if b == 0 then '0' else '1'
  }

  /** `bin(n)[2:]`: binary digits of `n` without leading zeros. */
  function Bin(n: nat): (r: string)
    ensures |r| >= 1
    decreases n
  {
    if n < 2 then [BitChar(n)] else Bin(n / 2) + [BitChar(n % 2)]
  }

  function Zeros(k: nat): (r: string)
    ensures |r| == k
    ensures forall i :: 0 <= i < k ==> r[i] == '0'
  {
    seq(k, i => '0')
  }

  /** `s.zfill(w)` for a string of digits: pad on the left with '0' up to width `w`. */
  function ZFill(s: string, w: nat): string {
    if |s| >= w then s else Zeros(w - |s|) + s
  }

  /** The `w` lowest bits of `n`, most significant first. */
  function FixedBits(n: nat, w: nat): (r: string)
    ensures |r| == w
  {
    if w == 0 then [] else FixedBits(n / 2, w - 1) + [BitChar(n % 2)]
  }

  /** The number a string of '0'/'1' characters denotes, reading '1' as one. */
  function BitsValue(s: string): nat {
    if s == [] then 0 else 2 * BitsValue(s[..|s| - 1]) + (if s[|s| - 1] == '1' then 1 else 0)
  }

  /** `FixedBits` loses nothing for numbers that fit in `w` bits. */
  lemma {:induction false} FixedBitsRoundTrip(n: nat, w: nat)
    requires n < Pow2(w)
    ensures BitsValue(FixedBits(n, w)) == n
    decreases w
  {
    if w > 0 {
      var s := FixedBits(n, w);
      assert s[..|s| - 1] == FixedBits(n / 2, w - 1);
      FixedBitsRoundTrip(n / 2, w - 1);
    }
  }

  lemma {:induction false} FixedBitsOfZero(w: nat)
    ensures FixedBits(0, w) == Zeros(w)
    decreases w
  {
    if w > 0 {
      FixedBitsOfZero(w - 1);
    }
  }

  lemma {:induction false} FixedBitsPadsBin(n: nat, w: nat)
    requires 1 <= n < Pow2(w)
    ensures |Bin(n)| <= w
    ensures FixedBits(n, w) == Zeros(w - |Bin(n)|) + Bin(n)
    decreases n
  {
    assert w >= 1;
    if n == 1 {
      FixedBitsOfZero(w - 1);
    } else {
      FixedBitsPadsBin(n / 2, w - 1);
    }
  }

  /** `bin(n)[2:].zfill(w)` is the `w`-bit big-endian expansion of `n`
      whenever `n` fits in `w` bits. */
  lemma ZFillBinIsFixedBits(n: nat, w: nat)
    requires 1 <= w && n < Pow2(w)
    ensures ZFill(Bin(n), w) == FixedBits(n, w)
  {
    if n == 0 {
      FixedBitsOfZero(w);
      assert ZFill(Bin(0), w) == Zeros(w - 1) + "0";
    } else {
      FixedBitsPadsBin(n, w);
    }
  }

  /** `bin(int(h, 16))[2:].zfill(256)` for a digest `h`. */
  function Expansion(h: HexDigest): (r: string)
    ensures r == FixedBits(HexValue(h), 256)
  {
    HexValueBound(h);
    ZFillBinIsFixedBits(HexValue(h), 256);
    ZFill(Bin(HexValue(h)), 256)
  }

  /** `sum(b1 == b2 for b1, b2 in zip(a, b))`. */
  function Matches(a: string, b: string): (k: nat)
    ensures k <= |a| && k <= |b|
  {
    if a == [] || b == [] then 0
    else (if a[0] == b[0] then 1 else 0) + Matches(a[1..], b[1..])
  }

  lemma {:induction false} MatchesSymmetric(a: string, b: string)
    ensures Matches(a, b) == Matches(b, a)
    decreases |a|
  {
    if a != [] && b != [] {
      MatchesSymmetric(a[1..], b[1..]);
    }
  }

  /** Two strings of equal length agree everywhere exactly when they are equal. */
  lemma {:induction false} MatchesFullIff(a: string, b: string)
    requires |a| == |b|
    ensures Matches(a, b) == |a| <==> a == b
    decreases |a|
  {
    if a != [] {
      MatchesFullIff(a[1..], b[1..]);
      assert a == [a[0]] + a[1..] && b == [b[0]] + b[1..];
    }
  }

  /** `_calculate_overlap(h1, h2)`: the fraction of the 256 bit positions at
      which the expansions of the two digests agree. */
  function Overlap(h1: HexDigest, h2: HexDigest): (r: real)
    ensures 0.0 <= r <= 1.0
  {
    OverlapMatches(h1, h2) as real / 256.0
  }

  /** The numerator of `Overlap`: how many of the 256 positions agree. */
  function OverlapMatches(h1: HexDigest, h2: HexDigest): (k: nat)
    ensures k <= 256
  {
    Matches(Expansion(h1), Expansion(h2))
  }

  lemma OverlapSymmetric(h1: HexDigest, h2: HexDigest)
    ensures Overlap(h1, h2) == Overlap(h2, h1)
  {
    MatchesSymmetric(Expansion(h1), Expansion(h2));
  }

  /** A digest overlaps with itself completely, and with nothing else. */
  lemma OverlapOneIff(h1: HexDigest, h2: HexDigest)
    ensures Overlap(h1, h2) == 1.0 <==> h1 == h2
  {
    var e1, e2 := Expansion(h1), Expansion(h2);
    MatchesFullIff(e1, e2);
    if e1 == e2 {
      HexValueBound(h1);
      HexValueBound(h2);
      FixedBitsRoundTrip(HexValue(h1), 256);
      FixedBitsRoundTrip(HexValue(h2), 256);
      HexValueInjective(h1, h2);
    }
  }
}

=== FILE: employees.dfy ===
/** The `employees` table the attacks query, the WHERE clauses they use, and
    the store's answer to each of the attack queries on a given table. A store
    that answers this way is what the attack theorems call honest. */
module Employees {
  import opened Basics
  import opened Sorting
  import opened Database

  datatype Employee = Employee(name: string, department: string, salary: real)

  type Table = seq<Employee>

  /** A WHERE clause built from the four conditions the attack queries combine:
      `department = d`, `salary > x`, `name != n` and `name = n`. */
  datatype Where = Where(department: Option<string>, above: Option<real>,
                         notNamed: Option<string>, named: Option<string>)

  predicate Satisfies(e: Employee, w: Where) {
    && (w.department.Some? ==> e.department == w.department.value)
    && (w.above.Some? ==> e.salary > w.above.value)
    && (w.notNamed.Some? ==> e.name != w.notNamed.value)
    && (w.named.Some? ==> e.name == w.named.value)
  }

  /** The rows of `t` a WHERE clause keeps, in table order. */
  function Select(t: Table, w: Where): (r: Table)
    ensures |r| <= |t|
    ensures forall e :: e in r <==> e in t && Satisfies(e, w)
  {
    if t == [] then [] else (if Satisfies(t[0], w) then [t[0]] else []) + Select(t[1..], w)
  }

  function InDepartment(d: string): Where {
    Where(Some(d), None, None, None)
  }

  function Salary(e: Employee): real {
    e.salary
  }

  function NameKey(e: Employee): string {
    e.name
  }

  /** `SUM(salary)` over the rows, reading NULL for no rows as 0. */
  function SalarySum(t: Table): real {
    Sum(MapSeq(Salary, t))
  }

  /** No two rows of the table share a name. */
  predicate UniqueNames(t: Table) {
    forall i, j :: 0 <= i < j < |t| ==> t[i].name != t[j].name
  }

  /** No other row of the table has row `i`'s name. */
  predicate UniqueName(t: Table, i: nat)
    requires i < |t|
  {
    forall j :: 0 <= j < |t| && j != i ==> t[j].name != t[i].name
  }

  lemma UniqueNamesEach(t: Table, i: nat)
    requires UniqueNames(t) && i < |t|
    ensures UniqueName(t, i)
  {
    forall j | 0 <= j < |t| && j != i ensures t[j].name != t[i].name {
      if j < i {
        assert t[j].name != t[i].name;
      } else {
        assert t[i].name != t[j].name;
      }
    }
  }

  /** Dropping row `j` keeps the names unique, and every remaining row is a
      row other than `j`. */
  lemma UniqueNamesRemove(a: Table, j: nat)
    requires UniqueNames(a) && j < |a|
    ensures UniqueNames(a[..j] + a[j + 1..])
    ensures forall e :: e in a[..j] + a[j + 1..] ==> e.name != a[j].name
  {
    var a' := a[..j] + a[j + 1..];
    forall p, q | 0 <= p < q < |a'| ensures a'[p].name != a'[q].name {
      var p', q' := if p < j then p else p + 1, if q < j then q else q + 1;
      assert a'[p] == a[p'] && a'[q] == a[q'];
    }
    forall e | e in a' ensures e.name != a[j].name {
      var m :| 0 <= m < |a'| && a'[m] == e;
      var m' := if m < j then m else m + 1;
      assert a[m'] == e;
    }
  }

  /** Taking the same row out of two permutations leaves permutations. */
  lemma PermuteTail(a: Table, b: Table, j: nat)
    requires multiset(a) == multiset(b) && b != [] && j < |a| && a[j] == b[0]
    ensures multiset(a[..j] + a[j + 1..]) == multiset(b[1..])
  {
    TakeOut(a, j);
    assert b == [b[0]] + b[1..];
    assert multiset(b) == multiset{b[0]} + multiset(b[1..]);
    assert multiset(a[..j] + a[j + 1..]) == multiset(a) - multiset{b[0]} == multiset(b[1..]);
  }

  /** Reordering the rows keeps the names unique. */
  lemma {:induction false} UniqueNamesPermute(a: Table, b: Table)
    requires multiset(a) == multiset(b) && UniqueNames(a)
    ensures UniqueNames(b)
    decreases |b|
  {
    if b != [] {
      assert b[0] in multiset(a);
      var j :| 0 <= j < |a| && a[j] == b[0];
      var a', b' := a[..j] + a[j + 1..], b[1..];
      PermuteTail(a, b, j);
      UniqueNamesRemove(a, j);
      UniqueNamesPermute(a', b');
      forall q | 0 < q < |b| ensures b[0].name != b[q].name {
        assert b[q] == b'[q - 1] && b[q] in multiset(a');
      }
      forall p, q | 0 < p < q < |b| ensures b[p].name != b[q].name {
        assert b[p] == b'[p - 1] && b[q] == b'[q - 1];
      }
    }
  }

  // ---------------------------------------------------------------------
  // Partition of a selection by one name

  lemma SalarySumCons(t: Table)
    requires t != []
    ensures SalarySum(t) == t[0].salary + SalarySum(t[1..])
  {
    assert MapSeq(Salary, t)[1..] == MapSeq(Salary, t[1..]);
  }

  lemma SalarySumAppend(a: Table, b: Table)
    requires |a| <= 1
    ensures SalarySum(a + b) == SalarySum(a) + SalarySum(b)
  {
    assert MapSeq(Salary, []) == [];
    if a != [] {
      SalarySumCons(a + b);
      assert (a + b)[1..] == b;
      SalarySumCons(a);
      assert a[1..] == [];
    } else {
      assert a + b == b;
    }
  }

  /** Adding `name != n` and adding `name = n` to a clause split its rows in
      two: the counts and the salary sums of the halves add up to the whole. */
  lemma {:induction false} SelectSplitsByName(t: Table, w: Where, n: string)
    requires w.notNamed.None? && w.named.None?
    ensures |Select(t, w)| == |Select(t, w.(notNamed := Some(n)))| + |Select(t, w.(named := Some(n)))|
    ensures SalarySum(Select(t, w)) == SalarySum(Select(t, w.(notNamed := Some(n)))) + SalarySum(Select(t, w.(named := Some(n))))
    decreases |t|
  {
    if t != [] {
      var wo, wi := w.(notNamed := Some(n)), w.(named := Some(n));
      SelectSplitsByName(t[1..], w, n);
      var h, ho, hi := (if Satisfies(t[0], w) then [t[0]] else []),
                       (if Satisfies(t[0], wo) then [t[0]] else []),
                       (if Satisfies(t[0], wi) then [t[0]] else []);
      SalarySumAppend(h, Select(t[1..], w));
      SalarySumAppend(ho, Select(t[1..], wo));
      SalarySumAppend(hi, Select(t[1..], wi));
    }
  }

  lemma {:induction false} SelectNobodyNamed(t: Table, w: Where)
    requires w.named.Some? && forall k :: 0 <= k < |t| ==> t[k].name != w.named.value
    ensures Select(t, w) == []
    decreases |t|
  {
    if t != [] {
      SelectNobodyNamed(t[1..], w);
    }
  }

  /** When no other row shares row `i`'s name, selecting by that name finds
      row `i` alone, when it meets the rest of the clause, and nothing
      otherwise. */
  lemma {:induction false} SelectByUniqueName(t: Table, w: Where, i: nat)
    requires i < |t| && UniqueName(t, i) && w.named.None?
    ensures Select(t, w.(named := Some(t[i].name))) == if Satisfies(t[i], w) then [t[i]] else []
    decreases |t|
  {
    var wi := w.(named := Some(t[i].name));
    if i == 0 {
      forall k | 0 <= k < |t[1..]| ensures t[1..][k].name != t[0].name {
        assert t[k + 1].name != t[0].name;
      }
      SelectNobodyNamed(t[1..], wi);
    } else {
      assert UniqueName(t[1..], i - 1) by {
        forall k | 0 <= k < |t[1..]| && k != i - 1 ensures t[1..][k].name != t[1..][i - 1].name {
          assert t[k + 1].name != t[i].name;
        }
      }
      assert t[1..][i - 1] == t[i];
      SelectByUniqueName(t[1..], w, i - 1);
      assert t[0].name != t[i].name;
    }
  }

  // ---------------------------------------------------------------------
  // The attack queries and an honest store

  /** The fixed queries the attacks send, each with its `%s` parameters:
      - AvgCountByDepartment: `AVG(salary), COUNT(*)` of a department
      - AvgCountByDepartmentExcept: the same without one name
      - SalaryByName, DepartmentByName: one employee's salary or department
      - CountAbove, CountAboveExcept: how many of a department earn above a
        threshold, with or without one name
      - SumCountByDepartment: `SUM(salary), COUNT(*)` of a department
      - NamesSalariesByDepartment, NamesSalariesByDepartmentOrdered: a
        department's names and salaries, the second `ORDER BY name`
      - AvgByDepartment, AvgCntByDepartmentExcept: the linear-system queries */
  datatype Query =
    | AvgCountByDepartment
    | AvgCountByDepartmentExcept
    | SalaryByName
    | DepartmentByName
    | CountAbove
    | CountAboveExcept
    | SumCountByDepartment
    | NamesSalariesByDepartment
    | NamesSalariesByDepartmentOrdered
    | AvgByDepartment
    | AvgCntByDepartmentExcept

  /** The credentials a query runs with (None: the pooled default). */
  datatype Login = Login(user: Option<string>, password: Option<string>)

  /** `db.execute_query(query, params, user, password)` for the attack queries. */
  type QueryFn = (Query, seq<Value>, Login) -> Reply

  /** The mean salary of a non-empty set of rows. */
  function Mean(t: Table): real
    requires t != []
  {
    SalarySum(t) / |t| as real
  }

  /** `AVG(salary)`: NULL over no rows, a NUMERIC otherwise. */
  function Average(t: Table): Value {
    if t == [] then Null else Decimal(Mean(t))
  }

  /** `SUM(salary)`: NULL over no rows, a NUMERIC otherwise. */
  function Total(t: Table): Value {
    if t == [] then Null else Decimal(SalarySum(t))
  }

  function Pair(k1: string, v1: Value, k2: string, v2: Value): Row
    requires k1 != k2
  {
    var r := [(k1, v1), (k2, v2)];
    assert Keys(r) == [k1, k2];
    r
  }

  function Single(k: string, v: Value): Row {
    var r := [(k, v)];
    assert Keys(r) == [k];
    r
  }

  function NameSalaryRow(e: Employee): Row {
    Pair("name", Str(e.name), "salary", Decimal(e.salary))
  }

  function DepartmentRow(e: Employee): Row {
    Single("department", Str(e.department))
  }

  function SalaryRow(e: Employee): Row {
    Single("salary", Decimal(e.salary))
  }

  predicate IsText(v: Value) {
    v.Str?
  }

  /** What the store returns for each attack query on table `t`; parameters
      of the wrong shape make the query fail. The ORDER BY uses Python's
      code-point order of names. */
  function Evaluate(t: Table, q: Query, p: seq<Value>): Reply {
    match q
    case AvgCountByDepartment =>
      if |p| == 1 && IsText(p[0]) then
        var s := Select(t, InDepartment(p[0].s));
        Rows([Pair("avg_salary", Average(s), "emp_count", Int(|s|))])
      else Failure("bad parameters")
    case AvgCountByDepartmentExcept =>
      if |p| == 2 && IsText(p[0]) && IsText(p[1]) then
        var s := Select(t, InDepartment(p[0].s).(notNamed := Some(p[1].s)));
        Rows([Pair("avg_salary", Average(s), "emp_count", Int(|s|))])
      else Failure("bad parameters")
    case SalaryByName =>
      if |p| == 1 && IsText(p[0]) then Rows(MapSeq(SalaryRow, Select(t, Where(None, None, None, Some(p[0].s)))))
      else Failure("bad parameters")
    case DepartmentByName =>
      if |p| == 1 && IsText(p[0]) then Rows(MapSeq(DepartmentRow, Select(t, Where(None, None, None, Some(p[0].s)))))
      else Failure("bad parameters")
    case CountAbove =>
      if |p| == 2 && IsText(p[0]) && p[1].Float? then
        Rows([Single("high_earner_count", Int(|Select(t, Where(Some(p[0].s), Some(p[1].f), None, None))|))])
      else Failure("bad parameters")
    case CountAboveExcept =>
      if |p| == 3 && IsText(p[0]) && p[1].Float? && IsText(p[2]) then
        Rows([Single("high_earner_count", Int(|Select(t, Where(Some(p[0].s), Some(p[1].f), Some(p[2].s), None))|))])
      else Failure("bad parameters")
    case SumCountByDepartment =>
      if |p| == 1 && IsText(p[0]) then
        var s := Select(t, InDepartment(p[0].s));
        Rows([Pair("total_salary", Total(s), "emp_count", Int(|s|))])
      else Failure("bad parameters")
    case NamesSalariesByDepartment =>
      if |p| == 1 && IsText(p[0]) then Rows(MapSeq(NameSalaryRow, Select(t, InDepartment(p[0].s))))
      else Failure("bad parameters")
    case NamesSalariesByDepartmentOrdered =>
      if |p| == 1 && IsText(p[0]) then Rows(MapSeq(NameSalaryRow, SortBy(Select(t, InDepartment(p[0].s)), NameKey)))
      else Failure("bad parameters")
    case AvgByDepartment =>
      if |p| == 1 && IsText(p[0]) then Rows([Single("avg_sal", Average(Select(t, InDepartment(p[0].s))))])
      else Failure("bad parameters")
    case AvgCntByDepartmentExcept =>
      if |p| == 2 && IsText(p[0]) && IsText(p[1]) then
        var s := Select(t, InDepartment(p[0].s).(notNamed := Some(p[1].s)));
        Rows([Pair("avg_sal", Average(s), "cnt", Int(|s|))])
      else Failure("bad parameters")
  }

  /** The store that answers every attack query truthfully from `t`. */
  function Honest(t: Table): QueryFn {
    (q, p, login) => Evaluate(t, q, p)
  }
}

=== FILE: honest_store.dfy ===
/** What the honest store answers to each attack query, one small fact per
    query, and how the attacks read the rows that come back. The attack
    theorems are built from these so that none of them has to unfold the
    store as a whole. */
module HonestStore {
  import opened Basics
  import opened Sorting
  import opened Database
  import opened Employees
  import opened Attacks

  /** The rows the honest store evaluates are the rows the attacks fetch. */
  lemma FetchHonest(t: Table, q: Query, p: seq<Value>, login: Login, rows: seq<Row>)
    requires Evaluate(t, q, p) == Rows(rows)
    ensures Fetch(Honest(t), q, p, login) == Some(rows)
  {
  }

  // ---------------------------------------------------------------------
  // One fact per query

  lemma EvalAvgCount(t: Table, d: string)
    ensures var s := Select(t, InDepartment(d));
      Evaluate(t, AvgCountByDepartment, [Str(d)]) == Rows([Pair("avg_salary", Average(s), "emp_count", Int(|s|))])
  {
    var p := [Str(d)];
    assert |p| == 1 && IsText(p[0]) && p[0].s == d;
  }

  lemma EvalAvgCountExcept(t: Table, d: string, name: string)
    ensures var s := Select(t, InDepartment(d).(notNamed := Some(name)));
      Evaluate(t, AvgCountByDepartmentExcept, [Str(d), Str(name)])
        == Rows([Pair("avg_salary", Average(s), "emp_count", Int(|s|))])
  {
    var p := [Str(d), Str(name)];
    assert |p| == 2 && IsText(p[0]) && IsText(p[1]) && p[0].s == d && p[1].s == name;
  }

  lemma EvalSalaryByName(t: Table, name: string)
    ensures Evaluate(t, SalaryByName, [Str(name)])
         == Rows(MapSeq(SalaryRow, Select(t, Where(None, None, None, Some(name)))))
  {
    var p := [Str(name)];
    assert |p| == 1 && IsText(p[0]) && p[0].s == name;
  }

  lemma EvalDepartmentByName(t: Table, name: string)
    ensures Evaluate(t, DepartmentByName, [Str(name)])
         == Rows(MapSeq(DepartmentRow, Select(t, Where(None, None, None, Some(name)))))
  {
    var p := [Str(name)];
    assert |p| == 1 && IsText(p[0]) && p[0].s == name;
  }

  lemma EvalCountAbove(t: Table, d: string, x: real)
    ensures Evaluate(t, CountAbove, [Str(d), Float(x)])
         == Rows([Single("high_earner_count", Int(|Select(t, Where(Some(d), Some(x), None, None))|))])
  {
    var p := [Str(d), Float(x)];
    assert |p| == 2 && IsText(p[0]) && p[1].Float? && p[0].s == d && p[1].f == x;
  }

  lemma EvalCountAboveExcept(t: Table, d: string, x: real, name: string)
    ensures Evaluate(t, CountAboveExcept, [Str(d), Float(x), Str(name)])
         == Rows([Single("high_earner_count", Int(|Select(t, Where(Some(d), Some(x), Some(name), None))|))])
  {
    var p := [Str(d), Float(x), Str(name)];
    assert |p| == 3 && IsText(p[0]) && p[1].Float? && IsText(p[2]);
    assert p[0].s == d && p[1].f == x && p[2].s == name;
  }

  lemma EvalSumCount(t: Table, d: string)
    ensures var s := Select(t, InDepartment(d));
      Evaluate(t, SumCountByDepartment, [Str(d)]) == Rows([Pair("total_salary", Total(s), "emp_count", Int(|s|))])
  {
    var p := [Str(d)];
    assert |p| == 1 && IsText(p[0]) && p[0].s == d;
  }

  lemma EvalNamesSalaries(t: Table, d: string)
    ensures Evaluate(t, NamesSalariesByDepartment, [Str(d)])
         == Rows(MapSeq(NameSalaryRow, Select(t, InDepartment(d))))
  {
    var p := [Str(d)];
    assert |p| == 1 && IsText(p[0]) && p[0].s == d;
  }

  lemma EvalNamesSalariesOrdered(t: Table, d: string)
    ensures Evaluate(t, NamesSalariesByDepartmentOrdered, [Str(d)])
         == Rows(MapSeq(NameSalaryRow, SortBy(Select(t, InDepartment(d)), NameKey)))
  {
    var p := [Str(d)];
    assert |p| == 1 && IsText(p[0]) && p[0].s == d;
  }

  lemma EvalAvg(t: Table, d: string)
    ensures Evaluate(t, AvgByDepartment, [Str(d)])
         == Rows([Single("avg_sal", Average(Select(t, InDepartment(d))))])
  {
    var p := [Str(d)];
    assert |p| == 1 && IsText(p[0]) && p[0].s == d;
  }

  lemma EvalAvgCntExcept(t: Table, d: string, name: string)
    ensures var s := Select(t, InDepartment(d).(notNamed := Some(name)));
      Evaluate(t, AvgCntByDepartmentExcept, [Str(d), Str(name)])
        == Rows([Pair("avg_sal", Average(s), "cnt", Int(|s|))])
  {
    var p := [Str(d), Str(name)];
    assert |p| == 2 && IsText(p[0]) && IsText(p[1]) && p[0].s == d && p[1].s == name;
  }

  // ---------------------------------------------------------------------
  // Reading the rows

  lemma SingleField(k: string, v: Value)
    ensures Field(Single(k, v), k) == Returned(v)
  {
    assert Get(Single(k, v), k) == Some(v);
  }

  lemma PairFields(k1: string, v1: Value, k2: string, v2: Value)
    requires k1 != k2
    ensures Field(Pair(k1, v1, k2, v2), k1) == Returned(v1)
    ensures Field(Pair(k1, v1, k2, v2), k2) == Returned(v2)
  {
    assert Get(Pair(k1, v1, k2, v2), k1) == Some(v1);
    assert Get(Pair(k1, v1, k2, v2), k2) == Some(v2);
  }

  lemma NameSalaryFields(e: Employee)
    ensures Field(NameSalaryRow(e), "name") == Returned(Str(e.name))
    ensures FloatField(NameSalaryRow(e), "salary") == Returned(e.salary)
  {
    PairFields("name", Str(e.name), "salary", Decimal(e.salary));
  }

  /** An `AVG` over some rows reads back as their mean. */
  lemma AverageReads(s: Table)
    requires s != []
    ensures ToFloat(Average(s)) == Returned(Mean(s))
  {
  }

  /** `Pair(kAvg, AVG, kCount, COUNT)` read the way the attacks read it. */
  lemma AverageCountRow(kAvg: string, kCount: string, s: Table)
    requires kAvg != kCount && s != []
    ensures FloatField(Pair(kAvg, Average(s), kCount, Int(|s|)), kAvg) == Returned(Mean(s))
    ensures Field(Pair(kAvg, Average(s), kCount, Int(|s|)), kCount) == Returned(Int(|s|))
    ensures CountField(Pair(kAvg, Average(s), kCount, Int(|s|)), kCount) == Returned(|s|)
  {
    PairFields(kAvg, Average(s), kCount, Int(|s|));
    AverageReads(s);
  }

  /** The same for a `SUM` and a `COUNT(*)`. */
  lemma TotalCountRow(kSum: string, kCount: string, s: Table)
    requires kSum != kCount && s != []
    ensures FloatField(Pair(kSum, Total(s), kCount, Int(|s|)), kSum) == Returned(SalarySum(s))
    ensures CountField(Pair(kSum, Total(s), kCount, Int(|s|)), kCount) == Returned(|s|)
  {
    PairFields(kSum, Total(s), kCount, Int(|s|));
    assert Total(s) == Decimal(SalarySum(s));
  }

  // ---------------------------------------------------------------------
  // Selections with unique names

  /** When no other row shares row `i`'s name, looking it up finds row `i`
      alone. */
  lemma FindByName(t: Table, i: nat)
    requires i < |t| && UniqueName(t, i)
    ensures Select(t, Where(None, None, None, Some(t[i].name))) == [t[i]]
  {
    SelectByUniqueName(t, Where(None, None, None, None), i);
  }

  /** A member of the department is a row of the table with that department. */
  lemma MemberRow(t: Table, d: string, e: Employee) returns (j: nat)
    requires e in Select(t, InDepartment(d))
    ensures j < |t| && t[j] == e && e.department == d
  {
    j :| 0 <= j < |t| && t[j] == e;
  }

  lemma SalarySumSingle(e: Employee)
    ensures SalarySum([e]) == e.salary
  {
    SalarySumCons([e]);
    assert MapSeq(Salary, [e][1..]) == [];
  }

  /** The department of row `i` splits into row `i` and the rest: the rest has
      one row fewer and its salaries sum to the total less row `i`'s. */
  lemma LeaveOneOut(t: Table, i: nat)
    requires i < |t| && UniqueName(t, i)
    ensures var w := InDepartment(t[i].department);
      var rest := Select(t, w.(notNamed := Some(t[i].name)));
      && |rest| == |Select(t, w)| - 1
      && SalarySum(rest) == SalarySum(Select(t, w)) - t[i].salary
  {
    var w := InDepartment(t[i].department);
    SelectSplitsByName(t, w, t[i].name);
    SelectByUniqueName(t, w, i);
    SalarySumSingle(t[i]);
  }

  /** The same for a member of department `d` given as a value. */
  lemma LeaveMemberOut(t: Table, d: string, e: Employee)
    requires UniqueNames(Select(t, InDepartment(d))) && e in Select(t, InDepartment(d))
    ensures var rest := Select(t, InDepartment(d).(notNamed := Some(e.name)));
      && |rest| == |Select(t, InDepartment(d))| - 1
      && SalarySum(rest) == SalarySum(Select(t, InDepartment(d))) - e.salary
  {
    var members := Select(t, InDepartment(d));
    var j :| 0 <= j < |members| && members[j] == e;
    UniqueNamesEach(members, j);
    LeaveOneOut(members, j);
    SelectTwice(t, InDepartment(d), InDepartment(d));
    SelectTwice(t, InDepartment(d), InDepartment(d).(notNamed := Some(e.name)));
  }

  /** Selecting again with a clause that implies the first selects from the
      whole table. */
  lemma {:induction false} SelectTwice(t: Table, w: Where, w2: Where)
    requires forall e :: Satisfies(e, w2) ==> Satisfies(e, w)
    ensures Select(Select(t, w), w2) == Select(t, w2)
    decreases |t|
  {
    if t != [] {
      SelectTwice(t[1..], w, w2);
      var s := Select(t, w);
      if Satisfies(t[0], w) {
        assert s == [t[0]] + Select(t[1..], w);
        assert s[0] == t[0] && s[1..] == Select(t[1..], w);
        assert Select(s, w2) == (if Satisfies(t[0], w2) then [t[0]] else []) + Select(s[1..], w2);
      } else {
        assert s == Select(t[1..], w);
        assert !Satisfies(t[0], w2);
      }
    }
  }

  /** A mean times the number of rows it was taken over is their total. */
  lemma AverageTimesCount(t: Table)
    requires t != []
    ensures Scaled(Mean(t), |t|) == SalarySum(t)
  {
  }
}

=== FILE: linear.dfy ===
/** The linear system the linear-system attack builds: one equation for the
    whole department and one per excluded employee. The first `n` of them
    determine the salaries uniquely; `Recover` is the inverse written out. */
module Linear {
  import opened Basics

  /** `[1] * n`. */
  function Ones(n: nat): (r: seq<real>)
    ensures |r| == n
    ensures forall j :: 0 <= j < n ==> r[j] == 1.0
  {
    seq(n, j => 1.0)
  }

  /** `[1] * n` with position `i` set to 0: the equation that leaves out employee `i`. */
  function Exclusion(n: nat, i: nat): (r: seq<real>)
    ensures |r| == n
    ensures forall j :: 0 <= j < n ==> r[j] == if j == i then 0.0 else 1.0
  {
    seq(n, j => if j == i then 0.0 else 1.0)
  }

  function Dot(a: seq<real>, x: seq<real>): real
    requires |a| == |x|
  {
    if a == [] then 0.0 else a[0] * x[0] + Dot(a[1..], x[1..])
  }

  /** `x` satisfies every equation `A[i] . x == b[i]`. */
  predicate Solves(A: seq<seq<real>>, x: seq<real>, b: seq<real>) {
    |A| == |b| && forall i :: 0 <= i < |A| ==> |A[i]| == |x| && Dot(A[i], x) == b[i]
  }

  /** `np.linalg.solve`: a solution, or None for a singular system. */
  type Solver = (seq<seq<real>>, seq<real>) -> Option<seq<real>>

  /** A solver whose every answer solves the system it was given. */
  ghost predicate Sound(solve: Solver) {
    forall A, b :: solve(A, b).Some? ==> Solves(A, solve(A, b).value, b)
  }

  lemma {:induction false} DotOnes(x: seq<real>)
    ensures Dot(Ones(|x|), x) == Sum(x)
    decreases |x|
  {
    if x != [] {
      assert Ones(|x|)[1..] == Ones(|x| - 1);
      DotOnes(x[1..]);
    }
  }

  /** An exclusion row picks out the sum of every salary but one. */
  lemma {:induction false} DotExclusion(x: seq<real>, i: nat)
    requires i < |x|
    ensures Dot(Exclusion(|x|, i), x) == Sum(x) - x[i]
    decreases |x|
  {
    if i == 0 {
      assert Exclusion(|x|, 0)[1..] == Ones(|x| - 1);
      DotOnes(x[1..]);
    } else {
      assert Exclusion(|x|, i)[1..] == Exclusion(|x| - 1, i - 1);
      DotExclusion(x[1..], i - 1);
    }
  }

  /** The first `n` equations the attack has when every query succeeds: all
      ones, then the exclusions of employees `0 .. n - 2`. */
  function AttackSystem(n: nat): (A: seq<seq<real>>)
    requires n >= 1
    ensures |A| == n
  {
    [Ones(n)] + seq(n - 1, k requires 0 <= k < n - 1 => Exclusion(n, k))
  }

  /** The inverse of the attack system, written out: `x[k] = b[0] - b[k + 1]`
      for the first `n - 1` unknowns, and the last is what remains of `b[0]`. */
  function Recover(b: seq<real>): (x: seq<real>)
    requires |b| >= 1
    ensures |x| == |b|
  {
    var heads := seq(|b| - 1, k requires 0 <= k < |b| - 1 => b[0] - b[k + 1]);
    heads + [b[0] - Sum(heads)]
  }

  lemma SumRecover(b: seq<real>)
    requires |b| >= 1
    ensures Sum(Recover(b)) == b[0]
  {
    var x := Recover(b);
    SumSnoc(x[..|b| - 1], x[|b| - 1]);
    assert x == x[..|b| - 1] + [x[|b| - 1]];
  }

  /** `Recover(b)` solves the attack system: the system is never inconsistent. */
  lemma RecoverSolves(b: seq<real>)
    requires |b| >= 1
    ensures Solves(AttackSystem(|b|), Recover(b), b)
  {
    var n, A, x := |b|, AttackSystem(|b|), Recover(b);
    SumRecover(b);
    forall i | 0 <= i < n ensures |A[i]| == |x| && Dot(A[i], x) == b[i] {
      if i == 0 {
        DotOnes(x);
      } else {
        assert A[i] == Exclusion(n, i - 1);
        DotExclusion(x, i - 1);
      }
    }
  }

  /** Every solution of the attack system is `Recover(b)`: the first `n`
      equations are nonsingular (row 0 minus row `k + 1` is unit vector `k`). */
  lemma SolutionIsUnique(x: seq<real>, b: seq<real>)
    requires |b| >= 1 && |x| == |b|
    requires Solves(AttackSystem(|b|), x, b)
    ensures x == Recover(b)
  {
    var n, A, r := |b|, AttackSystem(|b|), Recover(b);
    assert Sum(x) == b[0] by {
      DotOnes(x);
      assert Dot(A[0], x) == b[0];
    }
    forall k | 0 <= k < n - 1 ensures x[k] == r[k] {
      assert A[k + 1] == Exclusion(n, k);
      DotExclusion(x, k);
    }
    assert x[..n - 1] == r[..n - 1];
    SumSnoc(x[..n - 1], x[n - 1]);
    assert x == x[..n - 1] + [x[n - 1]];
    assert r == r[..n - 1] + [r[n - 1]];
  }

  /** The constants the attack computes on consistent data: the department
      total, then the total less each excluded salary. */
  function TrueConstants(x: seq<real>): (b: seq<real>)
    requires |x| >= 1
    ensures |b| == |x|
  {
    [Sum(x)] + seq(|x| - 1, k requires 0 <= k < |x| - 1 => Sum(x) - x[k])
  }

  /** The true salaries satisfy the equations built from consistent data, and
      so are the one solution any sound solver can return. */
  lemma TrueSalariesSolve(x: seq<real>)
    requires |x| >= 1
    ensures Solves(AttackSystem(|x|), x, TrueConstants(x))
    ensures Recover(TrueConstants(x)) == x
  {
    var n, A, b := |x|, AttackSystem(|x|), TrueConstants(x);
    forall i | 0 <= i < n ensures |A[i]| == |x| && Dot(A[i], x) == b[i] {
      if i == 0 {
        DotOnes(x);
      } else {
        assert A[i] == Exclusion(n, i - 1);
        DotExclusion(x, i - 1);
      }
    }
    SolutionIsUnique(x, b);
  }
}

=== FILE: sorting.dfy ===
/** Python's ordering of `str` and the stable sort `sorted()` performs,
    modelled as an insertion sort keyed by a string. */
module Sorting {

  /** Python's `a <= b` on `str`: code point by code point, a proper prefix
      first. */
  predicate StrLe(a: string, b: string)
    decreases |a|
  {
    if a == [] then true
    else if b == [] then false
    else if a[0] != b[0] then a[0] < b[0]
    else StrLe(a[1..], b[1..])
  }

  lemma {:induction false} StrLeTotal(a: string, b: string)
    ensures StrLe(a, b) || StrLe(b, a)
    decreases |a|
  {
    if a != [] && b != [] && a[0] == b[0] {
      StrLeTotal(a[1..], b[1..]);
    }
  }

  lemma {:induction false} StrLeAntisymmetric(a: string, b: string)
    requires StrLe(a, b) && StrLe(b, a)
    ensures a == b
    decreases |a|
  {
    if a != [] {
      StrLeAntisymmetric(a[1..], b[1..]);
      assert a == [a[0]] + a[1..] && b == [b[0]] + b[1..];
    }
  }

  lemma {:induction false} StrLeTransitive(a: string, b: string, c: string)
    requires StrLe(a, b) && StrLe(b, c)
    ensures StrLe(a, c)
    decreases |a|
  {
    if a != [] && b != [] && c != [] && a[0] == b[0] && b[0] == c[0] {
      StrLeTransitive(a[1..], b[1..], c[1..]);
    }
  }

  predicate SortedBy<T>(s: seq<T>, key: T -> string) {
    forall i, j :: 0 <= i < j < |s| ==> StrLe(key(s[i]), key(s[j]))
  }

  /** Insert `x` in front of the first element whose key is not below its own. */
  function InsertBy<T(==)>(x: T, s: seq<T>, key: T -> string): (r: seq<T>)
    ensures multiset(r) == multiset(s) + multiset{x}
  {
    if s == [] || StrLe(key(x), key(s[0])) then [x] + s
    else
      assert s == [s[0]] + s[1..];
      [s[0]] + InsertBy(x, s[1..], key)
  }

  lemma {:induction false} InsertBySorted<T>(x: T, s: seq<T>, key: T -> string)
    requires SortedBy(s, key)
    ensures SortedBy(InsertBy(x, s, key), key)
    decreases |s|
  {
    var r := InsertBy(x, s, key);
    if s == [] {
    } else if StrLe(key(x), key(s[0])) {
      forall j | 0 < j < |r| ensures StrLe(key(r[0]), key(r[j])) {
        if j > 1 {
          StrLeTransitive(key(x), key(s[0]), key(s[j - 1]));
        }
      }
    } else {
      var rest := InsertBy(x, s[1..], key);
      InsertBySorted(x, s[1..], key);
      StrLeTotal(key(x), key(s[0]));
      forall k | 0 <= k < |rest| ensures StrLe(key(s[0]), key(rest[k])) {
        assert rest[k] in multiset(rest);
        if rest[k] != x {
          assert rest[k] in multiset(s[1..]);
          var m :| 0 <= m < |s[1..]| && s[1..][m] == rest[k];
          assert s[m + 1] == rest[k];
        }
      }
      assert r == [s[0]] + rest;
    }
  }

  /** `sorted(s, key=key)`: stable, ascending by key. */
  function SortBy<T(==)>(s: seq<T>, key: T -> string): (r: seq<T>)
    ensures SortedBy(r, key)
    ensures multiset(r) == multiset(s)
  {
    if s == [] then []
    else
      assert s == [s[0]] + s[1..];
      var rest := SortBy(s[1..], key);
      InsertBySorted(s[0], rest, key);
      InsertBy(s[0], rest, key)
  }

  function Id(s: string): string {
    s
  }

  /** `sorted(s)` on a list of strings. */
  function SortStrings(s: seq<string>): (r: seq<string>)
    ensures SortedBy(r, Id)
    ensures multiset(r) == multiset(s)
  {
    SortBy(s, Id)
  }

  lemma TailMultiset<T>(a: seq<T>)
    requires a != []
    ensures multiset(a[1..]) == multiset(a) - multiset{a[0]}
  {
    assert a == [a[0]] + a[1..];
  }

  /** Two sorted permutations of each other start with the same string. */
  lemma SortedHeadsAgree(a: seq<string>, b: seq<string>)
    requires SortedBy(a, Id) && SortedBy(b, Id)
    requires multiset(a) == multiset(b) && a != []
    ensures b != [] && a[0] == b[0]
  {
    assert a[0] in multiset(b);
    var j :| 0 <= j < |b| && b[j] == a[0];
    assert b[0] in multiset(a);
    var i :| 0 <= i < |a| && a[i] == b[0];
    if j != 0 && i != 0 {
      assert StrLe(Id(b[0]), Id(b[j]));
      assert StrLe(Id(a[0]), Id(a[i]));
      StrLeAntisymmetric(a[0], b[0]);
    }
  }

  /** A sorted list of strings is determined by its elements: two sorted
      permutations of each other are equal. */
  lemma {:induction false} SortedStringsUnique(a: seq<string>, b: seq<string>)
    requires SortedBy(a, Id) && SortedBy(b, Id)
    requires multiset(a) == multiset(b)
    ensures a == b
    decreases |a|
  {
    if a == [] {
      assert |b| == |multiset(b)| == 0;
    } else {
      SortedHeadsAgree(a, b);
      TailMultiset(a);
      TailMultiset(b);
      SortedStringsUnique(a[1..], b[1..]);
      assert a == [a[0]] + a[1..] && b == [b[0]] + b[1..];
    }
  }

  /** `sorted(s)` depends only on which strings `s` holds, not on their order. */
  lemma SortStringsOrderFree(s: seq<string>, t: seq<string>)
    requires multiset(s) == multiset(t)
    ensures SortStrings(s) == SortStrings(t)
  {
    SortedStringsUnique(SortStrings(s), SortStrings(t));
  }
}

=== FILE: text.dfy ===
/** The few pieces of Python's `str` behaviour the core relies on: lower-casing,
    `strip()`, `find()`, `startswith()`, `str(int)` and the `:.2f` format. */
module Text {

  /** `c.lower()` on ASCII letters; every other character is kept. */
  function LowerChar(c: char): char {
    if 'A' <= c <= 'Z' then (c as int + 32) as char else c
  }

  function Lower(s: string): (r: string)
    ensures |r| == |s|
    ensures forall i {:trigger r[i]} :: 0 <= i < |s| ==> r[i] == LowerChar(s[i])
  {
    seq(|s|, i requires 0 <= i < |s| => LowerChar(s[i]))
  }

  /** The characters for which Python's `str.isspace()` holds; `strip()`
      with no argument removes exactly these. */
  predicate IsSpace(c: char) {
    || '\t' <= c <= '\r' || '\U{001c}' <= c <= ' '
    || c == '\U{0085}' || c == '\U{00a0}' || c == '\U{1680}'
    || '\U{2000}' <= c <= '\U{200a}' || c == '\U{2028}' || c == '\U{2029}'
    || c == '\U{202f}' || c == '\U{205f}' || c == '\U{3000}'
  }

  /** Number of leading whitespace characters of `s`. */
  function LeadingSpace(s: string): (n: nat)
    ensures n <= |s|
    ensures forall i :: 0 <= i < n ==> IsSpace(s[i])
    ensures n < |s| ==> !IsSpace(s[n])
  {
    if s == [] || !IsSpace(s[0]) then 0 else 1 + LeadingSpace(s[1..])
  }

  /** Number of trailing whitespace characters of `s`. */
  function TrailingSpace(s: string): (n: nat)
    ensures n <= |s|
    ensures forall i :: |s| - n <= i < |s| ==> IsSpace(s[i])
    ensures n < |s| ==> !IsSpace(s[|s| - n - 1])
  {
    if s == [] || !IsSpace(s[|s| - 1]) then 0 else 1 + TrailingSpace(s[..|s| - 1])
  }

  /** `s.strip()`: the slice of `s` between its leading and its trailing
      whitespace. */
  function Strip(s: string): (r: string)
    ensures |r| <= |s|
    ensures LeadingSpace(s) + |r| <= |s| && r == s[LeadingSpace(s)..LeadingSpace(s) + |r|]
    ensures r != [] ==> !IsSpace(r[0]) && !IsSpace(r[|r| - 1])
    ensures forall i :: LeadingSpace(s) + |r| <= i < |s| ==> IsSpace(s[i])
  {
    var a := LeadingSpace(s);
    var rest := s[a..];
    var b := TrailingSpace(rest);
    assert forall i :: |rest| - b <= i < |rest| ==> rest[i] == s[a + i];
    rest[..|rest| - b]
  }

  /** Lower-casing never changes whether a character is whitespace. */
  lemma LowerKeepsSpace(c: char)
    ensures IsSpace(LowerChar(c)) <==> IsSpace(c)
  {
  }

  /** `pat` occurs in `s` starting at index `i`. */
  predicate OccursAt(s: string, pat: string, i: int) {
    0 <= i && i + |pat| <= |s| && s[i..i + |pat|] == pat
  }

  /** `s.startswith(p)`. */
  predicate StartsWith(s: string, p: string) {
    OccursAt(s, p, 0)
  }

  /** `s.find(pat, i)`: the first occurrence at or after `i`, or -1. */
  function FindFrom(s: string, pat: string, i: nat): (r: int)
    requires i <= |s|
    ensures r == -1 || (i <= r && OccursAt(s, pat, r))
    ensures r == -1 ==> forall j :: i <= j <= |s| ==> !OccursAt(s, pat, j)
    ensures r != -1 ==> forall j :: i <= j < r ==> !OccursAt(s, pat, j)
    decreases |s| - i
  {
    if OccursAt(s, pat, i) then i
    else if i + |pat| >= |s| then -1
    else FindFrom(s, pat, i + 1)
  }

  /** `s.find(pat)`: the index of the first occurrence of `pat`, or -1. */
  function Find(s: string, pat: string): (r: int)
    ensures r == -1 || OccursAt(s, pat, r)
    ensures r == -1 <==> forall j :: 0 <= j <= |s| ==> !OccursAt(s, pat, j)
    ensures r != -1 ==> forall j :: 0 <= j < r ==> !OccursAt(s, pat, j)
  {
    FindFrom(s, pat, 0)
  }

  /** `pat in s`. */
  predicate Contains(s: string, pat: string) {
    Find(s, pat) != -1
  }

  predicate IsDigit(c: char) {
    '0' <= c <= '9'
  }

  function DigitChar(d: int): (c: char)
    requires 0 <= d < 10
    ensures IsDigit(c)
  {
    ('0' as int + d) as char
  }

  /** Decimal digits of `n` without leading zeros, as `str(n)` prints them. */
  function NatToString(n: nat): (r: string)
    ensures |r| >= 1
    ensures forall i :: 0 <= i < |r| ==> IsDigit(r[i])
    ensures |r| > 1 ==> r[0] != '0'
    decreases n
  {
    if n < 10 then [DigitChar(n)] else NatToString(n / 10) + [DigitChar(n % 10)]
  }

  /** `str(i)` for a Python `int`. */
  function IntToString(i: int): (r: string)
    ensures |r| >= 1
    ensures i < 0 <==> r[0] == '-'
  {
    if i < 0 then "-" + NatToString(-i) else NatToString(i)
  }

  function DigitValue(c: char): nat
    requires IsDigit(c)
  {
    c as int - '0' as int
  }

  /** The number a string of decimal digits denotes. */
  function DecimalValue(s: string): nat
    requires forall i :: 0 <= i < |s| ==> IsDigit(s[i])
  {
    if s == [] then 0 else 10 * DecimalValue(s[..|s| - 1]) + DigitValue(s[|s| - 1])
  }

  /** `int(s)` for what `str(i)` printed. */
  function ParseInt(s: string): int
    requires |s| >= 1
    requires forall i :: (if s[0] == '-' then 1 else 0) <= i < |s| ==> IsDigit(s[i])
  {
    if s[0] == '-' then 0 - DecimalValue(s[1..]) else DecimalValue(s)
  }

  /** Reading back the digits `str(n)` printed gives `n`. */
  lemma {:induction false} NatToStringRoundTrip(n: nat)
    ensures DecimalValue(NatToString(n)) == n
    decreases n
  {
    if n >= 10 {
      var s := NatToString(n);
      assert s[..|s| - 1] == NatToString(n / 10);
      NatToStringRoundTrip(n / 10);
    }
  }

  /** `int(str(i)) == i`: the printed form of an integer determines it. */
  lemma IntToStringRoundTrip(i: int)
    ensures ParseInt(IntToString(i)) == i
  {
    if i < 0 {
      assert IntToString(i)[1..] == NatToString(-i);
      NatToStringRoundTrip(-i);
    } else {
      NatToStringRoundTrip(i);
    }
  }

  /** `num / den` rounded to hundredths, ties to even, as Python rounds the
      exact value when it formats with `:.2f`. */
  function Hundredths(num: nat, den: nat): (h: nat)
    requires den > 0
    ensures 2 * (if h * den >= 100 * num then h * den - 100 * num else 100 * num - h * den) <= den
  {
    var q := (100 * num) / den;
    var rem := (100 * num) % den;
    assert q * den + rem == 100 * num;
    assert (q + 1) * den == q * den + den;
    if 2 * rem > den || (2 * rem == den && q % 2 == 1) then q + 1 else q
  }

  /** `f"{num / den:.2f}"` for a non-negative fraction: the whole part
      without leading zeros, a point, and exactly two decimals, which read
      back as `num / den` rounded to hundredths. */
  function Fixed2(num: nat, den: nat): (r: string)
    requires den > 0
    ensures |r| >= 4 && r[|r| - 3] == '.'
    ensures forall i :: 0 <= i < |r| && i != |r| - 3 ==> IsDigit(r[i])
    ensures |r| > 4 ==> r[0] != '0'
    ensures 100 * DecimalValue(r[..|r| - 3]) + 10 * DigitValue(r[|r| - 2]) + DigitValue(r[|r| - 1])
         == Hundredths(num, den)
  {
    var h := Hundredths(num, den);
    var whole := NatToString(h / 100);
    var r := whole + "." + [DigitChar((h % 100) / 10), DigitChar(h % 10)];
    assert r[..|r| - 3] == whole;
    NatToStringRoundTrip(h / 100);
    r
  }
}
